=== FILE: README.md ===
# A Dafny model of the Vool coaching-app core

Vool is a coaching web app. Coaches keep a client list, a schedule, packages, invoices and bookings. Clients find coaches, ask to book them and upload media. Both sides exchange messages and receive notifications. The app is a React front end talking straight to a hosted database. This project models the deterministic logic between the screens and the database. Every table is an immutable value, and every handler is a pure function from the tables before to the tables after.

The modules follow the app's structure:

- `Common` holds ASCII string helpers (case mapping, `trim`, infix search, decimal rendering) and order-preserving sequence helpers (filter, subsequence, de-duplication, prefix).
- `Sorting` holds the stable newest-first sort that stands for the database's `order by ... desc`.
- `Inbox` covers `useMessages`: the conversation list folded from the message log, sending, marking a thread read and the live-insert dispatcher.
- `Feed` covers `useNotifications` and the dropdown's view logic: fetch capped at 50, live prepend, mark one or all read, delete, create, the badge and click-to-read.
- `Booking` covers the booking workflow across the coach profile, the notifications dropdown and the booking page. The store holds requests by id, relationships keyed by the (coach, client) pair, and the notification log.
- `Access` covers the route guard, the route table and role selection.
- `Validation`, `AuthForms`, `ClientForms` and `Pricing` cover the form schemas and the rows the forms write.
- `Sessions` covers the `registered_` option ids, the add-session dialog and the schedule's quick sessions, drops and completion.
- `ClientSessions` covers the client's sessions page.
- `Settings` covers the coach profile form and its certification list.
- `Listing` covers the client filters, the coach search and the new-message contact list.
- `Invoices` covers the invoice form's find-or-create client.
- `Media` covers the client's media upload.

Some inputs are parameters instead of effects:
- Database outcomes are booleans (`insertOk`, `updateOk`, ...).
- Generated ids and timestamps are arguments, and timestamps are integers.
- The schema library's e-mail check and `parseInt` are function-typed parameters.
- Query results that may be null are `Option`s.

## Model

| member | source | states |
|---|---|---|
| Inbox.InboxQuery | src/hooks/useMessages.ts:86-95 | the inbox query returns the messages self sent or received, each as many times as the table holds it and no other, newest first |
| Inbox.ThreadQuery | src/hooks/useMessages.ts:70-84 | a thread holds the messages between the two users, each as many times as the table holds it and no other, oldest first |
| Inbox.UnreadFromIsSentBy | src/hooks/useMessages.ts:112-114 | for any partner other than self, the unread count filed under that partner equals the number of that partner's unread messages to self; self's own messages never count |
| Inbox.GroupFoldSpec | src/hooks/useMessages.ts:103-115 | the grouping fold gives one bucket per distinct partner, in first-seen order; each bucket holds exactly that partner's messages in log order, with the receiver-side unread count |
| Inbox.GroupFold | src/hooks/useMessages.ts:103-115 | the `forEach` grouping gives non-empty buckets only, and no bucket exactly when the log is empty; Inbox.GroupFoldSpec pins the buckets' contents |
| Common.Find | src/hooks/useMessages.ts:131-132 | the lookup returns an element satisfying the test, and nothing only when none does |
| Common.FindFirst | src/pages/MySessions.tsx:66 | the lookup returns the earliest element satisfying the test |
| Inbox.AvatarOf | src/hooks/useMessages.ts:137 | the partner's avatar URL when the profile has a non-empty one; a missing profile, a null URL or an empty URL becomes null |
| Inbox.ConversationsSpec | src/hooks/useMessages.ts:103-146 | there is one conversation per distinct partner, and every fetched message's partner has one. Each entry previews the first fetched message of its thread and carries its unread count and profile name ("Unknown" when missing). The list is sorted by preview time, newest first, and an empty log gives an empty list |
| Inbox.Conversations | src/hooks/useMessages.ts:103-146 | the list `fetchConversations` builds has one entry per grouped partner, is ordered by preview time, newest first, and is empty exactly when the fetched log is; Inbox.ConversationsSpec and Inbox.ConversationsShape pin every entry |
| Inbox.ConversationsShape | src/hooks/useMessages.ts:118-145 | the list has one entry per distinct partner, the partner ids are pairwise distinct, and the order is newest first |
| Inbox.PreviewIsNewest | src/hooks/useMessages.ts:91-140 | with the inbox query's newest-first order, no message of a partner is newer than that conversation's preview time |
| Inbox.SingleMessageInbox | src/hooks/useMessages.ts:103-142 | a log of one message gives one conversation with its partner, that message as preview, and an unread count of 1 exactly when self received it unread |
| Inbox.RefreshConversations | src/hooks/useMessages.ts:86-123 | a failed query keeps the previous list, an empty result empties it, and otherwise the list becomes the grouped conversations of the fetched rows |
| Inbox.SendMessage | src/hooks/useMessages.ts:150-160 | blank content or no user writes nothing and returns undefined. Otherwise it inserts one unread row (self to the receiver, trimmed content) and reports the insert's success |
| Inbox.MarkThreadRead | src/hooks/useMessages.ts:162-171 | only the read flag changes; it is set on exactly the unread rows the partner sent to self |
| Inbox.MarkThreadReadEffect | src/hooks/useMessages.ts:162-171 | after marking, the partner's unread count is 0 and every other partner's count is unchanged |
| Inbox.MarkThreadReadIdempotent | src/hooks/useMessages.ts:162-171 | marking a thread read twice is the same as once |
| Inbox.OnMessageInsert | src/hooks/useMessages.ts:49-60 | an insert not involving self changes nothing. An insert in the open thread is appended to it; when the partner sent it, the table gets the thread's read marks and no unread message from the partner remains, otherwise the table is untouched. Any other insert refetches the conversations: on success they are recomputed from the table, on a failed query the previous list stays |
| Inbox.OpenThread | src/hooks/useMessages.ts:32-34 | opening a thread loads that pair's messages oldest first (the thread query's result), or keeps the thread shown before when the fetch returns no data; it applies the read marks for the partner's messages to the table and leaves no unread message from the partner |
| Inbox.FirstMessageScenario | src/hooks/useMessages.ts:150-171 | a coach's first "Hello" to a client shows up as one conversation with one unread message, and reading the thread clears the count |
| Feed.Fetched | src/hooks/useNotifications.ts:50-58 | a fetch keeps at most 50 of the user's own notifications, newest first, and all of them when the user has at most 50 |
| Feed.Fetch | src/hooks/useNotifications.ts:50-64 | no user or a failed query leaves the state alone; otherwise the list is the fetched page and the counter equals its unread entries |
| Feed.FetchKeepsNewest | src/hooks/useNotifications.ts:53-58 | a notification dropped by the limit is no newer than any kept one |
| Feed.OnInsert | src/hooks/useNotifications.ts:37-41 | a live insert is prepended and the counter grows by exactly one, which stays consistent for an unread insert |
| Feed.MarkItems | src/hooks/useNotifications.ts:72-74 | marking an id changes only the entries with that id, and only their read flag |
| Feed.MarkRead | src/hooks/useNotifications.ts:72-75 | in local state, the entries with the id become read and the counter drops by one, floored at 0, even when the entry was already read |
| Feed.MarkAsRead | src/hooks/useNotifications.ts:66-76 | `markAsRead` sets the read flag on the table rows with the id, leaving every other row and field as it was, and applies the local update |
| Feed.MarkAsReadThenFetch | src/hooks/useNotifications.ts:66-76 | after marking an id read in the table, a fresh fetch shows every entry with that id as read |
| Feed.MarkReadConsistency | src/hooks/useNotifications.ts:72-75 | marking the one unread entry with an id keeps the counter exact; marking an already-read entry makes it undercount by one |
| Feed.MarkItemsCount | src/hooks/useNotifications.ts:72-75 | marking removes from the unread count exactly the unread entries with that id |
| Feed.MarkAllRead | src/hooks/useNotifications.ts:78-89 | with a user, every entry is read, in the same order, and the counter is 0; without one nothing changes |
| Feed.MarkAllReadSettles | src/hooks/useNotifications.ts:87-88 | after marking all read the state is consistent and a second application changes nothing |
| Feed.MarkAllReadRows | src/hooks/useNotifications.ts:81-85 | the table update sets the read flag on exactly the user's unread rows |
| Feed.MarkAllReadThenFetch | src/hooks/useNotifications.ts:78-89 | after the table update, a fresh fetch shows no unread notification |
| Feed.Delete | src/hooks/useNotifications.ts:97 | in local state, delete removes exactly the entries with the id, keeps every other entry as many times as it occurs and in order, and leaves the counter as it was |
| Feed.DeleteNotification | src/hooks/useNotifications.ts:91-98 | `deleteNotification` removes exactly the table rows with the id, keeping every other row as many times as it occurs and in order, and applies the local removal |
| Feed.DeleteThenFetch | src/hooks/useNotifications.ts:91-98 | after deleting an id from the table, a fresh fetch shows no entry with that id |
| Feed.DeleteCount | src/hooks/useNotifications.ts:97 | deleting removes from the unread count exactly the unread entries with that id |
| Feed.DeleteUnreadLeavesCount | src/hooks/useNotifications.ts:97 | deleting an unread notification leaves the counter one above the true count |
| Feed.CounterNeverNegative | src/hooks/useNotifications.ts:37-98 | no transition makes the counter negative |
| Feed.NewNotification | src/hooks/useNotifications.ts:111-125 | the new row carries the given user, kind, title and message, is unread, and has data `{}` when none is given |
| Feed.CreateNotification | src/hooks/useNotifications.ts:111-125 | exactly one row is appended and the existing rows are untouched |
| Feed.CreateThenFetch | src/hooks/useNotifications.ts:111-125 | a notification newer than all the user's others is the first entry of the next fetch |
| Feed.BadgeText | src/components/NotificationsDropdown.tsx:128-130 | the badge is hidden at 0 or below, reads "9+" above 9, and shows the number otherwise |
| Feed.ShowMarkAll | src/components/NotificationsDropdown.tsx:136-140 | "mark all read" is offered exactly when the badge shows |
| Feed.Click | src/components/NotificationsDropdown.tsx:154 | clicking a read notification changes nothing; clicking an unread one marks it read in the table and in local state |
| Feed.ReadingEndsActions | src/components/NotificationsDropdown.tsx:119-121 | only a booking request offers Accept and Reject, an unread one always does, and a read entry never does |
| Feed.ClickEndsAction | src/components/NotificationsDropdown.tsx:119-154 | after clicking an unread notification, no entry with that id offers Accept or Reject, neither in local state nor in a fresh fetch |
| Booking.RelatedClients | src/components/AddSessionDialog.tsx:73-76 | the coach's related clients are exactly the clients of a relationship row of the coach, whatever its status |
| Booking.ActiveClients | src/pages/Schedule.tsx:102-106 | the active clients are exactly those whose relationship with the coach is "active" |
| Booking.ActiveCoaches | src/components/NewMessageDialog.tsx:94-98 | the active coaches are exactly those whose relationship with the client is "active" |
| Booking.SetStatus | src/components/NotificationsDropdown.tsx:35-38 | only the referenced request changes, and only its status |
| Booking.Upsert | src/pages/BookingManagement.tsx:105-111 | after the upsert keyed on the pair, the pair has exactly one row with the new status, an existing row keeps its id, and every other pair is untouched |
| Booking.CheckThenWrite | src/components/NotificationsDropdown.tsx:41-61 | after a check-then-write, the pair has a row with the new status |
| Booking.CheckThenWriteIsUpsert | src/components/NotificationsDropdown.tsx:41-61 | with unique row ids, the dropdown's check-then-update-or-insert is the same as the upsert on the pair |
| Booking.UpsertKeepsUniqueIds | src/pages/BookingManagement.tsx:105-111 | an upsert with a fresh id keeps relationship row ids unique |
| Booking.RequestMessage | src/pages/CoachProfile.tsx:112-114 | a package request sends the user's text verbatim; an hourly one prefixes it with "Requesting ..." |
| Booking.PackageRef | src/pages/CoachProfile.tsx:121 | package_id is the selected package's id, or null when none is selected |
| Booking.RequestData | src/pages/CoachProfile.tsx:131-137 | the coach's notification carries client_id and the request id, and package_id only when a package was chosen |
| Booking.RequestBooking | src/pages/CoachProfile.tsx:90-147 | no user or coach means no writes. Otherwise the pair's relationship becomes "pending". If the request insert succeeds, the pending request is stored, the coach is notified and the form resets. If it fails, only the relationship write remains |
| Booking.FullName | src/pages/CoachProfile.tsx:135 | the name is the first name, a space and the last name; a missing profile renders as "undefined undefined", as the template literal renders absent fields |
| Booking.BookedWhat | src/pages/CoachProfile.tsx:135 | an hourly request names its hours; otherwise the package name, or "a session" when no named package is chosen; the text is never empty |
| Booking.RequestDemotesRelationship | src/pages/CoachProfile.tsx:104-110 | a request overwrites the pair's relationship, an active one included, with "pending", keeping the row's id |
| Booking.DropdownAccept | src/components/NotificationsDropdown.tsx:19-79 | a missing reference or user writes nothing, and with both references and a user the accept completes. A completed accept sets the request "accepted", makes the pair "active", notifies the client "booking_accepted" with the coach's id, and marks the handled notification read in the table and in local state |
| Booking.DropdownReject | src/components/NotificationsDropdown.tsx:81-117 | a missing reference or user writes nothing, and with both references and a user the reject completes. A reject never touches relationships. A completed reject sets the request "rejected", notifies the client "booking_rejected" and marks the handled notification read in the table and in local state |
| Booking.HandledNotificationIsSettled | src/components/NotificationsDropdown.tsx:73-121 | after accept or reject, the notification no longer offers either action, neither in local state nor in a fresh fetch of the table |
| Booking.CoachData | src/pages/BookingManagement.tsx:126 | the data is `{coach_id}` with a user and `{}` without one |
| Booking.ManageAccept | src/pages/BookingManagement.tsx:96-142 | accept sets the request "accepted", upserts the pair to "active" and notifies the client "booking_accepted" |
| Booking.ManageReject | src/pages/BookingManagement.tsx:144-180 | reject sets the request "rejected", leaves relationships alone and notifies the client "booking_rejected" |
| Booking.AcceptPathsAgree | src/components/NotificationsDropdown.tsx:35-70 | accepting from the dropdown and from the booking page write the same request status, the same relationships, and an equivalent notification; the dropdown also marks the handled notification read |
| Booking.RequestNotificationIsActionable | src/pages/CoachProfile.tsx:131-137 | the coach's new notification is unread, of kind "booking_request", and carries both references the accept handler requires |
| Booking.RequestThenAccept | src/components/NotificationsDropdown.tsx:19-79 | a request followed by accepting its notification leaves the request "accepted", the pair "active" and the client notified "booking_accepted" |
| Booking.RequestThenReject | src/components/NotificationsDropdown.tsx:81-117 | a request followed by a rejection leaves the request "rejected" and the relationship "pending" |
| Booking.PendingProcessedPartition | src/pages/BookingManagement.tsx:186-187 | the pending and processed lists keep the fetched order and together hold every request once, split by status |
| Booking.HoursShown | src/pages/BookingManagement.tsx:241 | hours shown default to 1 when null or 0 |
| Booking.WhatsAppNumber | src/pages/CoachProfile.tsx:240 | the WhatsApp number keeps every digit, as many times as it occurs and in order, and nothing else |
| Booking.WhatsAppDigitsUnchanged | src/pages/CoachProfile.tsx:240 | a number of digits only is left unchanged |
| Booking.TelegramHandle | src/pages/CoachProfile.tsx:245 | only the first '@' is removed |
| Access.Guard | src/components/ProtectedRoute.tsx:12-46 | the spinner shows exactly while loading. The page renders exactly for a user with a role that the route admits. Otherwise it redirects to /auth without a user, to /select-role without a role, and to the role's home for a disallowed role |
| Access.RoutesUnambiguous | src/App.tsx:35-124 | no two routes of the table match the same path |
| Access.ResolveFrom | src/App.tsx:35-124 | the chosen route matches the path, or it is the catch-all |
| Access.ResolveFromFirst | src/App.tsx:35-124 | the first matching route is the one chosen |
| Access.ResolveMatching | src/App.tsx:35-124 | any route matching the path is the one chosen |
| Access.Resolve | src/App.tsx:35-124 | a path resolves to the one route of the table matching it, and to the catch-all exactly when no route matches |
| Access.Enter | src/App.tsx:35-124 | a public route shows its page; a guarded one shows its page exactly when the guard renders, which needs an admitted role, and otherwise shows the spinner or follows the guard's redirect |
| Access.Visit | src/App.tsx:35-124 | a public route always shows its page; a guarded route shows its page exactly when the guard renders, which needs a role it admits, and otherwise follows the guard's redirect; whatever is shown is the resolved route's page |
| Access.HomeAdmitsItsRole | src/components/ProtectedRoute.tsx:35-43 | each role's home route admits that role |
| Access.Home | src/components/ProtectedRoute.tsx:32-43 | the page a role is sent home to is a guarded route that admits that role |
| Access.RedirectsEndInOneStep | src/components/ProtectedRoute.tsx:33-43 | after one redirect the next visit shows a page: redirects never loop |
| Access.SpinnerOnlyWhileLoading | src/components/ProtectedRoute.tsx:12-21 | the spinner shows exactly on a guarded route while loading |
| Access.DisallowedRoleRedirects | src/components/ProtectedRoute.tsx:33-44 | a disallowed role always goes to its home and never sees the page |
| Access.AuthIsPublic | src/App.tsx:35 | /auth is unguarded |
| Access.SelectRoleIsPublic | src/App.tsx:36 | /select-role is unguarded |
| Access.DashboardRoute | src/App.tsx:39-43 | / admits exactly coach and admin |
| Access.CoachAreaRoutes | src/App.tsx:44-73 | /clients, /schedule, /pricing, /bookings and /vool-ai admit exactly coach and admin |
| Access.ClientProfileRoute | src/App.tsx:49-53 | /clients/:id resolves to the client profile for coach and admin |
| Access.SharedRoutes | src/App.tsx:74-88 | /messages and /settings admit all three roles |
| Access.ConversationRoute | src/App.tsx:79-83 | /messages/:partnerId admits all three roles |
| Access.ClientAreaRoutes | src/App.tsx:91-115 | the client pages admit only client |
| Access.CoachProfileRoute | src/App.tsx:101-105 | /coach/:id admits only client |
| Access.AdminRoute | src/App.tsx:118-122 | /admin admits only admin |
| Access.UnknownPathsShowNotFound | src/App.tsx:124 | any path no route matches shows NotFound |
| Access.RoleFromText | src/pages/SelectRole.tsx:34-39 | a stored role text is read back only as the role it names |
| Access.RoleTextRoundTrip | src/pages/SelectRole.tsx:34-39 | every role reads back from its own text |
| Access.OnLoad | src/pages/SelectRole.tsx:16-40 | no session goes to /auth, a stored role goes to its home, and no role stays on the page |
| Access.SelectRole | src/pages/SelectRole.tsx:42-74 | with a user and a successful insert, one role row is added and the page goes to that role's home; otherwise nothing is written and nothing navigates. Admin is never chosen |
| Access.SelectedRoleIsAdmitted | src/pages/SelectRole.tsx:60-64 | the page a new role lands on admits that role |
| Validation.Bounded | src/pages/Auth.tsx:15-16 | a length rule passes exactly when the length is within bounds, and reports the too-short problem on its field |
| Validation.AtMost | src/components/AddClientDialog.tsx:17-21 | a maximum-length rule passes exactly within the bound |
| Validation.EmailChecks | src/pages/Auth.tsx:17 | the e-mail passes exactly when it is an address within the length bound, and a bad address is reported first |
| Validation.Shown | src/pages/Auth.tsx:98-103 | the toast shows the first issue, and shows nothing exactly when there is none |
| Validation.NullIfEmpty | src/components/AddClientDialog.tsx:61-65 | an empty string is stored as null, anything else as itself |
| Validation.EmptyIfNull | src/components/EditClientDialog.tsx:64-70 | a null column shows as an empty field |
| Validation.NullableRoundTrip | src/components/EditClientDialog.tsx:64-92 | loading a nullable column into the form and saving it back restores it, unless it held "" |
| Validation.FormStringRoundTrip | src/components/EditClientDialog.tsx:64-92 | saving a field and loading it back restores the text |
| Validation.IntOrZero | src/components/AddClientDialog.tsx:209 | non-numeric input becomes 0 |
| AuthForms.SignupAcceptedIff | src/pages/Auth.tsx:14-25 | the signup form passes exactly when it meets every schema rule: trimmed names of 1..100 characters, a valid e-mail of at most 255, a password of 8..100 equal to the confirmation, and role coach or client |
| AuthForms.SignupIssues | src/pages/Auth.tsx:14-25 | the schema reports no issue exactly when every rule holds; a password mismatch is reported last, on confirmPassword |
| AuthForms.SignupNeverAdmin | src/pages/Auth.tsx:21 | an accepted signup's role is coach or client, never admin |
| AuthForms.MismatchReportedOnConfirm | src/pages/Auth.tsx:22-25 | a form failing only on the password match reports it on confirmPassword |
| AuthForms.Signup | src/pages/Auth.tsx:54-114 | an invalid form makes no sign-up call and no role insert. A valid form calls sign-up with the raw e-mail. The page navigates exactly when the auth call succeeds, and a role row is added only with a returned user and a successful insert |
| AuthForms.SignupRoleRow | src/pages/Auth.tsx:77-96 | a successful signup adds the chosen role's row; a failed role insert still navigates and writes nothing |
| AuthForms.LoginIssues | src/pages/Auth.tsx:27-30 | login passes exactly with a valid e-mail and a non-empty password |
| AuthForms.LoginAcceptsShortPasswords | src/pages/Auth.tsx:29 | any non-empty password passes login validation |
| AuthForms.Login | src/pages/Auth.tsx:116-150 | sign-in is called exactly for a valid form, with the form as entered, and the page navigates to / exactly when it succeeds |
| ClientForms.ClientAcceptedIff | src/components/AddClientDialog.tsx:13-22 | the client form passes exactly when it meets every schema rule |
| ClientForms.ClientIssues | src/components/AddClientDialog.tsx:13-22 | the schema reports no issue exactly when every rule holds; a negative sessions count is reported last |
| ClientForms.SessionsInput | src/components/AddClientDialog.tsx:209 | the sessions input is the parsed number or 0 |
| ClientForms.InsertedRow | src/components/AddClientDialog.tsx:57-67 | the inserted row has the raw names, empty optional fields as null, the sessions count and the coach's id |
| ClientForms.AddClient | src/components/AddClientDialog.tsx:43-104 | a row is added exactly for a valid form, a user and a successful insert, and then the form resets and closes. Otherwise the form stays as entered, and invalid input is reported |
| ClientForms.EditFormOf | src/components/EditClientDialog.tsx:59-72 | the edit form shows null columns as "", missing sessions as 0, and always has a payment status |
| ClientForms.Applied | src/components/EditClientDialog.tsx:83-95 | the update never changes the client's id or coach |
| ClientForms.UpdateById | src/components/EditClientDialog.tsx:83-96 | only the rows with the client's id are updated |
| ClientForms.EditClient | src/components/EditClientDialog.tsx:75-113 | no client does nothing. A valid form with a successful update rewrites that client and closes. An invalid form is reported and writes nothing |
| ClientForms.EditUnchangedKeepsRow | src/components/EditClientDialog.tsx:59-96 | saving the edit form unchanged leaves a fully filled row as it was |
| ClientForms.AddedClientEditsAsEntered | src/components/AddClientDialog.tsx:57-67 | an added client opens for editing with the form as it was entered, payment "pending" |
| ClientForms.UpdateTouchesOnlyThatClient | src/components/EditClientDialog.tsx:96 | every other client row is unchanged |
| Pricing.Written | src/pages/Pricing.tsx:105-114 | the written package keeps its id and coach, and an empty description is stored as null |
| Pricing.UpdatePackage | src/pages/Pricing.tsx:105-129 | only the edited package is rewritten |
| Pricing.Submit | src/pages/Pricing.tsx:95-159 | an empty name or a non-positive price or count writes nothing and keeps the form. Any other submit closes the editor, whatever the database says. It updates the edited package, or inserts a new one for the coach |
| Pricing.OpenEdit | src/pages/Pricing.tsx:176-186 | opening a package for edit copies its fields, with a null description shown as "" |
| Pricing.DefaultFormRejected | src/pages/Pricing.tsx:188-197 | the reset form cannot be submitted |
| Pricing.SubmitKeepsPackagesValid | src/pages/Pricing.tsx:96-103 | the guard keeps the stored packages valid: no submit, whatever its write outcome, stores a package without a name, a positive price and a positive session count |
| Pricing.EditUnchangedKeepsPackage | src/pages/Pricing.tsx:176-186 | saving an opened package unchanged writes it back as it was |
| Pricing.EditUnchangedKeepsTable | src/pages/Pricing.tsx:105-115 | saving an opened package unchanged leaves the table as it was |
| Sessions.Encode | src/components/AddSessionDialog.tsx:88 | a registered client's option id is "registered_" followed by the profile id |
| Sessions.Decode | src/components/AddSessionDialog.tsx:118-120 | exactly one of client_id and user_client_id is set: user_client_id exactly for a prefixed id, client_id otherwise |
| Sessions.DecodeEncode | src/components/AddSessionDialog.tsx:118-120 | decoding an encoded profile id gives it back as user_client_id |
| Sessions.EncodeDecode | src/components/AddSessionDialog.tsx:118-120 | a prefixed option is re-encoded from its decoded profile id |
| Sessions.ProfilesIn | src/components/AddSessionDialog.tsx:81-84 | the profiles whose ids are in the set are kept, each as many times as it occurs, and no others |
| Sessions.AsOptions | src/components/AddSessionDialog.tsx:86-93 | every registered profile gets its encoded id |
| Sessions.PickerOptions | src/components/AddSessionDialog.tsx:73-99 | the picker lists the manual clients first, in order, then every profile of a related client under its encoded id |
| Sessions.PickedOptionDecodes | src/components/AddSessionDialog.tsx:96-120 | picking a manual client files the session under its id, and picking a registered one files it under the profile id |
| Sessions.FreshForm | src/components/AddSessionDialog.tsx:142-149 | the reset form has no client and no location, and the day is today |
| Sessions.ResetFormDisablesSubmit | src/components/AddSessionDialog.tsx:270 | submit is enabled exactly when not submitting and a client is picked, so the reset form cannot be submitted |
| Sessions.NewSession | src/components/AddSessionDialog.tsx:122-131 | the new session is "upcoming", names the decoded client, stores an empty location as null, and uses the parsed duration |
| Sessions.SessionNamesOneClient | src/components/AddSessionDialog.tsx:118-125 | a new session names exactly one client |
| Sessions.AddSession | src/components/AddSessionDialog.tsx:107-149 | a successful insert adds the session and resets the form; otherwise nothing changes |
| Sessions.ManualEntries | src/pages/Schedule.tsx:126 | manual clients are listed unmarked |
| Sessions.RegisteredEntries | src/pages/Schedule.tsx:116-122 | registered clients are listed with a check-mark suffix |
| Sessions.ScheduleClients | src/pages/Schedule.tsx:92-126 | the list is the manual clients, unmarked, followed by registered entries only for profiles of active relationships, and every such profile appears with its name marked |
| Sessions.RegisteredNamesMarked | src/pages/Schedule.tsx:116-122 | every registered entry comes from a profile of an active client, its first name marked |
| Sessions.QuickSessionAsWritten | src/pages/Schedule.tsx:207-223 | as written: every quick session puts the dragged id into client_id and leaves user_client_id null. Defaults are 09:00, 60 minutes, "Training", "upcoming" |
| Sessions.RegisteredDropMisfiled | src/pages/Schedule.tsx:216-223 | as written: dropping a registered client gives a row the client_id foreign key rejects, and one that names no user to notify |
| Sessions.QuickSession | src/pages/Schedule.tsx:207-223 | corrected: exactly one client column is set, user_client_id for a registered entry and client_id for a manual one, with the same defaults |
| Sessions.QuickSessionKeyHolds | src/pages/Schedule.tsx:207-223 | corrected: every schedule entry gives a row the foreign key accepts |
| Sessions.CreateQuick | src/pages/Schedule.tsx:207-225 | as written: the as-written row is added exactly when there is a user, the insert succeeds otherwise, and the dragged id is a row of `clients`; nothing else is ever added |
| Sessions.Drop | src/pages/Schedule.tsx:255-262 | as written: a drop clears the drag and creates the as-written quick session only when a client was dragged |
| Sessions.TouchEnd | src/pages/Schedule.tsx:269-275 | as written: a touch end clears the drag and drops only with a dragged client and a target day |
| Sessions.RegisteredDropSchedulesNothing | src/pages/Schedule.tsx:255-275 | as written: dropping or touching a registered client whose profile id is not a manual client's id schedules nothing |
| Sessions.CreateQuickCorrected | src/pages/Schedule.tsx:207-225 | corrected: the corrected row is added exactly when there is a user, the insert succeeds otherwise, and the entry is registered or a row of `clients` |
| Sessions.DropCorrected | src/pages/Schedule.tsx:255-262 | corrected: a drop clears the drag and creates the corrected quick session only when a client was dragged |
| Sessions.TouchEndCorrected | src/pages/Schedule.tsx:269-275 | corrected: a touch end clears the drag and drops only with a dragged client and a target day |
| Sessions.CorrectionKeepsManualDrops | src/pages/Schedule.tsx:255-275 | the correction changes nothing for a manual client |
| Sessions.CorrectedDropSchedules | src/pages/Schedule.tsx:255-262 | corrected: dropping any listed entry schedules it when the insert otherwise succeeds |
| Sessions.SetStatus | src/pages/Schedule.tsx:158-161 | only the session with the id changes, and only its status |
| Sessions.CompletionWithdrawsOffer | src/pages/Schedule.tsx:434 | a new session offers "Mark Complete"; completing a session withdraws the offer for that session only |
| Common.FilterOne | src/pages/Schedule.tsx:176-180 | filtering leaves a single element exactly when a single position satisfies the test, the condition under which `.single()` returns a row |
| Sessions.Single | src/pages/Schedule.tsx:176-180 | the lookup returns a row exactly when one row has the id, and then it is that row |
| Sessions.MarkComplete | src/pages/Schedule.tsx:156-191 | a successful update marks the session completed. The client is notified "session_completed" with `{session_id}` exactly when the session names a user client |
| Sessions.CompletionMessage | src/pages/Schedule.tsx:187 | the client's notification names the session type and the coach |
| Sessions.ManualSessionCompletesQuietly | src/pages/Schedule.tsx:176-190 | completing a session without a user client notifies nobody |
| Sessions.QuickSessionThenComplete | src/pages/Schedule.tsx:156-223 | corrected: completing a registered client's quick session notifies that client |
| ClientSessions.StatusColor | src/pages/MySessions.tsx:86-96 | accepted and completed show "default", rejected and cancelled show "destructive", everything else "secondary" |
| ClientSessions.UnknownStatusIsSecondary | src/pages/MySessions.tsx:94 | an unknown status looks like a pending one |
| ClientSessions.UpcomingSessions | src/pages/MySessions.tsx:98 | upcoming sessions are those at or after now, in order |
| ClientSessions.PastSessions | src/pages/MySessions.tsx:99 | past sessions are those before now, in order |
| ClientSessions.TabsPartition | src/pages/MySessions.tsx:98-99 | for a single reading of the clock, the two tabs together hold every session exactly once |
| ClientSessions.CoachIds | src/pages/MySessions.tsx:58 | the coach ids are distinct and are exactly those of the sessions |
| ClientSessions.FindCoach | src/pages/MySessions.tsx:66 | the attached coach profile has the session's coach id, and there is none exactly when no fetched profile has that id |
| ClientSessions.Capitalize | src/pages/MySessions.tsx:219 | only the first letter is upper-cased |
| ClientSessions.CapitalizeIdempotent | src/pages/MySessions.tsx:219 | capitalising twice is the same as once |
| Settings.Text | src/pages/Settings.tsx:55-66 | a null text column reads as "" |
| Settings.Load | src/pages/Settings.tsx:53-67 | every text column reads as stored, or "" when null; experience and certifications read as stored, or 0 and [] when null. Availability defaults to true only when null, so a stored false stays false. An empty avatar reads as none |
| Settings.Save | src/pages/Settings.tsx:72-96 | the save leaves e-mail and avatar alone, and a failed update leaves the row as it was |
| Settings.SaveThenLoad | src/pages/Settings.tsx:53-89 | reloading after a save shows the saved form, apart from the two columns not written |
| Settings.SaveUnchangedIsStable | src/pages/Settings.tsx:53-89 | saving the loaded form unchanged shows the same form again |
| Settings.AddCert | src/pages/Settings.tsx:107-115 | a new, non-blank certification is appended trimmed and the input clears; anything else changes nothing |
| Settings.AddCertKeepsDistinct | src/pages/Settings.tsx:107-112 | adding keeps the list duplicate-free |
| Settings.AddCertKeepsTrimmed | src/pages/Settings.tsx:108-111 | every listed certification stays trimmed and non-empty |
| Settings.RemoveCert | src/pages/Settings.tsx:117-122 | removal drops every occurrence and keeps every other entry, as many times as it occurs and in order |
| Settings.AddThenRemove | src/pages/Settings.tsx:107-122 | adding a new certification and removing it restores the list |
| Listing.EmptyTermMatches | src/pages/Clients.tsx:97 | an empty search matches every client |
| Listing.NameFoundByParts | src/pages/Clients.tsx:97 | a client is found by the first name, the last name or the full name as shown |
| Listing.FilteredClients | src/pages/Clients.tsx:96-101 | the shown clients are, in order, those passing the search and both filters, each as many times as it was fetched, and no others |
| Listing.ActiveFiltersCount | src/pages/Clients.tsx:103 | the count is 0, 1 or 2, according to the filters set to neither "" nor "all" |
| Listing.ClearFilters | src/pages/Clients.tsx:105-108 | clearing sets the count to 0 and keeps the search |
| Listing.NoFiltersListsAll | src/pages/Clients.tsx:96-101 | with no search and no filters every client is shown |
| Listing.ClearedFiltersSearchOnly | src/pages/Clients.tsx:96-108 | after clearing, a client shows exactly when the search matches its name |
| Listing.CoachUserIds | src/pages/FindCoaches.tsx:40-52 | the candidates are exactly the users with a coach role |
| Listing.FetchCoaches | src/pages/FindCoaches.tsx:38-77 | a failed query, or no user with a coach role, keeps the previous list. Otherwise the list becomes the available profiles of users with a coach role, each as many times as it was fetched, and no others; an unset availability counts as available |
| Listing.FilteredCoaches | src/pages/FindCoaches.tsx:79-86 | the shown coaches are, in order, those matching the search, each as many times as it was fetched, and no others |
| Listing.EmptyQueryListsAll | src/pages/FindCoaches.tsx:79-86 | an empty query lists every coach |
| Listing.SportlessCoachMatchesByName | src/pages/FindCoaches.tsx:84 | a coach without a sport matches only by name |
| Listing.CoachFoundByParts | src/pages/FindCoaches.tsx:80-85 | a coach is found by the first name, the last name or the sport specialty |
| Common.Initials | src/pages/FindCoaches.tsx:88-90 | the initials are the upper-cased first letters, and an empty name contributes nothing |
| Listing.AsManual | src/components/NewMessageDialog.tsx:61-71 | manual clients become contacts without an avatar |
| Listing.AppendOne | src/components/NewMessageDialog.tsx:82-87 | a profile is appended only when its id is not listed yet, which keeps ids distinct |
| Listing.AppendNew | src/components/NewMessageDialog.tsx:81-88 | merging keeps the list as a prefix, lists every profile's id, and keeps ids distinct |
| Listing.CoachContacts | src/components/NewMessageDialog.tsx:43-91 | a coach's contacts are the manual clients first, then profiles of active clients, with distinct ids when the manual ids are distinct |
| Listing.ActiveClientsAreContacts | src/components/NewMessageDialog.tsx:74-88 | every active client's profile is among the coach's contacts |
| Listing.ClientContacts | src/components/NewMessageDialog.tsx:92-111 | a client's contacts are the fetched profiles of coaches with an active relationship, each as many times as it was fetched, and no others; there are none without such a relationship |
| Listing.Contacts | src/components/NewMessageDialog.tsx:43-111 | the coach branch is taken exactly for the coach role |
| Listing.FilteredContacts | src/components/NewMessageDialog.tsx:120-123 | the shown contacts are, in order, those whose full name contains the search, each as many times as it occurs, and no others |
| Listing.EmptySearchKeepsContacts | src/components/NewMessageDialog.tsx:120-123 | an empty search keeps every contact |
| Invoices.FindClient | src/components/NewInvoiceForm.tsx:57 | the lookup returns a known client with both names, case aside, and nothing only when none matches |
| Invoices.InvoiceFor | src/components/NewInvoiceForm.tsx:81-89 | the invoice is "pending" for the coach and client, and recurring_day is set exactly for a recurring invoice |
| Invoices.Save | src/components/NewInvoiceForm.tsx:34-107 | no user or a missing field writes nothing. An invoice is created exactly when the invoice insert succeeds and the client was found or inserted. A client is inserted only when none matched |
| Invoices.KnownClientIsReused | src/components/NewInvoiceForm.tsx:57-61 | a matching client receives the invoice and no client is added |
| Invoices.ClientFailureWritesNothing | src/components/NewInvoiceForm.tsx:62-77 | a failed client insert writes no invoice |
| Invoices.CreatedClientFoundAgain | src/components/NewInvoiceForm.tsx:57-79 | a created client is found again by the same names in any case |
| Media.Extension | src/components/ClientMediaUploadSelf.tsx:64 | the extension is the dot-free suffix after the last dot, or the whole name when there is no dot |
| Media.ExtensionAfterDot | src/components/ClientMediaUploadSelf.tsx:64 | whatever precedes the last dot, the extension is what follows it |
| Media.StoragePath | src/components/ClientMediaUploadSelf.tsx:65 | the path lies in the user's own folder |
| Media.StoragePathKeepsExtension | src/components/ClientMediaUploadSelf.tsx:64-65 | the stored file keeps the chosen file's extension |
| Media.DistinctTimesDistinctPaths | src/components/ClientMediaUploadSelf.tsx:65 | uploads at different times get different paths |
| Media.MediaType | src/components/ClientMediaUploadSelf.tsx:66 | the media type is "video" exactly for a `video/` MIME type, "image" otherwise |
| Media.NewRow | src/components/ClientMediaUploadSelf.tsx:74-84 | the row stores the trimmed title, a blank description as null, the media type, uploaded_by "client" and the client as self |
| Media.Notify | src/components/ClientMediaUploadSelf.tsx:94-100 | one unread "new_media" notification goes to the coach with `{client_id, title}` |
| Media.Upload | src/components/ClientMediaUploadSelf.tsx:51-123 | an incomplete form changes nothing. A failed upload writes nothing. A failed insert leaves only the stored file. Success adds the row and notifies the coach |
| Media.UploadNotifiesCoach | src/components/ClientMediaUploadSelf.tsx:94-100 | a successful upload notifies the chosen coach with the untrimmed title |
| Media.FailedInsertLeavesFile | src/components/ClientMediaUploadSelf.tsx:68-84 | a failed row insert leaves an orphaned file and no row |

## Left out

- The database client, realtime channel set-up and auth calls are not modelled. Their results are parameters, and realtime events are explicit inputs to handlers.
- Asynchrony and interleavings are not modelled. Each handler runs to completion. The dropdown's check-then-insert is proved equal to the upsert only for a single writer.
- Errors of awaited writes that the booking flows ignore are not modelled as separate outcomes. The model follows the code's sequence with the writes applied.
- Feed.CreateNotification: the insert's error is awaited and dropped (src/hooks/useNotifications.ts:111-125), so the model always appends the row and has no failed-notification outcome.
- Sessions.MarkComplete: the follow-up notification insert is assumed to succeed; a failed insert, which the page ignores, is not a separate outcome.
- Media.Notify: always appends the "new_media" row; a failed notification insert, which the upload form ignores, is not modelled.
- Media.Upload: once the row insert succeeds the coach's notification is always written; a failed notification insert is not a separate outcome.
- No terminal-state invariant for bookings is stated, because the code overwrites a request's status without checking it. An accepted request can be rejected later.
- Timestamps and `Date.now()` are integer parameters. The date-fns calendar grid, locale formatting and time zones are left out.
- Floating point is left out: invoice amounts stay as the entered text, and the dashboard sums and the hourly total are not modelled. For prices, the integer model has no NaN, so `Number("")` is just a non-positive price.
- Case mapping and `trim` cover ASCII only. JavaScript's Unicode case tables and the wider whitespace set are not modelled.
- The schema library's e-mail check and `parseInt` are function-typed parameters. The library's internal order of checks is not modelled beyond the first issue shown.
- Route matching is by literal and parameter segments on `/`-separated paths. The router's ranking, case folding and trailing-slash handling are not modelled.
- The AI chat (an external HTTP API) and the presentation-only pages and cards are not modelled.
- `handleDeletePackage` in Pricing.tsx is not modelled, because it is a single delete by id.
- Database defaults, such as the client's payment status and a relationship's flags, are not modelled beyond the `None` they start as.
- Inbox.SendMessage: an early return resolves to `undefined` in the code, modelled as `NotAttempted`.
- ClientSessions: the coach profiles are queried only when the client has sessions. The model takes the fetched profiles as given.
- Listing.CoachContacts: a failed or null manual-client query is treated as an empty list.
- Invoices.Save: the client list is the one fetched when the form mounted; a client inserted meanwhile elsewhere is not seen.
- Feed.Delete: the counter is not adjusted when an unread entry is deleted, as in the code (see `Feed.DeleteUnreadLeavesCount`).
- Feed.MarkRead: the counter drops even for an entry already read, as in the code (see `Feed.MarkReadConsistency`).
- Media.Upload: a failed row insert leaves the stored file, as in the code.
- Sessions.ClientKeyHolds: the generated schema types (src/integrations/supabase/types.ts:501, 514) declare `sessions.client_id` non-null, yet the add-session dialog inserts null there for every registered client (src/components/AddSessionDialog.tsx:119-125). The model follows the code and takes the deployed column as nullable, checking only the foreign key of a set `client_id`; under a non-null column every registered session, from the dialog or from the corrected drop, would be refused as well.

## Findings

| source | as written | input that shows it | evidently intended | confidence | as-written member | corrected member |
|---|---|---|---|---|---|---|
| src/pages/Schedule.tsx:216-223 | a quick session created by dragging a client always writes the dragged id into `client_id` and leaves `user_client_id` null, although registered entries in the list carry profile ids (src/pages/Schedule.tsx:116-122) and `client_id` references the clients table (src/integrations/supabase/types.ts:541-547) | a coach drags a registered client, one listed with a check mark, whose profile id is not a manual client's id | registered clients go to `user_client_id`, as the add-session dialog does with its `registered_` prefix, so the insert satisfies the key and completion notifies the client. This presumes `client_id` accepts null in the deployed schema, as the dialog's own registered path does | not executed | Sessions.QuickSessionAsWritten, Sessions.RegisteredDropMisfiled, Sessions.CreateQuick, Sessions.Drop, Sessions.TouchEnd, Sessions.RegisteredDropSchedulesNothing | Sessions.QuickSession, Sessions.QuickSessionKeyHolds, Sessions.CreateQuickCorrected, Sessions.DropCorrected, Sessions.TouchEndCorrected, Sessions.CorrectedDropSchedules, Sessions.QuickSessionThenComplete |

=== FILE: access.dfy ===
/** Access control: the route guard of `src/components/ProtectedRoute.tsx`,
    the route table of `src/App.tsx`, and the role homes of
    `src/pages/SelectRole.tsx`. A visit to a path resolves the path against
    the table and, for a guarded route, runs the guard; the main result is
    that a redirect always lands on a page that renders, so redirects never
    loop. */
module Access {
  import opened Common

  /** The `app_role` enum. */
  datatype Role = Admin | Coach | Client

  /** What the guard returns. */
  datatype Decision = Spinner | Redirect(to: string) | Render

  /** What `useUserRole` reports. */
  datatype Session = Session(loading: bool, signedIn: bool, role: Option<Role>)

  /** Where the guard sends a signed-in user whose role the route does not
      admit. */
  function Home(role: Role): (r: string)
    ensures Resolve(r).gate.Guarded? && role in Resolve(r).gate.allowed
  {
    match role
    case Client =>
      assert "/client-dashboard" == "/" + "client-dashboard";
      ClientDashboardRoute();
      "/client-dashboard"
    case Coach =>
      DashboardRoute();
      "/"
    case Admin =>
      AdminRoute();
      "/admin"
  }

  /** `ProtectedRoute`. `allowed` is the optional `allowedRoles` prop. */
  function Guard(s: Session, allowed: Option<seq<Role>>): (d: Decision)
    ensures s.loading <==> d == Spinner
    ensures d == Render <==> !s.loading && s.signedIn && s.role.Some? && (allowed.None? || s.role.value in allowed.value)
    ensures d.Redirect? && !s.signedIn ==> d.to == "/auth"
    ensures d.Redirect? && s.signedIn && s.role.None? ==> d.to == "/select-role"
    ensures d.Redirect? && s.signedIn && s.role.Some? ==> d.to == Home(s.role.value)
  {
    if s.loading then Spinner
    else if !s.signedIn then Redirect("/auth")
    else if s.role.None? then Redirect("/select-role")
    else if allowed.Some? && s.role.value !in allowed.value then Redirect(Home(s.role.value))
    else Render
  }

  // ---------------------------------------------------------------------------
  // Paths and the route table
  // ---------------------------------------------------------------------------

  /** The pieces of `s` between slashes, empty pieces included. */
  function SplitOnSlash(s: string): (r: seq<string>)
    ensures |r| > 0
    decreases |s|
  {
    if '/' !in s then [s]
    else
      var i := FirstIndex(s, '/');
      [s[..i]] + SplitOnSlash(s[i + 1..])
  }

  /** The non-empty segments of a path: "/", "" and "//" all have none. */
  function Segments(path: string): seq<string>
  {
    Filter(SplitOnSlash(path), NonEmpty)
  }

  datatype Segment = Lit(text: string) | Param

  /** Who may see a route: anyone, or `ProtectedRoute` with these roles. */
  datatype Gate = Public | Guarded(allowed: seq<Role>)

  datatype Page =
    | AuthPage | SelectRolePage
    | Dashboard | ClientsPage | ClientProfilePage | SchedulePage | PricingPage | BookingsPage | AssistantPage
    | MessagesPage | SettingsPage
    | ClientDashboard | FindCoachesPage | CoachProfilePage | MySessionsPage | MyProfilePage
    | AdminDashboard
    | NotFound

  datatype Route = Route(pattern: seq<Segment>, page: Page, gate: Gate)

  const CoachOrAdmin: seq<Role> := [Coach, Admin]
  const Everyone: seq<Role> := [Coach, Admin, Client]
  const ClientOnly: seq<Role> := [Client]
  const AdminOnly: seq<Role> := [Admin]

  /** The `<Routes>` of `App`, without the catch-all. */
  const Routes: seq<Route> := [
    Route([Lit("auth")], AuthPage, Public),
    Route([Lit("select-role")], SelectRolePage, Public),
    Route([], Dashboard, Guarded(CoachOrAdmin)),
    Route([Lit("clients")], ClientsPage, Guarded(CoachOrAdmin)),
    Route([Lit("clients"), Param], ClientProfilePage, Guarded(CoachOrAdmin)),
    Route([Lit("schedule")], SchedulePage, Guarded(CoachOrAdmin)),
    Route([Lit("pricing")], PricingPage, Guarded(CoachOrAdmin)),
    Route([Lit("bookings")], BookingsPage, Guarded(CoachOrAdmin)),
    Route([Lit("vool-ai")], AssistantPage, Guarded(CoachOrAdmin)),
    Route([Lit("messages")], MessagesPage, Guarded(Everyone)),
    Route([Lit("messages"), Param], MessagesPage, Guarded(Everyone)),
    Route([Lit("settings")], SettingsPage, Guarded(Everyone)),
    Route([Lit("client-dashboard")], ClientDashboard, Guarded(ClientOnly)),
    Route([Lit("find-coaches")], FindCoachesPage, Guarded(ClientOnly)),
    Route([Lit("coach"), Param], CoachProfilePage, Guarded(ClientOnly)),
    Route([Lit("my-sessions")], MySessionsPage, Guarded(ClientOnly)),
    Route([Lit("my-profile")], MyProfilePage, Guarded(ClientOnly)),
    Route([Lit("admin")], AdminDashboard, Guarded(AdminOnly))
  ]

  /** `path="*"`. */
  const CatchAll := Route([], NotFound, Public)

  /** A pattern matches segment for segment; a parameter takes any segment. */
  predicate Matches(pattern: seq<Segment>, segs: seq<string>)
  {
    |pattern| == |segs| && forall k :: 0 <= k < |segs| ==> (pattern[k].Lit? ==> pattern[k].text == segs[k])
  }

  /** Two patterns no path matches both: different lengths, or different
      literals at the same position. */
  predicate Disjoint(p: seq<Segment>, q: seq<Segment>)
  {
    |p| != |q| || exists k :: 0 <= k < |p| && p[k].Lit? && q[k].Lit? && p[k].text != q[k].text
  }

  lemma DisjointNeverBothMatch(p: seq<Segment>, q: seq<Segment>, segs: seq<string>)
    requires Disjoint(p, q)
    ensures !(Matches(p, segs) && Matches(q, segs))
  {
  }

  /** No path matches two routes of the table, so the router's ranking
      (static segments before parameters) and a first-match scan agree. */
  lemma {:induction false} RoutesUnambiguous()
    ensures forall i, j :: 0 <= i < j < |Routes| ==> Disjoint(Routes[i].pattern, Routes[j].pattern)
  {
    forall i, j | 0 <= i < j < |Routes| ensures Disjoint(Routes[i].pattern, Routes[j].pattern) {
      var p := Routes[i].pattern;
      var q := Routes[j].pattern;
      if |p| == |q| {
        assert p[0].Lit? && q[0].Lit? && p[0].text != q[0].text;
      }
    }
  }

  /** The first route whose pattern matches, or the catch-all. */
  function ResolveFrom(routes: seq<Route>, segs: seq<string>): (r: Route)
    ensures r == CatchAll || (r in routes && Matches(r.pattern, segs))
    decreases |routes|
  {
    if routes == [] then CatchAll
    else if Matches(routes[0].pattern, segs) then routes[0]
    else ResolveFrom(routes[1..], segs)
  }

  /** The scan returns the first matching route. */
  lemma {:induction false} ResolveFromFirst(routes: seq<Route>, segs: seq<string>, i: nat)
    requires i < |routes| && Matches(routes[i].pattern, segs)
    requires forall j :: 0 <= j < i ==> !Matches(routes[j].pattern, segs)
    ensures ResolveFrom(routes, segs) == routes[i]
    decreases i
  {
    if i > 0 {
      assert !Matches(routes[0].pattern, segs);
      ResolveFromFirst(routes[1..], segs, i - 1);
    }
  }

  /** The scan falls through to the catch-all only when nothing matches. */
  lemma {:induction false} ResolveFromNone(routes: seq<Route>, segs: seq<string>)
    requires forall j :: 0 <= j < |routes| ==> !Matches(routes[j].pattern, segs)
    ensures ResolveFrom(routes, segs) == CatchAll
    decreases |routes|
  {
    if routes != [] {
      assert !Matches(routes[0].pattern, segs);
      ResolveFromNone(routes[1..], segs);
    }
  }

  /** Since no two routes overlap, the scan over the table picks the one
      route that matches, wherever it sits in the table. */
  lemma TableMatchIsChosen(segs: seq<string>)
    ensures forall i :: 0 <= i < |Routes| && Matches(Routes[i].pattern, segs) ==> ResolveFrom(Routes, segs) == Routes[i]
  {
    RoutesUnambiguous();
    forall i | 0 <= i < |Routes| && Matches(Routes[i].pattern, segs)
      ensures ResolveFrom(Routes, segs) == Routes[i]
    {
      forall j | 0 <= j < i ensures !Matches(Routes[j].pattern, segs) {
        DisjointNeverBothMatch(Routes[j].pattern, Routes[i].pattern, segs);
      }
      ResolveFromFirst(Routes, segs, i);
    }
  }

  /** The route the router renders for `path`: the route of the table that
      matches it, or the catch-all when none does. */
  function Resolve(path: string): (r: Route)
    ensures r == CatchAll || (r in Routes && Matches(r.pattern, Segments(path)))
    ensures forall i :: 0 <= i < |Routes| && Matches(Routes[i].pattern, Segments(path)) ==> r == Routes[i]
    ensures (forall i :: 0 <= i < |Routes| ==> !Matches(Routes[i].pattern, Segments(path))) ==> r == CatchAll
  {
    TableMatchIsChosen(Segments(path));
    TableMissFallsThrough(Segments(path));
    ResolveFrom(Routes, Segments(path))
  }

  /** `ResolveFromNone` on the table, as an implication. */
  lemma TableMissFallsThrough(segs: seq<string>)
    ensures (forall i :: 0 <= i < |Routes| ==> !Matches(Routes[i].pattern, segs)) ==> ResolveFrom(Routes, segs) == CatchAll
  {
    if forall i :: 0 <= i < |Routes| ==> !Matches(Routes[i].pattern, segs) {
      ResolveFromNone(Routes, segs);
    }
  }

  /** Any route matching the path is the one it resolves to. */
  lemma ResolveMatching(path: string, i: nat)
    requires i < |Routes| && Matches(Routes[i].pattern, Segments(path))
    ensures Resolve(path) == Routes[i]
  {
    TableMatchIsChosen(Segments(path));
  }

  /** What a visit to `path` shows. */
  datatype Screen = Loading | GoTo(to: string) | Show(page: Page)

  /** Entering a resolved route: a public one shows its page, a guarded one
      shows what its guard decides. */
  function Enter(route: Route, s: Session): (v: Screen)
    ensures route.gate.Public? ==> v == Show(route.page)
    ensures v.GoTo? ==> route.gate.Guarded? && Guard(s, Some(route.gate.allowed)) == Redirect(v.to)
    ensures v.Show? && route.gate.Guarded? ==> s.role.Some? && s.role.value in route.gate.allowed
    ensures route.gate.Guarded? && Guard(s, Some(route.gate.allowed)) == Render ==> v == Show(route.page)
    ensures v.Show? ==> v.page == route.page
  {
    match route.gate
    case Public => Show(route.page)
    case Guarded(allowed) =>
      match Guard(s, Some(allowed))
      case Spinner => Loading
      case Redirect(to) => GoTo(to)
      case Render => Show(route.page)
  }

  function Visit(path: string, s: Session): (v: Screen)
    ensures Resolve(path).gate.Public? ==> v == Show(Resolve(path).page)
    ensures v.GoTo? ==> Resolve(path).gate.Guarded? && Guard(s, Some(Resolve(path).gate.allowed)) == Redirect(v.to)
    ensures v.Show? && Resolve(path).gate.Guarded? ==> s.role.Some? && s.role.value in Resolve(path).gate.allowed
    ensures Resolve(path).gate.Guarded? && Guard(s, Some(Resolve(path).gate.allowed)) == Render ==>
      v == Show(Resolve(path).page)
    ensures v.Show? ==> v.page == Resolve(path).page
  {
    Enter(Resolve(path), s)
  }

  // ---------------------------------------------------------------------------
  // Facts about the table
  // ---------------------------------------------------------------------------

  /** A segment-free path piece is dropped by `Segments`. */
  predicate NonEmpty(x: string)
  {
    x != ""
  }

  /** Splitting a string that starts with a slash. */
  lemma SplitAfterSlash(rest: string)
    ensures SplitOnSlash("/" + rest) == [""] + SplitOnSlash(rest)
  {
    var p := "/" + rest;
    assert p[0] == '/';
    assert FirstIndex(p, '/') == 0;
    assert p[..0] == "";
    assert p[1..] == rest;
  }

  lemma SplitWithoutSlash(x: string)
    requires '/' !in x
    ensures SplitOnSlash(x) == [x]
  {
  }

  /** Empty pieces drop out of the segments. */
  lemma SegmentsDropEmpty(pieces: seq<string>)
    ensures Filter([""] + pieces, NonEmpty) == Filter(pieces, NonEmpty)
  {
    assert ([""] + pieces)[1..] == pieces;
  }

  lemma SegmentsKeepNonEmpty(x: string, pieces: seq<string>)
    requires x != ""
    ensures Filter([x] + pieces, NonEmpty) == [x] + Filter(pieces, NonEmpty)
  {
    assert ([x] + pieces)[1..] == pieces;
  }

  /** "/" has no segments. */
  lemma SegmentsOfRoot()
    ensures Segments("/") == []
  {
    assert "/" == "/" + "";
    SplitAfterSlash("");
    SplitWithoutSlash("");
    SegmentsDropEmpty([""]);
    SegmentsDropEmpty([]);
  }

  /** "/name" has the one segment `name`. */
  lemma SegmentsOfOne(name: string)
    requires name != "" && '/' !in name
    ensures Segments("/" + name) == [name]
  {
    SplitAfterSlash(name);
    SplitWithoutSlash(name);
    SegmentsDropEmpty([name]);
    SegmentsKeepNonEmpty(name, []);
  }

  /** "/head/id" has the two segments `head` and `id`. */
  lemma SegmentsOfTwo(head: string, id: string)
    requires head != "" && '/' !in head && id != "" && '/' !in id
    ensures Segments("/" + head + "/" + id) == [head, id]
  {
    var rest := head + "/" + id;
    assert "/" + head + "/" + id == "/" + rest;
    SplitAfterSlash(rest);
    SplitHeadId(head, id);
    SegmentsDropEmpty([head, id]);
    SegmentsKeepNonEmpty(head, [id]);
    SegmentsKeepNonEmpty(id, []);
  }

  /** "head/id" splits at its one slash. */
  lemma SplitHeadId(head: string, id: string)
    requires '/' !in head && '/' !in id
    ensures SplitOnSlash(head + "/" + id) == [head, id]
  {
    var rest := head + "/" + id;
    assert rest[|head|] == '/';
    assert rest[..|head|] == head;
    assert FirstIndex(rest, '/') == |head|;
    assert rest[|head| + 1..] == id;
    SplitWithoutSlash(id);
  }

  /** A one-segment path resolves to the route with that literal. */
  lemma ResolveOne(name: string, i: nat)
    requires name != "" && '/' !in name
    requires i < |Routes| && Routes[i].pattern == [Lit(name)]
    ensures Resolve("/" + name) == Routes[i]
  {
    SegmentsOfOne(name);
    ResolveMatching("/" + name, i);
  }

  /** A two-segment path resolves to the route with that literal and a
      parameter. */
  lemma ResolveTwo(head: string, id: string, i: nat)
    requires head != "" && '/' !in head && id != "" && '/' !in id
    requires i < |Routes| && Routes[i].pattern == [Lit(head), Param]
    ensures Resolve("/" + head + "/" + id) == Routes[i]
  {
    SegmentsOfTwo(head, id);
    ResolveMatching("/" + head + "/" + id, i);
  }

  /** Each role's home is a guarded route that admits that role. */
  lemma HomeAdmitsItsRole(role: Role)
    ensures Resolve(Home(role)).gate.Guarded?
    ensures role in Resolve(Home(role)).gate.allowed
  {
    match role
    case Coach =>
      DashboardRoute();
    case Client =>
      assert "/client-dashboard" == "/" + "client-dashboard";
      ClientDashboardRoute();
    case Admin =>
      AdminRoute();
  }

  /** The page a signed-out user is sent to is public. */
  lemma AuthIsPublic()
    ensures Resolve("/auth") == Route([Lit("auth")], AuthPage, Public)
  {
    assert "/auth" == "/" + "auth";
    ResolveOne("auth", 0);
  }

  /** The page a user without a role is sent to is public. */
  lemma SelectRoleIsPublic()
    ensures Resolve("/select-role") == Route([Lit("select-role")], SelectRolePage, Public)
  {
    assert "/select-role" == "/" + "select-role";
    ResolveOne("select-role", 1);
  }

  /** Redirects never loop: whatever path a settled session visits, a
      redirect leads to a page that the same session is shown. */
  lemma RedirectsEndInOneStep(path: string, s: Session)
    requires !s.loading
    ensures Visit(path, s).GoTo? ==> Visit(Visit(path, s).to, s).Show?
  {
    if Visit(path, s).GoTo? {
      var to := Visit(path, s).to;
      if !s.signedIn {
        assert to == "/auth";
        AuthIsPublic();
      } else if s.role.None? {
        assert to == "/select-role";
        SelectRoleIsPublic();
      } else {
        assert to == Home(s.role.value);
        HomeAdmitsItsRole(s.role.value);
      }
    }
  }

  /** The spinner shows exactly while the role is loading on a guarded
      route. */
  lemma SpinnerOnlyWhileLoading(path: string, s: Session)
    ensures Visit(path, s) == Loading <==> s.loading && Resolve(path).gate.Guarded?
  {
  }

  /** The dashboard at "/" admits exactly coaches and admins. */
  lemma DashboardRoute()
    ensures Resolve("/").gate == Guarded([Coach, Admin])
  {
    SegmentsOfRoot();
    ResolveMatching("/", 2);
  }

  /** The other coaching pages admit exactly coaches and admins. */
  lemma CoachAreaRoutes(name: string)
    requires name == "clients" || name == "schedule" || name == "pricing" || name == "bookings" || name == "vool-ai"
    ensures Resolve("/" + name).gate == Guarded([Coach, Admin])
  {
    if name == "clients" {
      ClientsRoute();
    } else if name == "schedule" {
      ScheduleRoute();
    } else if name == "pricing" {
      PricingRoute();
    } else if name == "bookings" {
      BookingsRoute();
    } else {
      AssistantRoute();
    }
  }

  /** Each page of the table by its path, resolved once. */
  lemma ClientsRoute()
    ensures Resolve("/" + "clients").gate == Guarded(CoachOrAdmin)
  {
    ResolveOne("clients", 3);
  }

  lemma ScheduleRoute()
    ensures Resolve("/" + "schedule").gate == Guarded(CoachOrAdmin)
  {
    ResolveOne("schedule", 5);
  }

  lemma PricingRoute()
    ensures Resolve("/" + "pricing").gate == Guarded(CoachOrAdmin)
  {
    ResolveOne("pricing", 6);
  }

  lemma BookingsRoute()
    ensures Resolve("/" + "bookings").gate == Guarded(CoachOrAdmin)
  {
    ResolveOne("bookings", 7);
  }

  lemma AssistantRoute()
    ensures Resolve("/" + "vool-ai").gate == Guarded(CoachOrAdmin)
  {
    ResolveOne("vool-ai", 8);
  }

  /** Messages and settings admit every role. */
  lemma SharedRoutes(name: string)
    requires name == "messages" || name == "settings"
    ensures Resolve("/" + name).gate == Guarded([Coach, Admin, Client])
  {
    if name == "messages" {
      MessagesRoute();
    } else {
      SettingsRoute();
    }
  }

  lemma MessagesRoute()
    ensures Resolve("/" + "messages").gate == Guarded(Everyone)
  {
    ResolveOne("messages", 9);
  }

  lemma SettingsRoute()
    ensures Resolve("/" + "settings").gate == Guarded(Everyone)
  {
    ResolveOne("settings", 11);
  }

  /** The client pages admit only clients. */
  lemma ClientAreaRoutes(name: string)
    requires name == "client-dashboard" || name == "find-coaches" || name == "my-sessions" || name == "my-profile"
    ensures Resolve("/" + name).gate == Guarded([Client])
  {
    if name == "client-dashboard" {
      ClientDashboardRoute();
    } else if name == "find-coaches" {
      FindCoachesRoute();
    } else if name == "my-sessions" {
      MySessionsRoute();
    } else {
      MyProfileRoute();
    }
  }

  lemma ClientDashboardRoute()
    ensures Resolve("/" + "client-dashboard").gate == Guarded(ClientOnly)
  {
    ResolveOne("client-dashboard", 12);
  }

  lemma FindCoachesRoute()
    ensures Resolve("/" + "find-coaches").gate == Guarded(ClientOnly)
  {
    ResolveOne("find-coaches", 13);
  }

  lemma MySessionsRoute()
    ensures Resolve("/" + "my-sessions").gate == Guarded(ClientOnly)
  {
    ResolveOne("my-sessions", 15);
  }

  lemma MyProfileRoute()
    ensures Resolve("/" + "my-profile").gate == Guarded(ClientOnly)
  {
    ResolveOne("my-profile", 16);
  }

  /** The admin page admits only admins. */
  lemma AdminRoute()
    ensures Resolve("/admin").gate == Guarded([Admin])
  {
    assert "/admin" == "/" + "admin";
    ResolveOne("admin", 17);
  }

  /** A guarded route never shows its page to a settled user whose role it
      does not list; it redirects to that role's home instead. */
  lemma DisallowedRoleRedirects(path: string, s: Session)
    requires Resolve(path).gate.Guarded? && !s.loading && s.signedIn && s.role.Some?
    requires s.role.value !in Resolve(path).gate.allowed
    ensures Visit(path, s) == GoTo(Home(s.role.value))
  {
  }

  /** A client's profile page is for coaches and admins. */
  lemma ClientProfileRoute(id: string)
    requires id != "" && '/' !in id
    ensures Resolve("/clients/" + id) == Route([Lit("clients"), Param], ClientProfilePage, Guarded([Coach, Admin]))
  {
    assert "/clients/" + id == "/" + "clients" + "/" + id;
    ResolveTwo("clients", id, 4);
  }

  /** A conversation is for every role. */
  lemma ConversationRoute(id: string)
    requires id != "" && '/' !in id
    ensures Resolve("/messages/" + id) == Route([Lit("messages"), Param], MessagesPage, Guarded([Coach, Admin, Client]))
  {
    assert "/messages/" + id == "/" + "messages" + "/" + id;
    ResolveTwo("messages", id, 10);
  }

  /** A coach's public profile is for clients only. */
  lemma CoachProfileRoute(id: string)
    requires id != "" && '/' !in id
    ensures Resolve("/coach/" + id) == Route([Lit("coach"), Param], CoachProfilePage, Guarded([Client]))
  {
    assert "/coach/" + id == "/" + "coach" + "/" + id;
    ResolveTwo("coach", id, 14);
  }

  /** Any path outside the table shows the not-found page, signed in or not. */
  lemma UnknownPathsShowNotFound(path: string, s: Session)
    requires forall j :: 0 <= j < |Routes| ==> !Matches(Routes[j].pattern, Segments(path))
    ensures Visit(path, s) == Show(NotFound)
  {
    ResolveFromNone(Routes, Segments(path));
  }

  // ---------------------------------------------------------------------------
  // SelectRole
  // ---------------------------------------------------------------------------

  /** The `role` column as text. */
  function RoleFromText(text: string): (r: Option<Role>)
    ensures r.Some? ==> RoleText(r.value) == text
  {
    if text == "coach" then Some(Coach)
    else if text == "client" then Some(Client)
    else if text == "admin" then Some(Admin)
    else None
  }

  function RoleText(role: Role): string
  {
    match role
    case Coach => "coach"
    case Client => "client"
    case Admin => "admin"
  }

  lemma RoleTextRoundTrip(role: Role)
    ensures RoleFromText(RoleText(role)) == Some(role)
  {
  }

  /** The page's effect on load: with no session go to "/auth"; otherwise
      look the role up and, if one is stored, go to its home. */
  function OnLoad(sessionUser: Option<string>, storedRole: Option<string>): (nav: Option<string>)
    ensures sessionUser.None? ==> nav == Some("/auth")
    ensures sessionUser.Some? && storedRole.Some? && RoleFromText(storedRole.value).Some? ==>
      nav == Some(Home(RoleFromText(storedRole.value).value))
    ensures sessionUser.Some? && (storedRole.None? || RoleFromText(storedRole.value).None?) ==> nav.None?
  {
    if sessionUser.None? then Some("/auth")
    else if storedRole.None? then None
    else
      var t := storedRole.value;
      if t == "coach" then Some("/")
      else if t == "client" then Some("/client-dashboard")
      else if t == "admin" then Some("/admin")
      else None
  }

  /** The roles the page offers. */
  datatype Choice = ChooseCoach | ChooseClient

  function ChoiceRole(c: Choice): Role
  {
    if c == ChooseCoach then Coach else Client
  }

  datatype RoleRow = RoleRow(userId: string, role: Role)

  /** `selectRole`: without a user id nothing happens; otherwise a role row
      is inserted and, if the insert succeeds, the page navigates. */
  function SelectRole(userId: Option<string>, choice: Choice, rows: seq<RoleRow>, insertOk: bool): (r: (seq<RoleRow>, Option<string>))
    ensures userId.None? || !insertOk ==> r == (rows, None)
    ensures userId.Some? && insertOk ==> r.0 == rows + [RoleRow(userId.value, ChoiceRole(choice))]
    ensures userId.Some? && insertOk ==> r.1 == Some(Home(ChoiceRole(choice)))
    ensures r.1.Some? ==> ChoiceRole(choice) != Admin
  {
    if userId.None? || !insertOk then (rows, None)
    else
      var nav := if choice == ChooseCoach then "/" else "/client-dashboard";
      (rows + [RoleRow(userId.value, ChoiceRole(choice))], Some(nav))
  }

  /** After choosing a role the user lands on a page the guard shows them. */
  lemma SelectedRoleIsAdmitted(uid: string, choice: Choice, rows: seq<RoleRow>)
    ensures var nav := SelectRole(Some(uid), choice, rows, true).1;
      nav.Some? && Visit(nav.value, Session(false, true, Some(ChoiceRole(choice)))).Show?
  {
    HomeAdmitsItsRole(ChoiceRole(choice));
  }
}

=== FILE: auth_forms.dfy ===
/** The sign-up and log-in forms of `src/pages/Auth.tsx`: their schemas and
    what a submission does with the authentication service and the
    `user_roles` table. */
module AuthForms {
  import opened Common
  import opened Validation
  import Access

  datatype SignupForm = SignupForm(
    firstName: string, lastName: string, email: string, phone: string,
    password: string, confirm: string, role: string)

  const FirstNameRequired := "First name is required"
  const LastNameRequired := "Last name is required"
  const InvalidEmailAddress := "Invalid email address"
  const PasswordTooShort := "Password must be at least 8 characters"
  const PasswordsDiffer := "Passwords don't match"
  const PasswordRequired := "Password is required"

  /** `signupSchema`: the fields in schema order, then the password
      refinement, which reports on `confirmPassword`. Names and e-mail are
      trimmed before they are checked; the password is not. */
  function SignupIssues(f: SignupForm, isEmail: string -> bool): (r: seq<Issue>)
    ensures r == [] <==> SignupRules(f, isEmail)
    ensures f.password != f.confirm ==> |r| > 0 && r[|r| - 1] == Issue(ConfirmPassword, Mismatch(PasswordsDiffer))
  {
    Bounded(FirstName, Trim(f.firstName), 1, Required(FirstNameRequired), 100)
    + Bounded(LastName, Trim(f.lastName), 1, Required(LastNameRequired), 100)
    + EmailChecks(Trim(f.email), isEmail, InvalidEmailAddress, Some(255))
    + Bounded(Password, f.password, 8, TooShort(PasswordTooShort), 100)
    + (if f.role == "coach" || f.role == "client" then [] else [Issue(RoleField, NotARole)])
    + (if f.password == f.confirm then [] else [Issue(ConfirmPassword, Mismatch(PasswordsDiffer))])
  }

  /** The sign-up rules, stated field by field. */
  predicate SignupRules(f: SignupForm, isEmail: string -> bool)
  {
    1 <= |Trim(f.firstName)| <= 100 && 1 <= |Trim(f.lastName)| <= 100
    && isEmail(Trim(f.email)) && |Trim(f.email)| <= 255
    && 8 <= |f.password| <= 100 && f.password == f.confirm
    && (f.role == "coach" || f.role == "client")
  }

  lemma SignupAcceptedIff(f: SignupForm, isEmail: string -> bool)
    ensures SignupIssues(f, isEmail) == [] <==> SignupRules(f, isEmail)
  {
  }

  /** Sign-up can never produce an administrator. */
  lemma SignupNeverAdmin(f: SignupForm, isEmail: string -> bool)
    requires SignupIssues(f, isEmail) == []
    ensures Access.RoleFromText(f.role) == Some(Access.Coach) || Access.RoleFromText(f.role) == Some(Access.Client)
  {
    SignupAcceptedIff(f, isEmail);
  }

  /** A form whose only fault is the confirmation is reported on the
      confirmation field. */
  lemma MismatchReportedOnConfirm(f: SignupForm, isEmail: string -> bool)
    requires SignupRules(f.(confirm := f.password), isEmail) && f.password != f.confirm
    ensures Shown(SignupIssues(f, isEmail)) == Some(Issue(ConfirmPassword, Mismatch(PasswordsDiffer)))
  {
    SignupAcceptedIff(f.(confirm := f.password), isEmail);
  }

  /** What the form sends to `signUp`: the raw inputs, not the trimmed ones
      the schema checked. */
  datatype SignUpCall = SignUpCall(email: string, password: string, firstName: string, lastName: string, phone: string)

  /** The authentication service's answer; a new account may come back
      without a user (for instance while the address is unconfirmed). */
  datatype AuthResponse = AuthFailed | AuthOk(user: Option<string>)

  datatype SignupResult = SignupResult(
    call: Option<SignUpCall>, roles: seq<Access.RoleRow>, navigate: Option<string>, shown: Option<Issue>)

  /** `handleSignup`. A rejected form calls nothing; a failed sign-up stops
      before the role insert; a failed role insert is only logged, and the
      page still navigates to "/". */
  function Signup(f: SignupForm, isEmail: string -> bool, resp: AuthResponse, roleInsertOk: bool,
                  roles: seq<Access.RoleRow>): (r: SignupResult)
    ensures SignupIssues(f, isEmail) != [] ==> r == SignupResult(None, roles, None, Shown(SignupIssues(f, isEmail)))
    ensures r.call.Some? <==> SignupRules(f, isEmail)
    ensures r.call.Some? ==> r.call.value.email == f.email && r.call.value.firstName == f.firstName
    ensures r.navigate.Some? <==> SignupRules(f, isEmail) && resp.AuthOk?
    ensures r.navigate.Some? ==> r.navigate.value == "/"
    ensures r.roles == roles || (r.navigate.Some? && resp.user.Some? && roleInsertOk
                                  && r.roles == roles + [Access.RoleRow(resp.user.value, Access.RoleFromText(f.role).value)])
  {
    SignupAcceptedIff(f, isEmail);
    var issues := SignupIssues(f, isEmail);
    if issues != [] then SignupResult(None, roles, None, Shown(issues))
    else
      var call := SignUpCall(f.email, f.password, f.firstName, f.lastName, f.phone);
      match resp
      case AuthFailed => SignupResult(Some(call), roles, None, None)
      case AuthOk(user) =>
        var role := if f.role == "coach" then Access.Coach else Access.Client;
        var rows := if user.Some? && roleInsertOk then roles + [Access.RoleRow(user.value, role)] else roles;
        SignupResult(Some(call), rows, Some("/"), None)
  }

  /** A role row written at sign-up names the role the form chose, and a
      failed role insert does not undo the sign-up. */
  lemma SignupRoleRow(f: SignupForm, isEmail: string -> bool, uid: string, roles: seq<Access.RoleRow>)
    requires SignupRules(f, isEmail)
    ensures var r := Signup(f, isEmail, AuthOk(Some(uid)), true, roles);
      r.roles == roles + [Access.RoleRow(uid, Access.RoleFromText(f.role).value)]
    ensures Signup(f, isEmail, AuthOk(Some(uid)), false, roles).navigate == Some("/")
    ensures Signup(f, isEmail, AuthOk(Some(uid)), false, roles).roles == roles
  {
    SignupAcceptedIff(f, isEmail);
  }

  datatype LoginForm = LoginForm(email: string, password: string)

  /** `loginSchema`: a trimmed valid address and any non-empty password. */
  function LoginIssues(f: LoginForm, isEmail: string -> bool): (r: seq<Issue>)
    ensures r == [] <==> isEmail(Trim(f.email)) && |f.password| >= 1
  {
    EmailChecks(Trim(f.email), isEmail, InvalidEmailAddress, None)
    + Bounded(Password, f.password, 1, Required(PasswordRequired), |f.password|)
  }

  /** Log-in has no minimum password length beyond one character. */
  lemma LoginAcceptsShortPasswords(f: LoginForm, isEmail: string -> bool)
    requires isEmail(Trim(f.email)) && f.password != ""
    ensures LoginIssues(f, isEmail) == []
  {
  }

  datatype LoginResult = LoginResult(called: Option<LoginForm>, navigate: Option<string>, shown: Option<Issue>)

  /** `handleLogin`: the raw e-mail and password are sent; success goes to
      "/". */
  function Login(f: LoginForm, isEmail: string -> bool, signInOk: bool): (r: LoginResult)
    ensures r.called.Some? <==> LoginIssues(f, isEmail) == []
    ensures r.called.Some? ==> r.called.value == f
    ensures r.navigate.Some? <==> LoginIssues(f, isEmail) == [] && signInOk
    ensures r.navigate.Some? ==> r.navigate.value == "/"
    ensures r.shown == Shown(LoginIssues(f, isEmail))
  {
    var issues := LoginIssues(f, isEmail);
    if issues != [] then LoginResult(None, None, Shown(issues))
    else LoginResult(Some(f), if signInOk then Some("/") else None, None)
  }
}

=== FILE: booking.dfy ===
/** The booking workflow that spans `src/pages/CoachProfile.tsx` (a client
    asks for a booking), `src/components/NotificationsDropdown.tsx` and
    `src/pages/BookingManagement.tsx` (the coach accepts or rejects). The
    backend is a `Store` value: booking requests by id, coach-client
    relationships keyed by the (coach, client) pair that the upserts use as
    their conflict target, and the notifications table. Each handler is a
    function from the store before to the store after. */
module Booking {
  import opened Common
  import Feed

  const StatusPending := "pending"
  const StatusAccepted := "accepted"
  const StatusRejected := "rejected"
  const StatusActive := "active"

  /** The keys of a notification's `data` object the workflow reads or writes. */
  const KeyRequest := "booking_request_id"
  const KeyClient := "client_id"
  const KeyCoach := "coach_id"
  const KeyPackage := "package_id"

  datatype BookingRequest = BookingRequest(
    id: string,
    clientId: string,
    coachId: string,
    packageId: Option<string>,
    message: string,
    status: string,
    requestedSessions: Option<int>)

  datatype Pair = Pair(coach: string, client: string)

  datatype Relationship = Relationship(id: string, status: string)

  /** `.select("client_id").eq("coach_id", coach)`: every client of the
      coach, whatever the status. */
  function RelatedClients(rels: map<Pair, Relationship>, coach: string): (r: set<string>)
    ensures forall c :: c in r <==> Pair(coach, c) in rels
  {
    set p | p in rels && p.coach == coach :: p.client
  }

  /** The same, restricted to `status = 'active'`. */
  function ActiveClients(rels: map<Pair, Relationship>, coach: string): (r: set<string>)
    ensures forall c :: c in r <==> Pair(coach, c) in rels && rels[Pair(coach, c)].status == StatusActive
  {
    set p | p in rels && p.coach == coach && rels[p].status == StatusActive :: p.client
  }

  /** `.select("coach_id").eq("client_id", client).eq("status", "active")`. */
  function ActiveCoaches(rels: map<Pair, Relationship>, client: string): (r: set<string>)
    ensures forall c :: c in r <==> Pair(c, client) in rels && rels[Pair(c, client)].status == StatusActive
  {
    set p | p in rels && p.client == client && rels[p].status == StatusActive :: p.coach
  }

  datatype Store = Store(
    requests: map<string, BookingRequest>,
    relationships: map<Pair, Relationship>,
    notifications: seq<Feed.Notification>)

  /** The ids and the clock the backend supplies for the rows one handler
      inserts. */
  datatype Fresh = Fresh(relationshipId: string, requestId: string, notificationId: string, now: int)

  /** The name columns of a profile lookup that may find nothing. */
  datatype Name = Name(first: string, last: string)

  /** `${p?.first_name} ${p?.last_name}`: a missing profile renders as
      "undefined undefined". */
  function FullName(p: Option<Name>): (r: string)
    ensures p.Some? ==> r == p.value.first + " " + p.value.last
    ensures p.None? ==> r == "undefined" + " " + "undefined"
  {
    match p
    case None => "undefined undefined"
    case Some(n) => n.first + " " + n.last
  }

  // ---------------------------------------------------------------------------
  // Store writes
  // ---------------------------------------------------------------------------

  /** `.update({ status }).eq("id", id)` on `booking_requests`: a missing id
      updates nothing. */
  function SetStatus(requests: map<string, BookingRequest>, id: string, status: string): (r: map<string, BookingRequest>)
    ensures r.Keys == requests.Keys
    ensures id in requests ==> r[id] == requests[id].(status := status)
    ensures forall k :: k in requests && k != id ==> r[k] == requests[k]
  {
    if id in requests then requests[id := requests[id].(status := status)] else requests
  }

  /** No two relationship rows share an id (the table's primary key). */
  predicate UniqueRowIds(rels: map<Pair, Relationship>)
  {
    forall p, q :: p in rels && q in rels && rels[p].id == rels[q].id ==> p == q
  }

  /** An upsert with `onConflict: "coach_id,client_id"`: the row of the pair
      gets the new status (keeping its id), or a row is inserted. */
  function Upsert(rels: map<Pair, Relationship>, pair: Pair, status: string, newId: string): (r: map<Pair, Relationship>)
    ensures r.Keys == rels.Keys + {pair}
    ensures r[pair].status == status
    ensures pair in rels ==> r[pair].id == rels[pair].id
    ensures forall p :: p in rels && p != pair ==> r[p] == rels[p]
  {
    if pair in rels then rels[pair := rels[pair].(status := status)]
    else rels[pair := Relationship(newId, status)]
  }

  /** `.update({ status }).eq("id", id)` on the relationships table. */
  function UpdateById(rels: map<Pair, Relationship>, id: string, status: string): map<Pair, Relationship>
  {
    map p | p in rels :: if rels[p].id == id then rels[p].(status := status) else rels[p]
  }

  /** The dropdown's relationship write: look the pair's row up, update it by
      its id when found, insert a row otherwise. */
  function CheckThenWrite(rels: map<Pair, Relationship>, pair: Pair, status: string, newId: string): (r: map<Pair, Relationship>)
    ensures pair in r && r[pair].status == status
  {
    if pair in rels then UpdateById(rels, rels[pair].id, status)
    else rels[pair := Relationship(newId, status)]
  }

  /** With one row per id, the dropdown's look-up-then-write has the same
      effect as the upsert `BookingManagement` uses. */
  lemma CheckThenWriteIsUpsert(rels: map<Pair, Relationship>, pair: Pair, status: string, newId: string)
    requires UniqueRowIds(rels)
    ensures CheckThenWrite(rels, pair, status, newId) == Upsert(rels, pair, status, newId)
  {
    if pair in rels {
      var a := CheckThenWrite(rels, pair, status, newId);
      var b := Upsert(rels, pair, status, newId);
      assert a.Keys == b.Keys;
      forall p | p in a ensures a[p] == b[p] {
        if p != pair {
          assert rels[p].id != rels[pair].id;
        }
      }
    }
  }

  /** An upsert with a fresh row id keeps row ids unique. */
  lemma UpsertKeepsUniqueIds(rels: map<Pair, Relationship>, pair: Pair, status: string, newId: string)
    requires UniqueRowIds(rels)
    requires forall p :: p in rels ==> rels[p].id != newId
    ensures UniqueRowIds(Upsert(rels, pair, status, newId))
  {
  }

  // ---------------------------------------------------------------------------
  // CoachProfile: requesting a booking
  // ---------------------------------------------------------------------------

  datatype Coach = Coach(id: string, hourlyRate: Option<int>)

  datatype Package = Package(id: string, name: string)

  /** The booking dialogs' state. */
  datatype BookingForm = BookingForm(
    message: string,
    selected: Option<Package>,
    hours: int,
    packageDialogOpen: bool,
    hourlyDialogOpen: bool)

  /** The form after a successful request. */
  const ClearedForm := BookingForm("", None, 1, false, false)

  datatype RequestOutcome = NotSent | Failed | Sent

  /** `${coach.hourly_rate}`: a null rate renders as "null". */
  function RateText(rate: Option<int>): string
  {
    match rate
    case None => "null"
    case Some(v) => IntToString(v)
  }

  /** The stored request message: the hourly prefix, then the client's text. */
  function RequestMessage(isHourly: bool, hours: int, rate: Option<int>, text: string): (r: string)
    ensures !isHourly ==> r == text
    ensures isHourly ==> IsPrefix("Requesting ", r) && |text| <= |r| && r[|r| - |text|..] == text
  {
    if isHourly then "Requesting " + IntToString(hours) + " hour(s) at $" + RateText(rate) + "/hr. " + text
    else text
  }

  /** What the coach's notification says is being booked: the hours of an
      hourly request, otherwise the package's name, falling back to "a
      session" so that the text never ends in nothing. */
  function BookedWhat(isHourly: bool, hours: int, selected: Option<Package>): (r: string)
    ensures r != ""
    ensures isHourly ==> r == IntToString(hours) + " hour(s)"
    ensures !isHourly ==> r == "a session" || (selected.Some? && r == selected.value.name)
    ensures !isHourly && selected.None? ==> r == "a session"
  {
    if isHourly then IntToString(hours) + " hour(s)"
    else if selected.Some? && selected.value.name != "" then selected.value.name
    else "a session"
  }

  /** `selectedPackage?.id || null`. */
  function PackageRef(selected: Option<Package>): (r: Option<string>)
    ensures r.Some? <==> selected.Some? && selected.value.id != ""
    ensures r.Some? ==> r.value == selected.value.id
  {
    if selected.Some? && selected.value.id != "" then Some(selected.value.id) else None
  }

  /** The notification's data object; an undefined `package_id` is dropped
      when the object is stored. */
  function RequestData(client: string, selected: Option<Package>, requestId: string): (d: map<string, string>)
    ensures KeyClient in d && d[KeyClient] == client
    ensures KeyRequest in d && d[KeyRequest] == requestId
    ensures KeyPackage in d <==> selected.Some?
  {
    var base := map[KeyClient := client, KeyRequest := requestId];
    if selected.Some? then base[KeyPackage := selected.value.id] else base
  }

  /** `handleBookingRequest`. Without a signed-in user or a loaded coach it
      does nothing. Otherwise the relationship is upserted to "pending" first;
      then, if the request insert succeeds (`insertOk`), the request is stored,
      the coach is notified and the form is cleared. A failed insert keeps the
      relationship write and the form. */
  function RequestBooking(st: Store, form: BookingForm, user: Option<string>, coach: Option<Coach>,
                          clientName: Option<Name>, isHourly: bool, ids: Fresh,
                          insertOk: bool): (r: (Store, BookingForm, RequestOutcome))
    ensures user.None? || coach.None? ==> r == (st, form, NotSent)
    ensures user.Some? && coach.Some? ==>
      && r.0.relationships == Upsert(st.relationships, Pair(coach.value.id, user.value), StatusPending, ids.relationshipId)
      && (insertOk ==> r.2 == Sent && r.1 == ClearedForm)
      && (!insertOk ==> r == (st.(relationships := r.0.relationships), form, Failed))
    ensures user.Some? && coach.Some? && insertOk ==>
      && r.0.requests == st.requests[ids.requestId := BookingRequest(
           ids.requestId, user.value, coach.value.id, PackageRef(form.selected),
           RequestMessage(isHourly, form.hours, coach.value.hourlyRate, form.message), StatusPending, None)]
      && r.0.notifications == Feed.CreateNotification(st.notifications, coach.value.id, "booking_request",
           "New Booking Request",
           FullName(clientName) + " wants to book " + BookedWhat(isHourly, form.hours, form.selected),
           Some(RequestData(user.value, form.selected, ids.requestId)), ids.notificationId, ids.now)
  {
    if user.None? || coach.None? then (st, form, NotSent)
    else
      var client := user.value;
      var k := coach.value;
      var rels := Upsert(st.relationships, Pair(k.id, client), StatusPending, ids.relationshipId);
      if !insertOk then (st.(relationships := rels), form, Failed)
      else
        var request := BookingRequest(ids.requestId, client, k.id, PackageRef(form.selected),
                                      RequestMessage(isHourly, form.hours, k.hourlyRate, form.message),
                                      StatusPending, None);
        var note := FullName(clientName) + " wants to book " + BookedWhat(isHourly, form.hours, form.selected);
        var notes := Feed.CreateNotification(st.notifications, k.id, "booking_request", "New Booking Request",
                                             note, Some(RequestData(client, form.selected, ids.requestId)),
                                             ids.notificationId, ids.now);
        (Store(st.requests[ids.requestId := request], rels, notes), ClearedForm, Sent)
  }

  /** A request overwrites whatever relationship the pair had, an active one
      included, with "pending". */
  lemma RequestDemotesRelationship(st: Store, form: BookingForm, client: string, coach: Coach,
                                   clientName: Option<Name>, isHourly: bool, ids: Fresh, insertOk: bool)
    ensures var r := RequestBooking(st, form, Some(client), Some(coach), clientName, isHourly, ids, insertOk);
      var pair := Pair(coach.id, client);
      && pair in r.0.relationships
      && r.0.relationships[pair].status == StatusPending
      && (pair in st.relationships ==> r.0.relationships[pair].id == st.relationships[pair].id)
  {
  }

  // ---------------------------------------------------------------------------
  // Accepting and rejecting
  // ---------------------------------------------------------------------------

  /** A data field is present and truthy. */
  predicate HasRef(n: Feed.Notification, key: string)
  {
    key in n.data && n.data[key] != ""
  }

  /** The dropdown's texts. The accepted title ends with the four characters
      the source file holds where a party-popper emoji was meant (its UTF-8
      bytes read as Windows-1252). */
  const DropdownAcceptTitle := "Booking Accepted! \U{F0}\U{178}\U{17D}\U{2030}"
  const DropdownAcceptMessage := "Your booking request has been accepted. You can now start your training!"
  const DropdownRejectTitle := "Booking Request Update"
  const DropdownRejectMessage := "Unfortunately, your booking request was not accepted. Please try another coach or time."

  datatype Outcome = InvalidRequest | SignedOut | Completed

  /** The store and the dropdown's feed after a handler. */
  datatype Handled = Handled(store: Store, feed: Feed.FeedState, outcome: Outcome)

  /** `handleAcceptBooking` on a notification of the coach's feed. */
  function DropdownAccept(st: Store, feed: Feed.FeedState, n: Feed.Notification, user: Option<string>,
                          ids: Fresh): (h: Handled)
    ensures !HasRef(n, KeyRequest) || !HasRef(n, KeyClient) ==> h == Handled(st, feed, InvalidRequest)
    ensures HasRef(n, KeyRequest) && HasRef(n, KeyClient) && user.None? ==> h == Handled(st, feed, SignedOut)
    ensures HasRef(n, KeyRequest) && HasRef(n, KeyClient) && user.Some? ==> h.outcome == Completed
    ensures h.outcome == Completed ==>
      var pair := Pair(user.value, n.data[KeyClient]);
      var marked := Feed.MarkAsRead(
        Feed.CreateNotification(st.notifications, n.data[KeyClient], "booking_accepted",
          DropdownAcceptTitle, DropdownAcceptMessage, Some(map[KeyCoach := user.value]),
          ids.notificationId, ids.now),
        feed, n.id);
      && h.store.requests == SetStatus(st.requests, n.data[KeyRequest], StatusAccepted)
      && pair in h.store.relationships && h.store.relationships[pair].status == StatusActive
      && h.store.notifications == marked.0
      && h.feed == marked.1
  {
    if !HasRef(n, KeyRequest) || !HasRef(n, KeyClient) then Handled(st, feed, InvalidRequest)
    else if user.None? then Handled(st, feed, SignedOut)
    else
      var coach := user.value;
      var client := n.data[KeyClient];
      var notified := Feed.CreateNotification(st.notifications, client, "booking_accepted", DropdownAcceptTitle,
                                              DropdownAcceptMessage, Some(map[KeyCoach := coach]),
                                              ids.notificationId, ids.now);
      var marked := Feed.MarkAsRead(notified, feed, n.id);
      var store := Store(
        SetStatus(st.requests, n.data[KeyRequest], StatusAccepted),
        CheckThenWrite(st.relationships, Pair(coach, client), StatusActive, ids.relationshipId),
        marked.0);
      Handled(store, marked.1, Completed)
  }

  /** `handleRejectBooking` on a notification of the coach's feed. */
  function DropdownReject(st: Store, feed: Feed.FeedState, n: Feed.Notification, user: Option<string>,
                          ids: Fresh): (h: Handled)
    ensures !HasRef(n, KeyRequest) || !HasRef(n, KeyClient) ==> h == Handled(st, feed, InvalidRequest)
    ensures HasRef(n, KeyRequest) && HasRef(n, KeyClient) && user.None? ==> h == Handled(st, feed, SignedOut)
    ensures HasRef(n, KeyRequest) && HasRef(n, KeyClient) && user.Some? ==> h.outcome == Completed
    ensures h.store.relationships == st.relationships
    ensures h.outcome == Completed ==>
      var marked := Feed.MarkAsRead(
        Feed.CreateNotification(st.notifications, n.data[KeyClient], "booking_rejected",
          DropdownRejectTitle, DropdownRejectMessage, Some(map[KeyCoach := user.value]),
          ids.notificationId, ids.now),
        feed, n.id);
      && h.store.requests == SetStatus(st.requests, n.data[KeyRequest], StatusRejected)
      && h.store.notifications == marked.0
      && h.feed == marked.1
  {
    if !HasRef(n, KeyRequest) || !HasRef(n, KeyClient) then Handled(st, feed, InvalidRequest)
    else if user.None? then Handled(st, feed, SignedOut)
    else
      var client := n.data[KeyClient];
      var notified := Feed.CreateNotification(st.notifications, client, "booking_rejected", DropdownRejectTitle,
                                              DropdownRejectMessage, Some(map[KeyCoach := user.value]),
                                              ids.notificationId, ids.now);
      var marked := Feed.MarkAsRead(notified, feed, n.id);
      var store := st.(requests := SetStatus(st.requests, n.data[KeyRequest], StatusRejected), notifications := marked.0);
      Handled(store, marked.1, Completed)
  }

  /** Once handled, the notification no longer offers Accept or Reject: not
      in the dropdown's list, and not after the coach's next fetch, since the
      row is read in the table too. */
  lemma HandledNotificationIsSettled(st: Store, feed: Feed.FeedState, n: Feed.Notification, coach: string,
                                     ids: Fresh)
    requires HasRef(n, KeyRequest) && HasRef(n, KeyClient)
    ensures var after := DropdownAccept(st, feed, n, Some(coach), ids).feed.items;
      forall i :: 0 <= i < |after| && after[i].id == n.id ==> !Feed.IsActionable(after[i])
    ensures var after := DropdownReject(st, feed, n, Some(coach), ids).feed.items;
      forall i :: 0 <= i < |after| && after[i].id == n.id ==> !Feed.IsActionable(after[i])
    ensures var page := Feed.Fetched(coach, DropdownAccept(st, feed, n, Some(coach), ids).store.notifications);
      forall i :: 0 <= i < |page| && page[i].id == n.id ==> !Feed.IsActionable(page[i])
    ensures var page := Feed.Fetched(coach, DropdownReject(st, feed, n, Some(coach), ids).store.notifications);
      forall i :: 0 <= i < |page| && page[i].id == n.id ==> !Feed.IsActionable(page[i])
  {
    Feed.MarkAsReadThenFetch(coach, Feed.CreateNotification(st.notifications, n.data[KeyClient], "booking_accepted",
      DropdownAcceptTitle, DropdownAcceptMessage, Some(map[KeyCoach := coach]), ids.notificationId, ids.now), feed, n.id);
    Feed.MarkAsReadThenFetch(coach, Feed.CreateNotification(st.notifications, n.data[KeyClient], "booking_rejected",
      DropdownRejectTitle, DropdownRejectMessage, Some(map[KeyCoach := coach]), ids.notificationId, ids.now), feed, n.id);
  }

  /** `{ coach_id: user?.id }`: an undefined id is dropped when stored. */
  function CoachData(user: Option<string>): (d: map<string, string>)
    ensures user.Some? ==> d == map[KeyCoach := user.value]
    ensures user.None? ==> d == map[]
  {
    if user.Some? then map[KeyCoach := user.value] else map[]
  }

  /** `handleAccept` of the booking page. `coachName` is the coach's profile
      as the page looks it up. Without a user the upsert has no coach id and
      writes nothing. */
  function ManageAccept(st: Store, user: Option<string>, request: BookingRequest, coachName: Option<Name>,
                        ids: Fresh): (r: Store)
    ensures r.requests == SetStatus(st.requests, request.id, StatusAccepted)
    ensures user.Some? ==>
      r.relationships == Upsert(st.relationships, Pair(user.value, request.clientId), StatusActive, ids.relationshipId)
    ensures user.None? ==> r.relationships == st.relationships
    ensures r.notifications == Feed.CreateNotification(st.notifications, request.clientId, "booking_accepted",
      "Booking Accepted!",
      FullName(coachName) + " has accepted your booking request. You can now start training!",
      Some(CoachData(user)), ids.notificationId, ids.now)
  {
    Store(
      SetStatus(st.requests, request.id, StatusAccepted),
      if user.Some? then Upsert(st.relationships, Pair(user.value, request.clientId), StatusActive, ids.relationshipId)
      else st.relationships,
      Feed.CreateNotification(st.notifications, request.clientId, "booking_accepted", "Booking Accepted!",
        FullName(coachName) + " has accepted your booking request. You can now start training!",
        Some(CoachData(user)), ids.notificationId, ids.now))
  }

  /** `handleReject` of the booking page. */
  function ManageReject(st: Store, user: Option<string>, request: BookingRequest, coachName: Option<Name>,
                        ids: Fresh): (r: Store)
    ensures r.requests == SetStatus(st.requests, request.id, StatusRejected)
    ensures r.relationships == st.relationships
    ensures r.notifications == Feed.CreateNotification(st.notifications, request.clientId, "booking_rejected",
      "Booking Update",
      FullName(coachName) + " was unable to accept your booking request at this time.",
      Some(CoachData(user)), ids.notificationId, ids.now)
  {
    st.(
      requests := SetStatus(st.requests, request.id, StatusRejected),
      notifications := Feed.CreateNotification(st.notifications, request.clientId, "booking_rejected", "Booking Update",
        FullName(coachName) + " was unable to accept your booking request at this time.",
        Some(CoachData(user)), ids.notificationId, ids.now))
  }

  /** Accepting from the dropdown and from the booking page change the
      requests and relationships in the same way, and both leave the client
      one "booking_accepted" notification carrying the coach's id. The
      wording differs, and only the dropdown marks the request's
      notification read. */
  lemma AcceptPathsAgree(st: Store, feed: Feed.FeedState, n: Feed.Notification, coach: string,
                         request: BookingRequest, coachName: Option<Name>, ids: Fresh)
    requires UniqueRowIds(st.relationships)
    requires HasRef(n, KeyRequest) && HasRef(n, KeyClient)
    requires n.data[KeyRequest] == request.id && n.data[KeyClient] == request.clientId
    ensures var a := DropdownAccept(st, feed, n, Some(coach), ids).store;
      var b := ManageAccept(st, Some(coach), request, coachName, ids);
      && a.requests == b.requests
      && a.relationships == b.relationships
      && |a.notifications| == |b.notifications| == |st.notifications| + 1
      && a.notifications[..|st.notifications|] == Feed.MarkItems(st.notifications, n.id)
      && b.notifications[..|st.notifications|] == st.notifications
      && var x := a.notifications[|st.notifications|];
         var y := b.notifications[|st.notifications|];
         x.userId == y.userId == request.clientId && x.kind == y.kind == "booking_accepted"
         && x.data == y.data == map[KeyCoach := coach]
  {
    CheckThenWriteIsUpsert(st.relationships, Pair(coach, request.clientId), StatusActive, ids.relationshipId);
  }

  // ---------------------------------------------------------------------------
  // End to end
  // ---------------------------------------------------------------------------

  /** The notification a successful request sends the coach carries both
      references, is unread and of kind "booking_request", so the dropdown
      offers Accept and Reject on it and will not refuse it as invalid. */
  lemma RequestNotificationIsActionable(st: Store, form: BookingForm, client: string, coach: Coach,
                                        clientName: Option<Name>, isHourly: bool, ids: Fresh)
    requires client != "" && ids.requestId != ""
    ensures var r := RequestBooking(st, form, Some(client), Some(coach), clientName, isHourly, ids, true).0;
      var n := r.notifications[|st.notifications|];
      && |r.notifications| == |st.notifications| + 1
      && n.userId == coach.id
      && Feed.IsActionable(n) && HasRef(n, KeyRequest) && HasRef(n, KeyClient)
      && n.data[KeyRequest] == ids.requestId && n.data[KeyClient] == client
  {
  }

  /** A client's request followed by the coach accepting its notification
      leaves the request "accepted", the pair's relationship "active", and
      the client a "booking_accepted" notification naming the coach; the
      request's own notification is read in the table. */
  lemma RequestThenAccept(st: Store, form: BookingForm, client: string, coach: Coach, clientName: Option<Name>,
                          isHourly: bool, fresh1: Fresh, feed: Feed.FeedState, fresh2: Fresh)
    requires client != "" && fresh1.requestId != ""
    ensures var s1 := RequestBooking(st, form, Some(client), Some(coach), clientName, isHourly, fresh1, true).0;
      var n := s1.notifications[|st.notifications|];
      var s2 := DropdownAccept(s1, feed, n, Some(coach.id), fresh2).store;
      var pair := Pair(coach.id, client);
      && fresh1.requestId in s2.requests
      && s2.requests[fresh1.requestId].status == StatusAccepted
      && s2.requests[fresh1.requestId].clientId == client
      && pair in s2.relationships && s2.relationships[pair].status == StatusActive
      && |s2.notifications| == |s1.notifications| + 1
      && s2.notifications[|s1.notifications|].userId == client
      && s2.notifications[|s1.notifications|].kind == "booking_accepted"
      && s2.notifications[|s1.notifications|].data == map[KeyCoach := coach.id]
      && s2.notifications[|st.notifications|].isRead
  {
    RequestNotificationIsActionable(st, form, client, coach, clientName, isHourly, fresh1);
  }

  /** A request followed by a rejection leaves the request "rejected" and
      the pair's relationship "pending", as the request left it. */
  lemma RequestThenReject(st: Store, form: BookingForm, client: string, coach: Coach, clientName: Option<Name>,
                          isHourly: bool, fresh1: Fresh, feed: Feed.FeedState, fresh2: Fresh)
    requires client != "" && fresh1.requestId != ""
    ensures var s1 := RequestBooking(st, form, Some(client), Some(coach), clientName, isHourly, fresh1, true).0;
      var n := s1.notifications[|st.notifications|];
      var s2 := DropdownReject(s1, feed, n, Some(coach.id), fresh2).store;
      var pair := Pair(coach.id, client);
      && fresh1.requestId in s2.requests
      && s2.requests[fresh1.requestId].status == StatusRejected
      && pair in s2.relationships && s2.relationships[pair].status == StatusPending
      && s2.notifications[|s1.notifications|].kind == "booking_rejected"
  {
    RequestNotificationIsActionable(st, form, client, coach, clientName, isHourly, fresh1);
  }

  // ---------------------------------------------------------------------------
  // The booking page's lists and the profile's contact links
  // ---------------------------------------------------------------------------

  function PendingRequests(requests: seq<BookingRequest>): seq<BookingRequest>
  {
    Filter(requests, (r: BookingRequest) => r.status == StatusPending)
  }

  function ProcessedRequests(requests: seq<BookingRequest>): seq<BookingRequest>
  {
    Filter(requests, (r: BookingRequest) => r.status != StatusPending)
  }

  /** The two sections split the fetched requests: each keeps the fetched
      order, nothing is in both, and together they hold every request. */
  lemma PendingProcessedPartition(requests: seq<BookingRequest>)
    ensures IsSubsequence(PendingRequests(requests), requests)
    ensures IsSubsequence(ProcessedRequests(requests), requests)
    ensures forall i :: 0 <= i < |PendingRequests(requests)| ==> PendingRequests(requests)[i].status == StatusPending
    ensures forall i :: 0 <= i < |ProcessedRequests(requests)| ==> ProcessedRequests(requests)[i].status != StatusPending
    ensures multiset(PendingRequests(requests)) + multiset(ProcessedRequests(requests)) == multiset(requests)
  {
    FilterPartition(requests, (r: BookingRequest) => r.status == StatusPending,
                              (r: BookingRequest) => r.status != StatusPending);
  }

  /** `request.requested_sessions || 1`: null and 0 show as one hour. */
  function HoursShown(requested: Option<int>): (h: int)
    ensures requested.None? || requested.value == 0 ==> h == 1
    ensures requested.Some? && requested.value != 0 ==> h == requested.value
  {
    if requested.None? || requested.value == 0 then 1 else requested.value
  }

  /** `whatsapp.replace(/\D/g, '')`: the digits, in order. */
  function WhatsAppNumber(whatsapp: string): (r: string)
    ensures forall i :: 0 <= i < |r| ==> IsDigit(r[i])
    ensures forall i :: 0 <= i < |whatsapp| && IsDigit(whatsapp[i]) ==> whatsapp[i] in r
    ensures IsSubsequence(r, whatsapp)
    ensures forall c :: multiset(r)[c] == if IsDigit(c) then multiset(whatsapp)[c] else 0
  {
    FilterCounts(whatsapp, IsDigit);
    Filter(whatsapp, IsDigit)
  }

  /** A number already written as bare digits goes into the link unchanged. */
  lemma WhatsAppDigitsUnchanged(whatsapp: string)
    requires forall i :: 0 <= i < |whatsapp| ==> IsDigit(whatsapp[i])
    ensures WhatsAppNumber(whatsapp) == whatsapp
  {
    FilterKeepsAll(whatsapp, IsDigit);
  }

  /** `telegram.replace('@', '')`: only the first '@' is removed. */
  function TelegramHandle(telegram: string): (r: string)
    ensures '@' !in telegram ==> r == telegram
    ensures '@' in telegram ==>
      r == telegram[..FirstIndex(telegram, '@')] + telegram[FirstIndex(telegram, '@') + 1..]
    ensures Count(r, '@') == if '@' in telegram then Count(telegram, '@') - 1 else Count(telegram, '@')
  {
    RemoveFirstSpec(telegram, '@');
    RemoveFirstCount(telegram, '@');
    RemoveFirst(telegram, '@')
  }
}

=== FILE: client_forms.dfy ===
/** The client dialogs, `src/components/AddClientDialog.tsx` and
    `src/components/EditClientDialog.tsx`: one schema, the record each
    writes to the `clients` table, and how the edit form is filled from a
    stored row. */
module ClientForms {
  import opened Common
  import opened Validation

  /** The dialog's form state. `sessions` is what the number input produced. */
  datatype ClientForm = ClientForm(
    firstName: string, lastName: string, email: string, phone: string,
    sport: string, level: string, health: string, sessions: int)

  const EmptyForm := ClientForm("", "", "", "", "", "", "", 0)

  /** A row of `clients`. `sessionsRemaining` and `paymentStatus` may be
      null; an insert leaves `paymentStatus` to the table's default, shown
      here as null. */
  datatype ClientRow = ClientRow(
    id: string, coachId: string, firstName: string, lastName: string,
    email: Option<string>, phone: Option<string>, sport: string, level: string,
    health: Option<string>, sessionsRemaining: Option<int>, paymentStatus: Option<string>)

  /** `clientSchema`. The e-mail is either the empty string or, trimmed, a
      valid address of at most 255 characters; a blank but non-empty e-mail
      is rejected. Sport, level and health information are not trimmed. */
  function ClientIssues(f: ClientForm, isEmail: string -> bool): (r: seq<Issue>)
    ensures r == [] <==> ClientRules(f, isEmail)
    ensures f.sessions < 0 ==> |r| > 0 && r[|r| - 1] == Issue(SessionsRemaining, Negative)
  {
    FieldChecksIff(f, isEmail);
    FieldChecks(f, isEmail) + (if f.sessions >= 0 then [] else [Issue(SessionsRemaining, Negative)])
  }

  /** The checks of `clientSchema` in field order, up to the sessions count,
      which is checked last. */
  function FieldChecks(f: ClientForm, isEmail: string -> bool): seq<Issue>
  {
    Bounded(FirstName, Trim(f.firstName), 1, Required("First name is required"), 100)
    + Bounded(LastName, Trim(f.lastName), 1, Required("Last name is required"), 100)
    + (if f.email == "" then [] else EmailChecks(Trim(f.email), isEmail, "Invalid email", Some(255)))
    + AtMost(Phone, Trim(f.phone), 20)
    + Bounded(Sport, f.sport, 1, Required("Sport is required"), |f.sport|)
    + Bounded(Level, f.level, 1, Required("Level is required"), |f.level|)
    + AtMost(HealthInfo, f.health, 1000)
  }

  lemma FieldChecksIff(f: ClientForm, isEmail: string -> bool)
    ensures FieldChecks(f, isEmail) == [] <==> ClientRules(f.(sessions := 0), isEmail)
  {
  }

  /** The schema's rules, field by field. */
  predicate ClientRules(f: ClientForm, isEmail: string -> bool)
  {
    1 <= |Trim(f.firstName)| <= 100 && 1 <= |Trim(f.lastName)| <= 100
    && (f.email == "" || (isEmail(Trim(f.email)) && |Trim(f.email)| <= 255))
    && |Trim(f.phone)| <= 20 && f.sport != "" && f.level != ""
    && |f.health| <= 1000 && f.sessions >= 0
  }

  lemma ClientAcceptedIff(f: ClientForm, isEmail: string -> bool)
    ensures ClientIssues(f, isEmail) == [] <==> ClientRules(f, isEmail)
  {
  }

  /** The sessions input: `parseInt(value) || 0`. */
  function SessionsInput(parse: string -> Option<int>, text: string): (r: int)
    ensures r == 0 || parse(text) == Some(r)
  {
    IntOrZero(parse, text)
  }

  /** The row an accepted form inserts: names as typed (the schema's trimmed
      values are discarded), empty optional texts as null. */
  function InsertedRow(f: ClientForm, id: string, coach: string): (r: ClientRow)
    ensures r.firstName == f.firstName && r.lastName == f.lastName
    ensures (r.email.None? <==> f.email == "") && (r.phone.None? <==> f.phone == "") && (r.health.None? <==> f.health == "")
    ensures r.sessionsRemaining == Some(f.sessions) && r.paymentStatus.None?
    ensures r.id == id && r.coachId == coach
  {
    ClientRow(id, coach, f.firstName, f.lastName, NullIfEmpty(f.email), NullIfEmpty(f.phone),
              f.sport, f.level, NullIfEmpty(f.health), Some(f.sessions), None)
  }

  datatype AddResult = AddResult(rows: seq<ClientRow>, form: ClientForm, open: bool, shown: Option<Issue>)

  /** `handleSubmit` of the add dialog. A rejected form, a missing user or a
      failed insert leave the table and the form as they were; success
      appends the row, clears the form and closes the dialog. */
  function AddClient(f: ClientForm, isEmail: string -> bool, user: Option<string>, id: string,
                     rows: seq<ClientRow>, insertOk: bool): (r: AddResult)
    ensures r.rows != rows ==> user.Some? && r.rows == rows + [InsertedRow(f, id, user.value)]
    ensures r.rows != rows <==> ClientRules(f, isEmail) && user.Some? && insertOk
    ensures r.rows != rows ==> r.form == EmptyForm && !r.open
    ensures r.rows == rows ==> r.form == f && r.open
    ensures r.shown.Some? <==> !ClientRules(f, isEmail)
  {
    ClientAcceptedIff(f, isEmail);
    var issues := ClientIssues(f, isEmail);
    if issues != [] then AddResult(rows, f, true, Shown(issues))
    else if user.None? || !insertOk then AddResult(rows, f, true, None)
    else AddResult(rows + [InsertedRow(f, id, user.value)], EmptyForm, false, None)
  }

  /** The edit dialog adds the payment status to the same fields. */
  datatype EditForm = EditForm(fields: ClientForm, paymentStatus: string)

  /** The edit form filled from a stored row: null texts become "", a null
      or zero session count 0, a null or empty payment status "pending". */
  function EditFormOf(c: ClientRow): (f: EditForm)
    ensures f.fields.firstName == c.firstName && f.fields.lastName == c.lastName
    ensures f.fields.email == EmptyIfNull(c.email) && f.fields.health == EmptyIfNull(c.health)
    ensures f.fields.sessions == (if c.sessionsRemaining.Some? then c.sessionsRemaining.value else 0)
    ensures f.paymentStatus != ""
  {
    EditForm(
      ClientForm(c.firstName, c.lastName, EmptyIfNull(c.email), EmptyIfNull(c.phone), c.sport, c.level,
                 EmptyIfNull(c.health), if c.sessionsRemaining.Some? then c.sessionsRemaining.value else 0),
      if c.paymentStatus.None? || c.paymentStatus.value == "" then "pending" else c.paymentStatus.value)
  }

  /** The columns the update writes; the id and the coach stay. */
  function Applied(c: ClientRow, f: EditForm): (r: ClientRow)
    ensures r.id == c.id && r.coachId == c.coachId
  {
    var g := f.fields;
    c.(firstName := g.firstName, lastName := g.lastName, email := NullIfEmpty(g.email),
       phone := NullIfEmpty(g.phone), sport := g.sport, level := g.level,
       health := NullIfEmpty(g.health), sessionsRemaining := Some(g.sessions),
       paymentStatus := Some(f.paymentStatus))
  }

  /** `update(...).eq("id", client.id)`. */
  function UpdateById(rows: seq<ClientRow>, id: string, f: EditForm): (r: seq<ClientRow>)
    ensures |r| == |rows|
    ensures forall i :: 0 <= i < |rows| ==> r[i] == (if rows[i].id == id then Applied(rows[i], f) else rows[i])
    decreases |rows|
  {
    if rows == [] then []
    else [if rows[0].id == id then Applied(rows[0], f) else rows[0]] + UpdateById(rows[1..], id, f)
  }

  datatype EditResult = EditResult(rows: seq<ClientRow>, closed: bool, shown: Option<Issue>)

  /** `handleSubmit` of the edit dialog: nothing without a client, nothing
      for a rejected form (the payment status is not checked), and the
      client's row updated on success. */
  function EditClient(client: Option<ClientRow>, f: EditForm, isEmail: string -> bool,
                      rows: seq<ClientRow>, updateOk: bool): (r: EditResult)
    ensures client.None? ==> r == EditResult(rows, false, None)
    ensures r.rows != rows ==> client.Some? && ClientRules(f.fields, isEmail) && updateOk
    ensures client.Some? && ClientRules(f.fields, isEmail) && updateOk ==> r.rows == UpdateById(rows, client.value.id, f) && r.closed
    ensures r.shown.Some? <==> client.Some? && !ClientRules(f.fields, isEmail)
  {
    ClientAcceptedIff(f.fields, isEmail);
    if client.None? then EditResult(rows, false, None)
    else
      var issues := ClientIssues(f.fields, isEmail);
      if issues != [] then EditResult(rows, false, Shown(issues))
      else if !updateOk then EditResult(rows, false, None)
      else EditResult(UpdateById(rows, client.value.id, f), true, None)
  }

  /** Saving the edit form unchanged rewrites a row to itself, provided no
      column holds the empty string (which the form turns into null) and the
      counts and status are set. */
  lemma {:induction false} EditUnchangedKeepsRow(c: ClientRow)
    requires c.email != Some("") && c.phone != Some("") && c.health != Some("")
    requires c.sessionsRemaining.Some? && c.paymentStatus.Some? && c.paymentStatus.value != ""
    ensures Applied(c, EditFormOf(c)) == c
  {
    NullableRoundTrip(c.email);
    NullableRoundTrip(c.phone);
    NullableRoundTrip(c.health);
  }

  /** A freshly added client opens in the edit dialog with the values it was
      added with, and the payment status "pending". */
  lemma AddedClientEditsAsEntered(f: ClientForm, id: string, coach: string)
    ensures EditFormOf(InsertedRow(f, id, coach)) == EditForm(f, "pending")
  {
    FormStringRoundTrip(f.email);
    FormStringRoundTrip(f.phone);
    FormStringRoundTrip(f.health);
  }

  /** The update touches only the rows with the client's id. */
  lemma UpdateTouchesOnlyThatClient(rows: seq<ClientRow>, id: string, f: EditForm, i: nat)
    requires i < |rows| && rows[i].id != id
    ensures UpdateById(rows, id, f)[i] == rows[i]
  {
  }
}

=== FILE: client_sessions.dfy ===
/** The client's view of sessions and requests, `src/pages/MySessions.tsx`:
    the badge colour of a status, the split into upcoming and past
    sessions, the coach lookup, and the capitalised status label. */
module ClientSessions {
  import opened Common

  /** The badge variants a status maps to. */
  datatype Variant = Default | Secondary | Destructive

  /** `getStatusColor`. */
  function StatusColor(status: string): (v: Variant)
    ensures v == Default <==> status == "accepted" || status == "completed"
    ensures v == Destructive <==> status == "rejected" || status == "cancelled"
  {
    if status == "accepted" || status == "completed" then Default
    else if status == "pending" || status == "upcoming" then Secondary
    else if status == "rejected" || status == "cancelled" then Destructive
    else Secondary
  }

  /** Unknown statuses look like pending ones. */
  lemma UnknownStatusIsSecondary(status: string)
    requires status !in ["accepted", "completed", "pending", "upcoming", "rejected", "cancelled"]
    ensures StatusColor(status) == StatusColor("pending")
  {
  }

  /** A session as the page holds it: its start as a timestamp and its coach. */
  datatype Session = Session(id: string, coachId: string, at: int)

  predicate NotBefore(now: int, s: Session) { s.at >= now }

  predicate Before(now: int, s: Session) { s.at < now }

  /** `upcomingSessions`: sessions starting now or later, in fetched order. */
  function UpcomingSessions(ss: seq<Session>, now: int): (r: seq<Session>)
    ensures forall i :: 0 <= i < |r| ==> r[i] in ss && r[i].at >= now
    ensures IsSubsequence(r, ss)
  {
    Filter(ss, s => NotBefore(now, s))
  }

  /** `pastSessions`: sessions that started before now, in fetched order. */
  function PastSessions(ss: seq<Session>, now: int): (r: seq<Session>)
    ensures forall i :: 0 <= i < |r| ==> r[i] in ss && r[i].at < now
    ensures IsSubsequence(r, ss)
  {
    Filter(ss, s => Before(now, s))
  }

  /** For one `now`, the two tabs split the sessions: every session is in
      exactly one of them. The page reads the clock afresh for every
      session in both filters, so the split is exact only when all those
      readings agree; a session starting between two readings can appear
      in both tabs or in neither. */
  lemma {:induction false} TabsPartition(ss: seq<Session>, now: int)
    ensures multiset(UpcomingSessions(ss, now)) + multiset(PastSessions(ss, now)) == multiset(ss)
    ensures |UpcomingSessions(ss, now)| + |PastSessions(ss, now)| == |ss|
  {
    FilterPartition(ss, s => NotBefore(now, s), s => Before(now, s));
  }

  function CoachIdsOf(ss: seq<Session>): (r: seq<string>)
    ensures |r| == |ss|
    ensures forall i :: 0 <= i < |ss| ==> r[i] == ss[i].coachId
    decreases |ss|
  {
    if ss == [] then [] else [ss[0].coachId] + CoachIdsOf(ss[1..])
  }

  /** `[...new Set(coach ids)]`: each coach is looked up once, and every
      session's coach is looked up. */
  function CoachIds(ss: seq<Session>): (r: seq<string>)
    ensures Distinct(r)
    ensures forall i :: 0 <= i < |ss| ==> ss[i].coachId in r
    ensures forall i :: 0 <= i < |r| ==> exists j :: 0 <= j < |ss| && ss[j].coachId == r[i]
  {
    var ids := CoachIdsOf(ss);
    var r := Dedup(ids);
    assert forall i :: 0 <= i < |ss| ==> ids[i] == ss[i].coachId;
    assert forall i :: 0 <= i < |r| ==> r[i] in ids;
    r
  }

  datatype Profile = Profile(id: string, firstName: string, lastName: string)

  /** `profiles?.find(p => p.id === coach_id)`. */
  function FindCoach(profiles: seq<Profile>, id: string): (r: Option<Profile>)
    ensures r.Some? ==> r.value in profiles && r.value.id == id
    ensures r.None? <==> forall i :: 0 <= i < |profiles| ==> profiles[i].id != id
  {
    Find(profiles, (p: Profile) => p.id == id)
  }

  /** The request status label: first character upper-cased, the rest as
      stored. */
  function Capitalize(s: string): (r: string)
    ensures |r| == |s|
    ensures |s| > 0 ==> r[0] == UpperChar(s[0]) && r[1..] == s[1..]
  {
    if s == [] then [] else [UpperChar(s[0])] + s[1..]
  }

  /** Capitalising twice is capitalising once. */
  lemma CapitalizeIdempotent(s: string)
    ensures Capitalize(Capitalize(s)) == Capitalize(s)
  {
    if s != [] {
      assert UpperChar(UpperChar(s[0])) == UpperChar(s[0]);
    }
  }
}

=== FILE: common.dfy ===
/** Shared vocabulary of the model: optional values, the string operations the
    pages rely on (trim, ASCII case mapping, substring search, decimal
    rendering) and the order-preserving sequence operations (filter,
    de-duplication, stable descending sort) that stand in for JavaScript's
    `Array.prototype.filter`, `new Set(...)` and `Array.prototype.sort`. */
module Common {

  /** A nullable value: `None` is JavaScript's `null`/`undefined`. */
  datatype Option<T> = None | Some(value: T)

  // ---------------------------------------------------------------------------
  // Characters
  // ---------------------------------------------------------------------------

  /** The white-space characters `String.prototype.trim` removes (ASCII subset). */
  predicate IsSpace(c: char)
  {
    c == ' ' || c == '\t' || c == '\n' || c == '\r' || c == '\U{B}' || c == '\U{C}'
  }

  predicate IsDigit(c: char)
  {
    '0' <= c <= '9'
  }

  function LowerChar(c: char): char
  {
    if 'A' <= c <= 'Z' then (c as int + 32) as char else c
  }

  function UpperChar(c: char): char
  {
    if 'a' <= c <= 'z' then (c as int - 32) as char else c
  }

  /** `s.toLowerCase()` restricted to ASCII letters. */
  function ToLower(s: string): (r: string)
    ensures |r| == |s|
    ensures forall i :: 0 <= i < |s| ==> r[i] == LowerChar(s[i])
  {
    seq(|s|, i requires 0 <= i < |s| => LowerChar(s[i]))
  }

  /** `s.toUpperCase()` restricted to ASCII letters. */
  function ToUpper(s: string): (r: string)
    ensures |r| == |s|
    ensures forall i :: 0 <= i < |s| ==> r[i] == UpperChar(s[i])
  {
    seq(|s|, i requires 0 <= i < |s| => UpperChar(s[i]))
  }

  // ---------------------------------------------------------------------------
  // Trimming
  // ---------------------------------------------------------------------------

  /** Drops the leading white space: the result is a suffix of `s` that does
      not start with a space, and everything dropped was a space. */
  function DropLeadingSpace(s: string): (r: string)
    ensures |r| <= |s| && r == s[|s| - |r|..]
    ensures r == [] || !IsSpace(r[0])
    ensures forall i :: 0 <= i < |s| - |r| ==> IsSpace(s[i])
    decreases |s|
  {
    if |s| > 0 && IsSpace(s[0]) then DropLeadingSpace(s[1..]) else s
  }

  /** Drops the trailing white space: the result is a prefix of `s` that does
      not end with a space, and everything dropped was a space. */
  function DropTrailingSpace(s: string): (r: string)
    ensures |r| <= |s| && r == s[..|r|]
    ensures r == [] || !IsSpace(r[|r| - 1])
    ensures forall i :: |r| <= i < |s| ==> IsSpace(s[i])
    decreases |s|
  {
    if |s| > 0 && IsSpace(s[|s| - 1]) then DropTrailingSpace(s[..|s| - 1]) else s
  }

  /** `s.trim()`. */
  function Trim(s: string): (r: string)
  {
    DropTrailingSpace(DropLeadingSpace(s))
  }

  predicate AllSpace(s: string)
  {
    forall i :: 0 <= i < |s| ==> IsSpace(s[i])
  }

  /** A trimmed string is a contiguous piece of the input with no white space
      at either end, and it is empty exactly when the input is all white space. */
  lemma TrimShape(s: string)
    ensures var r := Trim(s);
      && (r == [] || (!IsSpace(r[0]) && !IsSpace(r[|r| - 1])))
      && (exists i :: OccursAt(r, s, i))
      && (r == [] <==> AllSpace(s))
  {
    TrimEnds(s);
    TrimOccurs(s);
    TrimEmptyIff(s);
  }

  lemma TrimEnds(s: string)
    ensures Trim(s) == [] || (!IsSpace(Trim(s)[0]) && !IsSpace(Trim(s)[|Trim(s)| - 1]))
  {
    var l := DropLeadingSpace(s);
    var r := DropTrailingSpace(l);
    if r != [] {
      assert r[0] == l[0];
    }
  }

  lemma TrimOccurs(s: string)
    ensures OccursAt(Trim(s), s, |s| - |DropLeadingSpace(s)|)
  {
    var l := DropLeadingSpace(s);
    PrefixOfSuffix(s, |s| - |l|, DropTrailingSpace(l));
  }

  /** A prefix of the suffix of `s` from `k` occurs in `s` at `k`. */
  lemma PrefixOfSuffix(s: string, k: nat, r: string)
    requires k <= |s| && |r| <= |s| - k && r == s[k..][..|r|]
    ensures OccursAt(r, s, k)
  {
    assert s[k..k + |r|] == s[k..][..|r|];
  }

  lemma TrimEmptyIff(s: string)
    ensures Trim(s) == [] <==> AllSpace(s)
  {
    var l := DropLeadingSpace(s);
    var r := DropTrailingSpace(l);
    var k := |s| - |l|;
    if r == [] {
      assert l == [];
    } else {
      assert l == s[k..];
      assert r[0] == l[0] == s[k];
    }
  }

  /** Trimming twice is trimming once. */
  lemma TrimIdempotent(s: string)
    ensures Trim(Trim(s)) == Trim(s)
  {
    var r := Trim(s);
    TrimShape(s);
    assert DropLeadingSpace(r) == r;
    assert DropTrailingSpace(r) == r;
  }

  // ---------------------------------------------------------------------------
  // Substring search
  // ---------------------------------------------------------------------------

  /** `needle` occurs in `hay` starting at index `i`. */
  predicate OccursAt(needle: string, hay: string, i: int)
  {
    0 <= i && i + |needle| <= |hay| && hay[i..i + |needle|] == needle
  }

  predicate IsPrefix(p: string, s: string)
  {
    |p| <= |s| && s[..|p|] == p
  }

  /** `hay.includes(needle)`. */
  predicate IsInfix(needle: string, hay: string)
    decreases |hay|
  {
    IsPrefix(needle, hay) || (|hay| > 0 && IsInfix(needle, hay[1..]))
  }

  /** The empty string occurs in every string, and a found needle sits at some
      position of the haystack. */
  lemma InfixWitness(needle: string, hay: string)
    ensures IsInfix([], hay)
    ensures IsInfix(needle, hay) ==> exists i :: OccursAt(needle, hay, i)
    decreases |hay|
  {
    assert IsPrefix([], hay);
    if IsInfix(needle, hay) {
      if IsPrefix(needle, hay) {
        assert OccursAt(needle, hay, 0);
      } else {
        InfixWitness(needle, hay[1..]);
        var i :| OccursAt(needle, hay[1..], i);
        assert hay[i + 1..i + 1 + |needle|] == hay[1..][i..i + |needle|];
        assert OccursAt(needle, hay, i + 1);
      }
    }
  }

  /** Whatever surrounds it, a string occurs in the text it is pasted into. */
  lemma {:induction false} InfixOfAffix(a: string, x: string, b: string)
    ensures IsInfix(x, a + x + b)
    decreases |a|
  {
    if a == [] {
      assert a + x + b == x + b;
      assert (x + b)[..|x|] == x;
    } else {
      InfixOfAffix(a[1..], x, b);
      assert (a + x + b)[1..] == a[1..] + x + b;
    }
  }

  /** Lower-casing works character by character, so it distributes over
      concatenation. */
  lemma ToLowerAppend(a: string, b: string)
    ensures ToLower(a + b) == ToLower(a) + ToLower(b)
  {
    assert forall i :: 0 <= i < |a + b| ==> ToLower(a + b)[i] == (ToLower(a) + ToLower(b))[i];
  }

  // ---------------------------------------------------------------------------
  // Decimal rendering (template literals of numbers)
  // ---------------------------------------------------------------------------

  function DigitChar(d: nat): (c: char)
    requires d < 10
    ensures IsDigit(c)
  {
    ('0' as int + d) as char
  }

  function DigitValue(c: char): nat
    requires IsDigit(c)
  {
    c as int - '0' as int
  }

  /** `${n}` for a non-negative integer. */
  function NatToString(n: nat): (r: string)
    ensures |r| > 0
    ensures forall i :: 0 <= i < |r| ==> IsDigit(r[i])
    decreases n
  {
    if n < 10 then [DigitChar(n)] else NatToString(n / 10) + [DigitChar(n % 10)]
  }

  /** The value of a string of decimal digits. */
  function DigitsValue(s: string): nat
    requires forall i :: 0 <= i < |s| ==> IsDigit(s[i])
    decreases |s|
  {
    if s == [] then 0 else DigitsValue(s[..|s| - 1]) * 10 + DigitValue(s[|s| - 1])
  }

  /** Reading the rendered digits back gives the number. */
  lemma {:induction false} NatToStringRoundTrip(n: nat)
    ensures DigitsValue(NatToString(n)) == n
    decreases n
  {
    var r := NatToString(n);
    if n >= 10 {
      NatToStringRoundTrip(n / 10);
      assert r[..|r| - 1] == NatToString(n / 10);
    }
  }

  /** `${n}` for any integer: a minus sign before the digits of a negative one. */
  function IntToString(n: int): (r: string)
    ensures |r| > 0
    ensures n >= 0 ==> r == NatToString(n)
    ensures n < 0 ==> r[0] == '-' && r[1..] == NatToString(-n)
  {
    if n >= 0 then NatToString(n) else "-" + NatToString(-n)
  }

  // ---------------------------------------------------------------------------
  // Single-character edits
  // ---------------------------------------------------------------------------

  /** The number of times `c` occurs in `s`. */
  function Count(s: string, c: char): nat
    decreases |s|
  {
    if s == [] then 0 else (if s[0] == c then 1 else 0) + Count(s[1..], c)
  }

  /** `s.replace(c, '')` with a string pattern: only the first occurrence goes. */
  function RemoveFirst(s: string, c: char): (r: string)
    decreases |s|
  {
    if s == [] then []
    else if s[0] == c then s[1..]
    else [s[0]] + RemoveFirst(s[1..], c)
  }

  /** The position of the first `c` in `s`. */
  function FirstIndex(s: string, c: char): (i: nat)
    requires c in s
    ensures i < |s| && s[i] == c && c !in s[..i]
    decreases |s|
  {
    if s[0] == c then 0
    else
      var j := FirstIndex(s[1..], c);
      assert s[..j + 1] == [s[0]] + s[1..][..j];
      j + 1
  }

  /** Removing the first occurrence cuts `s` at that occurrence and drops that
      one copy of `c`; a string without `c` is left untouched. */
  lemma {:induction false} RemoveFirstSpec(s: string, c: char)
    ensures c !in s ==> RemoveFirst(s, c) == s
    ensures c in s ==> RemoveFirst(s, c) == s[..FirstIndex(s, c)] + s[FirstIndex(s, c) + 1..]
    decreases |s|
  {
    if s != [] && s[0] != c {
      RemoveFirstSpec(s[1..], c);
      if c in s[1..] {
        var j := FirstIndex(s[1..], c);
        assert s[..j + 1] == [s[0]] + s[1..][..j];
        assert s[j + 2..] == s[1..][j + 1..];
      }
    }
  }

  /** Exactly one `c` fewer when there was one. */
  lemma {:induction false} RemoveFirstCount(s: string, c: char)
    ensures Count(RemoveFirst(s, c), c) == if c in s then Count(s, c) - 1 else Count(s, c)
    decreases |s|
  {
    if s != [] && s[0] != c {
      RemoveFirstCount(s[1..], c);
      assert ([s[0]] + RemoveFirst(s[1..], c))[1..] == RemoveFirst(s[1..], c);
      assert c in s <==> c in s[1..];
    }
  }

  /** `${first.charAt(0)}${last.charAt(0)}`.toUpperCase(): the capitalised
      first letters, an empty name contributing nothing. */
  function Initials(first: string, last: string): (r: string)
    ensures |r| == (if first == [] then 0 else 1) + (if last == [] then 0 else 1)
    ensures first != [] ==> r[0] == UpperChar(first[0])
    ensures last != [] ==> r[|r| - 1] == UpperChar(last[0])
  {
    ToUpper(Take(first, 1) + Take(last, 1))
  }

  // ---------------------------------------------------------------------------
  // Order-preserving sequence operations
  // ---------------------------------------------------------------------------

  /** `a` can be obtained from `b` by deleting elements. */
  predicate IsSubsequence<T(==)>(a: seq<T>, b: seq<T>)
    decreases |b|
  {
    if a == [] then true
    else if b == [] then false
    else (a[0] == b[0] && IsSubsequence(a[1..], b[1..])) || IsSubsequence(a, b[1..])
  }

  predicate Distinct<T(==)>(s: seq<T>)
  {
    forall i, j :: 0 <= i < j < |s| ==> s[i] != s[j]
  }

  /** `s.filter(p)`: keeps exactly the elements satisfying `p`, in order. */
  function Filter<T(==)>(s: seq<T>, p: T -> bool): (r: seq<T>)
    ensures |r| <= |s|
    ensures forall i :: 0 <= i < |r| ==> r[i] in s && p(r[i])
    ensures forall i :: 0 <= i < |s| && p(s[i]) ==> s[i] in r
    ensures IsSubsequence(r, s)
    decreases |s|
  {
    if s == [] then []
    else if p(s[0]) then [s[0]] + Filter(s[1..], p)
    else Filter(s[1..], p)
  }

  lemma {:induction false} FilterAppend<T>(a: seq<T>, b: seq<T>, p: T -> bool)
    ensures Filter(a + b, p) == Filter(a, p) + Filter(b, p)
    decreases |a|
  {
    if a != [] {
      assert (a + b)[0] == a[0];
      assert (a + b)[1..] == a[1..] + b;
      FilterAppend(a[1..], b, p);
    } else {
      assert a + b == b;
    }
  }

  /** Filtering with a predicate every element satisfies changes nothing. */
  lemma {:induction false} FilterKeepsAll<T>(s: seq<T>, p: T -> bool)
    requires forall i :: 0 <= i < |s| ==> p(s[i])
    ensures Filter(s, p) == s
    decreases |s|
  {
    if s != [] {
      FilterKeepsAll(s[1..], p);
    }
  }

  /** Filtering with a predicate no element satisfies leaves nothing. */
  lemma {:induction false} FilterNone<T>(s: seq<T>, p: T -> bool)
    requires forall i :: 0 <= i < |s| ==> !p(s[i])
    ensures Filter(s, p) == []
    decreases |s|
  {
    if s != [] {
      FilterNone(s[1..], p);
    }
  }

  /** Index `i` is the only one of `s` whose element satisfies `p`. */
  predicate OnlyAt<T>(s: seq<T>, p: T -> bool, i: int)
  {
    0 <= i < |s| && p(s[i]) && forall j :: 0 <= j < |s| && p(s[j]) ==> j == i
  }

  /** Filtering leaves a single element exactly when a single index
      satisfies the predicate. */
  lemma {:induction false} FilterOne<T>(s: seq<T>, p: T -> bool)
    ensures |Filter(s, p)| == 1 <==> exists i :: OnlyAt(s, p, i)
    decreases |s|
  {
    if s != [] {
      var rest := s[1..];
      FilterOne(rest, p);
      if p(s[0]) {
        if |Filter(rest, p)| == 0 {
          forall j | 1 <= j < |s| ensures !p(s[j]) {
            assert s[j] == rest[j - 1];
          }
          assert OnlyAt(s, p, 0);
        } else {
          var x := Filter(rest, p)[0];
          var k :| 0 <= k < |rest| && rest[k] == x;
          assert s[k + 1] == x;
          forall i ensures !OnlyAt(s, p, i) {
            assert p(s[0]) && p(s[k + 1]);
          }
        }
      } else {
        if exists i :: OnlyAt(s, p, i) {
          var i :| OnlyAt(s, p, i);
          forall j | 0 <= j < |rest| && p(rest[j]) ensures j == i - 1 {
            assert s[j + 1] == rest[j];
          }
          assert OnlyAt(rest, p, i - 1);
        }
        if exists i :: OnlyAt(rest, p, i) {
          var i :| OnlyAt(rest, p, i);
          forall j | 0 <= j < |s| && p(s[j]) ensures j == i + 1 {
            if j > 0 {
              assert rest[j - 1] == s[j];
            }
          }
          assert OnlyAt(s, p, i + 1);
        }
      }
    }
  }

  /** Filtering depends only on the values the predicate takes. */
  lemma {:induction false} FilterCongruent<T>(s: seq<T>, p: T -> bool, q: T -> bool)
    requires forall i :: 0 <= i < |s| ==> p(s[i]) == q(s[i])
    ensures Filter(s, p) == Filter(s, q)
    decreases |s|
  {
    if s != [] {
      FilterCongruent(s[1..], p, q);
    }
  }

  /** Filtering by `p` and by its negation splits `s` into two parts that
      together hold every element exactly as often as `s` does. */
  lemma FilterPartition<T>(s: seq<T>, p: T -> bool, q: T -> bool)
    requires forall x :: q(x) == !p(x)
    ensures multiset(Filter(s, p)) + multiset(Filter(s, q)) == multiset(s)
    ensures |Filter(s, p)| + |Filter(s, q)| == |s|
  {
    forall x ensures (multiset(Filter(s, p)) + multiset(Filter(s, q)))[x] == multiset(s)[x] {
      FilterCount(s, p, x);
      FilterCount(s, q, x);
    }
    assert multiset(Filter(s, p)) + multiset(Filter(s, q)) == multiset(s);
    assert |multiset(Filter(s, p)) + multiset(Filter(s, q))| == |multiset(s)|;
  }

  lemma ConsMultiset<T>(h: T, t: seq<T>)
    ensures multiset([h] + t) == multiset{h} + multiset(t)
  {
  }

  /** Filtering keeps every copy of an element that passes and none of one
      that fails. */
  lemma {:induction false} FilterCount<T>(s: seq<T>, p: T -> bool, x: T)
    ensures multiset(Filter(s, p))[x] == if p(x) then multiset(s)[x] else 0
    decreases |s|
  {
    if s != [] {
      var rest := s[1..];
      FilterCount(rest, p, x);
      assert s == [s[0]] + rest;
      ConsMultiset(s[0], rest);
      if p(s[0]) {
        ConsMultiset(s[0], Filter(rest, p));
      }
    }
  }

  /** `FilterCount` for every element at once. */
  lemma FilterCounts<T>(s: seq<T>, p: T -> bool)
    ensures forall x :: multiset(Filter(s, p))[x] == if p(x) then multiset(s)[x] else 0
  {
    forall x
      ensures multiset(Filter(s, p))[x] == if p(x) then multiset(s)[x] else 0
    {
      FilterCount(s, p, x);
    }
  }

  /** `Array.prototype.find`: the first element satisfying `p`, if any. */
  function Find<T(==)>(s: seq<T>, p: T -> bool): (r: Option<T>)
    ensures r.Some? ==> r.value in s && p(r.value)
    ensures r.None? ==> forall i :: 0 <= i < |s| ==> !p(s[i])
    decreases |s|
  {
    if s == [] then None
    else if p(s[0]) then Some(s[0])
    else Find(s[1..], p)
  }

  /** `Find` returns the earliest element satisfying `p`. */
  lemma {:induction false} FindFirst<T>(s: seq<T>, p: T -> bool, i: nat)
    requires i < |s| && p(s[i])
    requires forall j :: 0 <= j < i ==> !p(s[j])
    ensures Find(s, p) == Some(s[i])
    decreases i
  {
    if i > 0 {
      FindFirst(s[1..], p, i - 1);
    }
  }

  /** `[...new Set(s)]`: the first occurrence of every element, in order. */
  function Dedup<T(==)>(s: seq<T>): (r: seq<T>)
    ensures Distinct(r)
    ensures forall i :: 0 <= i < |r| ==> r[i] in s
    ensures forall i :: 0 <= i < |s| ==> s[i] in r
    ensures |r| <= |s|
    decreases |s|
  {
    if s == [] then []
    else
      var d := Dedup(s[..|s| - 1]);
      assert forall i :: 0 <= i < |s| - 1 ==> s[i] == s[..|s| - 1][i];
      if s[|s| - 1] in d then d else d + [s[|s| - 1]]
  }

  predicate DistinctBy<T, K(==)>(s: seq<T>, f: T -> K)
  {
    forall i, j :: 0 <= i < j < |s| ==> f(s[i]) != f(s[j])
  }

  /** `s.slice(0, n)`. */
  function Take<T>(s: seq<T>, n: nat): (r: seq<T>)
    ensures |r| == if |s| <= n then |s| else n
    ensures |s| <= n ==> r == s
    ensures r == s[..|r|]
  {
    if |s| <= n then s else s[..n]
  }
}

=== FILE: feed.dfy ===
/** The notification feed of `src/hooks/useNotifications.ts` and the view
    logic of `src/components/NotificationsDropdown.tsx`: a list of
    notifications plus an unread counter, changed by fetch, live insert, mark
    one read, mark all read and delete. The counter is kept separately from
    the list, so whether it still equals the number of unread entries
    (`Consistent`) is a property each transition keeps or loses. */
module Feed {
  import opened Common
  import opened Sorting

  datatype Notification = Notification(
    id: string,
    userId: string,
    kind: string,
    title: string,
    message: string,
    data: map<string, string>,
    isRead: bool,
    createdAt: int)

  /** The hook's state: `notifications` and `unreadCount`. */
  datatype FeedState = FeedState(items: seq<Notification>, unread: int)

  /** The state of a freshly mounted hook. */
  const Initial := FeedState([], 0)

  /** The fetch asks for at most this many rows. */
  const FetchLimit: nat := 50

  function CreatedAt(n: Notification): int { n.createdAt }

  function UnreadItems(items: seq<Notification>): seq<Notification>
  {
    Filter(items, (n: Notification) => !n.isRead)
  }

  /** `data.filter(n => !n.is_read).length`. */
  function CountUnread(items: seq<Notification>): nat
  {
    |UnreadItems(items)|
  }

  /** The counter agrees with the list. */
  predicate Consistent(st: FeedState)
  {
    st.unread == CountUnread(st.items)
  }

  // ---------------------------------------------------------------------------
  // Fetch
  // ---------------------------------------------------------------------------

  function UserRows(user: string, table: seq<Notification>): seq<Notification>
  {
    Filter(table, (n: Notification) => n.userId == user)
  }

  /** The rows the fetch query returns: the user's notifications, newest
      first, at most `FetchLimit` of them. */
  function Fetched(user: string, table: seq<Notification>): (r: seq<Notification>)
    ensures |r| == if |UserRows(user, table)| <= FetchLimit then |UserRows(user, table)| else FetchLimit
    ensures forall i :: 0 <= i < |r| ==> r[i] in table && r[i].userId == user
    ensures SortedDesc(r, CreatedAt)
    ensures |UserRows(user, table)| <= FetchLimit ==>
      forall i :: 0 <= i < |table| && table[i].userId == user ==> table[i] in r
  {
    var s := SortDesc(UserRows(user, table), CreatedAt);
    SortDescSameElements(UserRows(user, table), CreatedAt);
    TakeKeepsSortedDesc(s, FetchLimit, CreatedAt);
    Take(s, FetchLimit)
  }

  /** `fetchNotifications`: with a user and a successful query the list is
      replaced by the fetched rows and the counter recounted from them;
      otherwise nothing changes. */
  function Fetch(user: Option<string>, table: seq<Notification>, st: FeedState, queryOk: bool): (r: FeedState)
    ensures user.None? || !queryOk ==> r == st
    ensures user.Some? && queryOk ==> r.items == Fetched(user.value, table) && Consistent(r)
  {
    if user.None? || !queryOk then st
    else
      var items := Fetched(user.value, table);
      FeedState(items, CountUnread(items))
  }

  /** A notification of the user the fetch left out is no newer than any it
      kept: the cap drops the oldest rows. */
  lemma FetchKeepsNewest(user: string, table: seq<Notification>, i: nat)
    requires i < |table| && table[i].userId == user
    requires table[i] !in Fetched(user, table)
    ensures forall j :: 0 <= j < |Fetched(user, table)| ==> Fetched(user, table)[j].createdAt >= table[i].createdAt
  {
    var s := SortDesc(UserRows(user, table), CreatedAt);
    SortDescSameElements(UserRows(user, table), CreatedAt);
    var r := Fetched(user, table);
    assert r == s[..|r|];
    assert table[i] in UserRows(user, table);
    var k :| 0 <= k < |s| && s[k] == table[i];
    assert k >= |r|;
    forall j | 0 <= j < |r| ensures r[j].createdAt >= table[i].createdAt {
      assert r[j] == s[j];
      assert CreatedAt(s[j]) >= CreatedAt(s[k]);
    }
  }

  // ---------------------------------------------------------------------------
  // Live insert, mark read, mark all read, delete
  // ---------------------------------------------------------------------------

  /** The realtime INSERT handler: prepend and count one more unread. */
  function OnInsert(st: FeedState, n: Notification): (r: FeedState)
    ensures r.items == [n] + st.items
    ensures r.unread == st.unread + 1
    ensures !n.isRead && Consistent(st) ==> Consistent(r)
  {
    assert ([n] + st.items)[1..] == st.items;
    FeedState([n] + st.items, st.unread + 1)
  }

  /** `prev.map(n => n.id === id ? { ...n, is_read: true } : n)`. */
  function MarkItems(items: seq<Notification>, id: string): (r: seq<Notification>)
    ensures |r| == |items|
    ensures forall i :: 0 <= i < |items| && items[i].id != id ==> r[i] == items[i]
    ensures forall i :: 0 <= i < |items| && items[i].id == id ==> r[i] == items[i].(isRead := true)
    decreases |items|
  {
    if items == [] then []
    else [if items[0].id == id then items[0].(isRead := true) else items[0]] + MarkItems(items[1..], id)
  }

  /** `markAsRead(id)` on the hook's state: the entries with that id become
      read and the counter drops by one, never below zero, whether or not the
      entry was unread. */
  function MarkRead(st: FeedState, id: string): (r: FeedState)
    ensures r.items == MarkItems(st.items, id)
    ensures r.unread == if st.unread > 0 then st.unread - 1 else 0
    ensures st.unread >= 0 ==> r.unread >= 0
  {
    FeedState(MarkItems(st.items, id), Max(0, st.unread - 1))
  }

  function Max(a: int, b: int): int { if a >= b then a else b }

  /** The unread entries carrying `id`. */
  function UnreadWithId(items: seq<Notification>, id: string): nat
  {
    |Filter(items, (n: Notification) => n.id == id && !n.isRead)|
  }

  /** Marking by id removes exactly the unread entries with that id from the
      unread count. */
  lemma {:induction false} MarkItemsCount(items: seq<Notification>, id: string)
    ensures CountUnread(MarkItems(items, id)) + UnreadWithId(items, id) == CountUnread(items)
    decreases |items|
  {
    if items != [] {
      MarkItemsCount(items[1..], id);
      var r := MarkItems(items, id);
      assert r[1..] == MarkItems(items[1..], id);
    }
  }

  /** Marking the one unread entry with an id keeps the counter right; marking
      an entry that is already read (or absent) lowers the counter while the
      list's unread count stays the same. */
  lemma MarkReadConsistency(st: FeedState, id: string)
    requires Consistent(st)
    ensures UnreadWithId(st.items, id) == 1 ==> Consistent(MarkRead(st, id))
    ensures UnreadWithId(st.items, id) == 0 && st.unread > 0 ==>
      MarkRead(st, id).unread == CountUnread(MarkRead(st, id).items) - 1
  {
    MarkItemsCount(st.items, id);
  }

  /** `markAllAsRead` on the hook's state (with no user it returns early). */
  function MarkAllRead(user: Option<string>, st: FeedState): (r: FeedState)
    ensures user.None? ==> r == st
    ensures user.Some? ==> |r.items| == |st.items| && r.unread == 0
    ensures user.Some? ==> forall i :: 0 <= i < |st.items| ==> r.items[i] == st.items[i].(isRead := true)
  {
    if user.None? then st
    else FeedState(seq(|st.items|, i requires 0 <= i < |st.items| => st.items[i].(isRead := true)), 0)
  }

  /** After marking all read nothing is unread, the counter is right, and a
      second application changes nothing. */
  lemma MarkAllReadSettles(user: string, st: FeedState)
    ensures var r := MarkAllRead(Some(user), st);
      && Consistent(r)
      && (forall i :: 0 <= i < |r.items| ==> r.items[i].isRead)
      && MarkAllRead(Some(user), r) == r
  {
    var r := MarkAllRead(Some(user), st);
    FilterNone(r.items, (n: Notification) => !n.isRead);
    assert MarkAllRead(Some(user), r).items == r.items;
  }

  /** `prev.filter(n => n.id !== id)`. */
  function Without(items: seq<Notification>, id: string): (r: seq<Notification>)
    ensures forall n :: multiset(r)[n] == if n.id != id then multiset(items)[n] else 0
  {
    FilterCounts(items, (n: Notification) => n.id != id);
    Filter(items, (n: Notification) => n.id != id)
  }

  /** `deleteNotification(id)` on the hook's state: the entries with that id go,
      the rest keep their order, and the counter is left as it was. */
  function Delete(st: FeedState, id: string): (r: FeedState)
    ensures r.unread == st.unread
    ensures IsSubsequence(r.items, st.items)
    ensures forall i :: 0 <= i < |r.items| ==> r.items[i].id != id
    ensures forall i :: 0 <= i < |st.items| && st.items[i].id != id ==> st.items[i] in r.items
    ensures forall n :: multiset(r.items)[n] == if n.id != id then multiset(st.items)[n] else 0
  {
    FeedState(Without(st.items, id), st.unread)
  }

  /** Deleting an unread entry from a consistent state leaves the counter one
      too high: the badge keeps counting the deleted notification until the
      next fetch. */
  lemma DeleteUnreadLeavesCount(st: FeedState, id: string)
    requires Consistent(st)
    requires UnreadWithId(st.items, id) == 1
    ensures Delete(st, id).unread == CountUnread(Delete(st, id).items) + 1
  {
    DeleteCount(st.items, id);
  }

  lemma {:induction false} DeleteCount(items: seq<Notification>, id: string)
    ensures CountUnread(Without(items, id)) + UnreadWithId(items, id) == CountUnread(items)
    decreases |items|
  {
    if items != [] {
      DeleteCount(items[1..], id);
    }
  }

  /** Every transition of the hook keeps the counter non-negative. */
  lemma CounterNeverNegative(st: FeedState, user: Option<string>, table: seq<Notification>, ok: bool,
                             n: Notification, id: string)
    requires st.unread >= 0
    ensures Fetch(user, table, st, ok).unread >= 0
    ensures OnInsert(st, n).unread >= 0
    ensures MarkRead(st, id).unread >= 0
    ensures MarkAllRead(user, st).unread >= 0
    ensures Delete(st, id).unread >= 0
  {
  }

  // ---------------------------------------------------------------------------
  // Store side
  // ---------------------------------------------------------------------------

  /** The row `createNotification` inserts: unread, with `data || {}`. */
  function NewNotification(userId: string, kind: string, title: string, message: string,
                           data: Option<map<string, string>>, newId: string, now: int): (n: Notification)
    ensures n.userId == userId && n.kind == kind && n.title == title && n.message == message
    ensures !n.isRead
    ensures data.None? ==> n.data == map[]
    ensures data.Some? ==> n.data == data.value
  {
    Notification(newId, userId, kind, title, message, if data.None? then map[] else data.value, false, now)
  }

  /** `createNotification`: one row appended to the table. */
  function CreateNotification(table: seq<Notification>, userId: string, kind: string, title: string,
                              message: string, data: Option<map<string, string>>, newId: string,
                              now: int): (r: seq<Notification>)
    ensures |r| == |table| + 1 && r[..|table|] == table
    ensures r[|table|] == NewNotification(userId, kind, title, message, data, newId, now)
  {
    table + [NewNotification(userId, kind, title, message, data, newId, now)]
  }

  /** A notification created later than all of the recipient's others heads
      the recipient's next fetch and is counted as unread. */
  lemma CreateThenFetch(table: seq<Notification>, userId: string, kind: string, title: string,
                        message: string, data: Option<map<string, string>>, newId: string, now: int)
    requires forall i :: 0 <= i < |table| && table[i].userId == userId ==> table[i].createdAt < now
    ensures var t := CreateNotification(table, userId, kind, title, message, data, newId, now);
      var st := Fetch(Some(userId), t, Initial, true);
      && |st.items| > 0
      && st.items[0] == NewNotification(userId, kind, title, message, data, newId, now)
      && st.unread > 0
  {
    var n := NewNotification(userId, kind, title, message, data, newId, now);
    var t := CreateNotification(table, userId, kind, title, message, data, newId, now);
    NewestFetchedFirst(table, userId, n);
    var items := Fetched(userId, t);
    assert items[0] == n;
    assert n in UnreadItems(items);
  }

  /** A row newer than every row the user already has is fetched first. */
  lemma NewestFetchedFirst(table: seq<Notification>, userId: string, n: Notification)
    requires n.userId == userId
    requires forall i :: 0 <= i < |table| && table[i].userId == userId ==> table[i].createdAt < n.createdAt
    ensures |Fetched(userId, table + [n])| > 0 && Fetched(userId, table + [n])[0] == n
  {
    var t := table + [n];
    var s := SortDesc(UserRows(userId, t), CreatedAt);
    SortDescSameElements(UserRows(userId, t), CreatedAt);
    assert t[|table|] == n;
    assert n in UserRows(userId, t);
    var k :| 0 <= k < |s| && s[k] == n;
    assert forall x :: x in table && x.userId == userId ==> x.createdAt < n.createdAt;
    assert CreatedAt(s[0]) >= CreatedAt(s[k]);
    assert s[0] in t && s[0].userId == userId;
    assert s[0] !in table;
    assert s[0] == n;
  }


  /** `markAsRead(id)`: the table update `is_read = true where id = id`,
      then the hook's update of its list and counter. */
  function MarkAsRead(table: seq<Notification>, st: FeedState, id: string): (r: (seq<Notification>, FeedState))
    ensures |r.0| == |table|
    ensures forall i :: 0 <= i < |table| ==>
      r.0[i] == if table[i].id == id then table[i].(isRead := true) else table[i]
    ensures r.1 == MarkRead(st, id)
  {
    (MarkItems(table, id), MarkRead(st, id))
  }

  /** The table and the hook agree after `markAsRead`: a fresh fetch shows
      every notification with that id as read. */
  lemma MarkAsReadThenFetch(user: string, table: seq<Notification>, st: FeedState, id: string)
    ensures var page := Fetched(user, MarkAsRead(table, st, id).0);
      forall i :: 0 <= i < |page| && page[i].id == id ==> page[i].isRead
  {
    var t := MarkAsRead(table, st, id).0;
    var page := Fetched(user, t);
    forall i | 0 <= i < |page| && page[i].id == id ensures page[i].isRead {
      var k :| 0 <= k < |t| && t[k] == page[i];
    }
  }

  /** `deleteNotification(id)`: the table delete `where id = id`, then the
      hook's removal from its list. */
  function DeleteNotification(table: seq<Notification>, st: FeedState, id: string): (r: (seq<Notification>, FeedState))
    ensures IsSubsequence(r.0, table)
    ensures forall i :: 0 <= i < |r.0| ==> r.0[i].id != id
    ensures forall i :: 0 <= i < |table| && table[i].id != id ==> table[i] in r.0
    ensures forall n :: multiset(r.0)[n] == if n.id != id then multiset(table)[n] else 0
    ensures r.1 == Delete(st, id)
  {
    (Without(table, id), Delete(st, id))
  }

  /** After a delete no fetch shows the notification again. */
  lemma DeleteThenFetch(user: string, table: seq<Notification>, st: FeedState, id: string)
    ensures var page := Fetched(user, DeleteNotification(table, st, id).0);
      forall i :: 0 <= i < |page| ==> page[i].id != id
  {
    var t := DeleteNotification(table, st, id).0;
    var page := Fetched(user, t);
    forall i | 0 <= i < |page| ensures page[i].id != id {
      var k :| 0 <= k < |t| && t[k] == page[i];
    }
  }

  /** The store update of `markAllAsRead`: the user's unread rows become read. */
  function MarkAllReadRows(user: string, table: seq<Notification>): (r: seq<Notification>)
    ensures |r| == |table|
    ensures forall i :: 0 <= i < |table| ==>
      r[i] == if table[i].userId == user then table[i].(isRead := true) else table[i]
  {
    seq(|table|, i requires 0 <= i < |table| =>
      if table[i].userId == user && !table[i].isRead then table[i].(isRead := true) else table[i])
  }

  /** The store and the hook agree after marking all read: a fresh fetch
      finds nothing unread. */
  lemma MarkAllReadThenFetch(user: string, table: seq<Notification>)
    ensures Fetch(Some(user), MarkAllReadRows(user, table), Initial, true).unread == 0
  {
    var t := MarkAllReadRows(user, table);
    var items := Fetched(user, t);
    forall i | 0 <= i < |items| ensures items[i].isRead {
      var k :| 0 <= k < |t| && t[k] == items[i];
    }
    FilterNone(items, (n: Notification) => !n.isRead);
  }

  // ---------------------------------------------------------------------------
  // Dropdown view logic
  // ---------------------------------------------------------------------------

  /** The bell badge: hidden at zero, "9+" above nine, the number otherwise. */
  function BadgeText(unread: int): (r: Option<string>)
    ensures r.None? <==> unread <= 0
    ensures r == Some("9+") <==> unread > 9
    ensures 0 < unread <= 9 ==>
      (r.Some? && |r.value| == 1 && IsDigit(r.value[0]) && DigitsValue(r.value) == unread)
  {
    if unread <= 0 then None
    else if unread > 9 then Some("9+")
    else
      NatToStringRoundTrip(unread);
      Some(NatToString(unread))
  }

  /** The "Mark all read" button is offered exactly while the badge shows. */
  function ShowMarkAll(unread: int): (b: bool)
    ensures b <==> BadgeText(unread).Some?
  {
    unread > 0
  }

  /** `isBookingRequest`: the entry offers Accept and Reject. */
  predicate IsActionable(n: Notification)
  {
    n.kind == "booking_request" && !n.isRead
  }

  /** Only booking requests offer Accept and Reject, an unread one always
      does, and reading an entry withdraws them. */
  lemma ReadingEndsActions(n: Notification)
    ensures IsActionable(n) ==> n.kind == "booking_request"
    ensures n.kind == "booking_request" ==> (IsActionable(n) <==> !n.isRead)
    ensures !IsActionable(n.(isRead := true))
  {
  }

  /** Clicking an entry runs `markAsRead` only when the entry is unread. */
  function Click(table: seq<Notification>, st: FeedState, n: Notification): (r: (seq<Notification>, FeedState))
    ensures n.isRead ==> r == (table, st)
    ensures !n.isRead ==> r == MarkAsRead(table, st, n.id)
  {
    if !n.isRead then MarkAsRead(table, st, n.id) else (table, st)
  }

  /** After a click on an unread entry every entry with the clicked id is
      read, in the list and in the table, so neither the list nor a later
      fetch offers Accept or Reject on it. */
  lemma ClickEndsAction(table: seq<Notification>, st: FeedState, n: Notification, user: string)
    requires n in st.items && !n.isRead
    ensures var items := Click(table, st, n).1.items;
      forall i :: 0 <= i < |items| && items[i].id == n.id ==> !IsActionable(items[i])
    ensures var page := Fetched(user, Click(table, st, n).0);
      forall i :: 0 <= i < |page| && page[i].id == n.id ==> !IsActionable(page[i])
  {
    MarkAsReadThenFetch(user, table, st, n.id);
  }
}

=== FILE: inbox.dfy ===
/** The conversation aggregator of `src/hooks/useMessages.ts`: the inbox is a
    fold over the flat message log that files every message under the other
    participant, keeps the newest message as the preview, counts the partner's
    unread messages and sorts the result newest-first. The message table is a
    plain sequence of rows; queries, inserts and updates are functions on it. */
module Inbox {
  import opened Common
  import opened Sorting

  datatype Message = Message(
    id: string,
    senderId: string,
    receiverId: string,
    content: string,
    isRead: bool,
    createdAt: int)

  /** The columns of a `profiles` row the inbox reads. */
  datatype Profile = Profile(id: string, firstName: string, lastName: string, avatarUrl: Option<string>)

  datatype Conversation = Conversation(
    partnerId: string,
    partnerName: string,
    partnerAvatar: Option<string>,
    lastMessage: string,
    lastMessageTime: int,
    unreadCount: nat)

  function CreatedAt(m: Message): int { m.createdAt }
  function Earliness(m: Message): int { -m.createdAt }
  function LastTime(c: Conversation): int { c.lastMessageTime }
  function PartnerKey(c: Conversation): string { c.partnerId }

  predicate Involves(self: string, m: Message)
  {
    m.senderId == self || m.receiverId == self
  }

  predicate Between(self: string, other: string, m: Message)
  {
    (m.senderId == self && m.receiverId == other) || (m.senderId == other && m.receiverId == self)
  }

  /** The participant a message is filed under: the receiver when self sent
      it, the sender otherwise. */
  function PartnerOf(self: string, m: Message): string
  {
    if m.senderId == self then m.receiverId else m.senderId
  }

  /** A message self has received and not yet read. */
  predicate UnreadBySelf(self: string, m: Message)
  {
    !m.isRead && m.receiverId == self
  }

  // ---------------------------------------------------------------------------
  // Queries
  // ---------------------------------------------------------------------------

  function InvolvesSelf(self: string): Message -> bool
  {
    m => Involves(self, m)
  }

  function InvolvingSelf(self: string, table: seq<Message>): seq<Message>
  {
    Filter(table, InvolvesSelf(self))
  }

  /** The inbox query: every message self sent or received, newest first. */
  function InboxQuery(self: string, table: seq<Message>): (r: seq<Message>)
    ensures SortedDesc(r, CreatedAt)
    ensures forall i :: 0 <= i < |r| ==> r[i] in table && Involves(self, r[i])
    ensures forall i :: 0 <= i < |table| && Involves(self, table[i]) ==> table[i] in r
    ensures forall m :: multiset(r)[m] == if Involves(self, m) then multiset(table)[m] else 0
  {
    SortDescSameElements(InvolvingSelf(self, table), CreatedAt);
    FilterCounts(table, InvolvesSelf(self));
    SortDesc(InvolvingSelf(self, table), CreatedAt)
  }

  function IsBetween(self: string, other: string): Message -> bool
  {
    m => Between(self, other, m)
  }

  function BetweenPair(self: string, other: string, table: seq<Message>): seq<Message>
  {
    Filter(table, IsBetween(self, other))
  }

  /** The thread query of `fetchMessages`: the messages between self and
      `other` in either direction, oldest first. */
  function ThreadQuery(self: string, other: string, table: seq<Message>): (r: seq<Message>)
    ensures SortedDesc(r, Earliness)
    ensures forall i :: 0 <= i < |r| ==> r[i] in table && Between(self, other, r[i])
    ensures forall i :: 0 <= i < |table| && Between(self, other, table[i]) ==> table[i] in r
    ensures forall m :: multiset(r)[m] == if Between(self, other, m) then multiset(table)[m] else 0
  {
    SortDescSameElements(BetweenPair(self, other, table), Earliness);
    FilterCounts(table, IsBetween(self, other));
    SortDesc(BetweenPair(self, other, table), Earliness)
  }

  // ---------------------------------------------------------------------------
  // Reference definitions of a conversation
  // ---------------------------------------------------------------------------

  /** The partner of every fetched message, position by position. */
  function PartnerSeq(self: string, msgs: seq<Message>): (r: seq<string>)
    ensures |r| == |msgs|
    ensures forall i :: 0 <= i < |msgs| ==> r[i] == PartnerOf(self, msgs[i])
  {
    seq(|msgs|, i requires 0 <= i < |msgs| => PartnerOf(self, msgs[i]))
  }

  /** The messages filed under partner `p`, in fetched order. */
  function ThreadWith(self: string, msgs: seq<Message>, p: string): seq<Message>
  {
    Filter(msgs, m => PartnerOf(self, m) == p)
  }

  /** The number of messages filed under `p` that self received and has not read. */
  function UnreadFrom(self: string, msgs: seq<Message>, p: string): nat
  {
    |Filter(msgs, m => PartnerOf(self, m) == p && UnreadBySelf(self, m))|
  }

  /** The number of unread messages `p` sent to self. */
  function UnreadSentBy(self: string, msgs: seq<Message>, p: string): nat
  {
    |Filter(msgs, (m: Message) => m.senderId == p && UnreadBySelf(self, m))|
  }

  /** For a partner other than self, the unread count of a conversation is the
      number of unread messages that partner sent to self: what self sent
      never counts. */
  lemma UnreadFromIsSentBy(self: string, msgs: seq<Message>, p: string)
    requires p != self
    ensures UnreadFrom(self, msgs, p) == UnreadSentBy(self, msgs, p)
  {
    FilterCongruent(msgs, m => PartnerOf(self, m) == p && UnreadBySelf(self, m),
                          (m: Message) => m.senderId == p && UnreadBySelf(self, m));
  }

  // ---------------------------------------------------------------------------
  // The grouping fold (`conversationMap`)
  // ---------------------------------------------------------------------------

  /** One entry of `conversationMap`: the partner, its messages in fetched
      order and the running unread counter. */
  datatype Bucket = Bucket(partnerId: string, messages: seq<Message>, unread: nat)

  function BucketIds(bs: seq<Bucket>): (r: seq<string>)
    ensures |r| == |bs|
    ensures forall i :: 0 <= i < |bs| ==> r[i] == bs[i].partnerId
  {
    seq(|bs|, i requires 0 <= i < |bs| => bs[i].partnerId)
  }

  predicate NonEmptyBuckets(bs: seq<Bucket>)
  {
    forall i :: 0 <= i < |bs| ==> |bs[i].messages| > 0
  }

  /** One step of the `forEach`: append the message to its partner's entry,
      creating the entry at the end of the map when the partner is new. */
  function Place(bs: seq<Bucket>, m: Message, partner: string, unread: nat): (r: seq<Bucket>)
    ensures |bs| <= |r| <= |bs| + 1
    ensures NonEmptyBuckets(bs) ==> NonEmptyBuckets(r)
    decreases |bs|
  {
    if bs == [] then [Bucket(partner, [m], unread)]
    else if bs[0].partnerId == partner then
      [bs[0].(messages := bs[0].messages + [m], unread := bs[0].unread + unread)] + bs[1..]
    else [bs[0]] + Place(bs[1..], m, partner, unread)
  }

  /** The whole `forEach` over the fetched messages, left to right. */
  function GroupFold(self: string, msgs: seq<Message>): (bs: seq<Bucket>)
    ensures NonEmptyBuckets(bs)
    ensures msgs == [] <==> bs == []
    decreases |msgs|
  {
    if msgs == [] then []
    else
      var m := msgs[|msgs| - 1];
      Place(GroupFold(self, msgs[..|msgs| - 1]), m, PartnerOf(self, m), if UnreadBySelf(self, m) then 1 else 0)
  }

  lemma PlaceSpec(bs: seq<Bucket>, m: Message, p: string, u: nat)
    requires Distinct(BucketIds(bs))
    ensures var r := Place(bs, m, p, u);
      && BucketIds(r) == (if p in BucketIds(bs) then BucketIds(bs) else BucketIds(bs) + [p])
      && (forall i :: 0 <= i < |bs| && bs[i].partnerId != p ==> r[i] == bs[i])
      && (forall i :: 0 <= i < |bs| && bs[i].partnerId == p ==>
            r[i] == bs[i].(messages := bs[i].messages + [m], unread := bs[i].unread + u))
      && (p !in BucketIds(bs) ==> r[|bs|] == Bucket(p, [m], u))
  {
    PlaceIds(bs, m, p, u);
    PlaceOthers(bs, m, p, u);
    PlaceHit(bs, m, p, u);
    PlaceNew(bs, m, p, u);
  }

  /** The entries after a step: the same partners, plus `p` at the end when it is new. */
  lemma PlaceIds(bs: seq<Bucket>, m: Message, p: string, u: nat)
    ensures BucketIds(Place(bs, m, p, u)) == (if p in BucketIds(bs) then BucketIds(bs) else BucketIds(bs) + [p])
  {
    if p in BucketIds(bs) {
      PlaceIdsKnown(bs, m, p, u);
    } else {
      PlaceIdsNew(bs, m, p, u);
    }
  }

  lemma {:induction false} PlaceIdsKnown(bs: seq<Bucket>, m: Message, p: string, u: nat)
    requires p in BucketIds(bs)
    ensures BucketIds(Place(bs, m, p, u)) == BucketIds(bs)
    decreases |bs|
  {
    var r := Place(bs, m, p, u);
    if bs[0].partnerId != p {
      assert BucketIds(bs[1..]) == BucketIds(bs)[1..];
      PlaceIdsKnown(bs[1..], m, p, u);
      var t := Place(bs[1..], m, p, u);
      assert r == [bs[0]] + t;
      forall i | 0 <= i < |r| ensures r[i].partnerId == bs[i].partnerId {
        if i > 0 {
          assert r[i] == t[i - 1];
          assert BucketIds(t)[i - 1] == BucketIds(bs[1..])[i - 1];
        }
      }
    } else {
      assert |r| == |bs|;
      forall i | 0 <= i < |r| ensures r[i].partnerId == bs[i].partnerId {
      }
    }
    assert BucketIds(r) == BucketIds(bs);
  }

  lemma {:induction false} PlaceIdsNew(bs: seq<Bucket>, m: Message, p: string, u: nat)
    requires p !in BucketIds(bs)
    ensures BucketIds(Place(bs, m, p, u)) == BucketIds(bs) + [p]
    decreases |bs|
  {
    if bs != [] {
      var r := Place(bs, m, p, u);
      assert BucketIds(bs)[0] != p;
      assert BucketIds(bs[1..]) == BucketIds(bs)[1..];
      PlaceIdsNew(bs[1..], m, p, u);
      assert r == [bs[0]] + Place(bs[1..], m, p, u);
    }
  }

  /** A step leaves the entries of other partners alone. */
  lemma {:induction false} PlaceOthers(bs: seq<Bucket>, m: Message, p: string, u: nat)
    ensures forall i :: 0 <= i < |bs| && bs[i].partnerId != p ==> Place(bs, m, p, u)[i] == bs[i]
    decreases |bs|
  {
    if bs != [] {
      var r := Place(bs, m, p, u);
      if bs[0].partnerId == p {
        forall i | 0 < i < |bs| ensures r[i] == bs[i] {
          assert r[i] == bs[1..][i - 1];
        }
      } else {
        PlaceOthers(bs[1..], m, p, u);
        var t := Place(bs[1..], m, p, u);
        assert r == [bs[0]] + t;
        forall i | 0 < i < |bs| && bs[i].partnerId != p ensures r[i] == bs[i] {
          assert r[i] == t[i - 1];
          assert bs[i] == bs[1..][i - 1];
        }
      }
    }
  }

  /** A step appends the message to the entry of its partner. */
  lemma {:induction false} PlaceHit(bs: seq<Bucket>, m: Message, p: string, u: nat)
    requires Distinct(BucketIds(bs))
    ensures forall i :: 0 <= i < |bs| && bs[i].partnerId == p ==>
      Place(bs, m, p, u)[i] == bs[i].(messages := bs[i].messages + [m], unread := bs[i].unread + u)
    decreases |bs|
  {
    if bs != [] {
      var r := Place(bs, m, p, u);
      if bs[0].partnerId == p {
        forall i | 0 < i < |bs| ensures bs[i].partnerId != p {
          assert BucketIds(bs)[0] != BucketIds(bs)[i];
        }
      } else {
        assert BucketIds(bs[1..]) == BucketIds(bs)[1..];
        PlaceHit(bs[1..], m, p, u);
        var t := Place(bs[1..], m, p, u);
        assert r == [bs[0]] + t;
        forall i | 0 < i < |bs| && bs[i].partnerId == p
          ensures r[i] == bs[i].(messages := bs[i].messages + [m], unread := bs[i].unread + u)
        {
          assert r[i] == t[i - 1];
          assert bs[i] == bs[1..][i - 1];
        }
      }
    }
  }

  /** A new partner's entry holds just the message. */
  lemma {:induction false} PlaceNew(bs: seq<Bucket>, m: Message, p: string, u: nat)
    ensures p !in BucketIds(bs) ==> |Place(bs, m, p, u)| == |bs| + 1 && Place(bs, m, p, u)[|bs|] == Bucket(p, [m], u)
    decreases |bs|
  {
    if bs != [] && p !in BucketIds(bs) {
      assert bs[0].partnerId != p;
      assert BucketIds(bs[1..]) == BucketIds(bs)[1..];
      PlaceNew(bs[1..], m, p, u);
      var t := Place(bs[1..], m, p, u);
      assert Place(bs, m, p, u) == [bs[0]] + t;
    }
  }

  /** Appending one message extends the partner's thread by that message
      and its unread count by one when self has not read it. */
  lemma ThreadExtend(self: string, init: seq<Message>, m: Message, q: string)
    ensures ThreadWith(self, init + [m], q)
      == ThreadWith(self, init, q) + (if PartnerOf(self, m) == q then [m] else [])
    ensures UnreadFrom(self, init + [m], q)
      == UnreadFrom(self, init, q) + (if PartnerOf(self, m) == q && UnreadBySelf(self, m) then 1 else 0)
  {
    FilterAppend(init, [m], x => PartnerOf(self, x) == q);
    FilterAppend(init, [m], x => PartnerOf(self, x) == q && UnreadBySelf(self, x));
  }

  /** Appending a message to the log appends its partner to the partner list. */
  lemma PartnerSeqSnoc(self: string, init: seq<Message>, m: Message)
    ensures PartnerSeq(self, init + [m]) == PartnerSeq(self, init) + [PartnerOf(self, m)]
  {
  }

  /** One step of the fold keeps the entries in line with the reference
      definitions: entry `i` of the new map, given the old map already was. */
  lemma FoldStepEntry(self: string, init: seq<Message>, m: Message, i: nat)
    requires var bs0 := GroupFold(self, init);
      && BucketIds(bs0) == Dedup(PartnerSeq(self, init))
      && (forall k :: 0 <= k < |bs0| ==>
            && bs0[k].messages == ThreadWith(self, init, bs0[k].partnerId)
            && bs0[k].unread == UnreadFrom(self, init, bs0[k].partnerId))
    requires i < |GroupFold(self, init + [m])|
    ensures var b := GroupFold(self, init + [m])[i];
      && b.messages == ThreadWith(self, init + [m], b.partnerId)
      && b.unread == UnreadFrom(self, init + [m], b.partnerId)
  {
    var msgs := init + [m];
    assert msgs[..|msgs| - 1] == init;
    var p := PartnerOf(self, m);
    var u: nat := if UnreadBySelf(self, m) then 1 else 0;
    var bs0 := GroupFold(self, init);
    var bs := Place(bs0, m, p, u);
    assert GroupFold(self, msgs) == bs;
    PlaceSpec(bs0, m, p, u);
    var q := bs[i].partnerId;
    ThreadExtend(self, init, m, q);
    if i == |bs0| {
      assert p !in BucketIds(bs0);
      assert bs[i] == Bucket(p, [m], u);
      NoneFiledUnder(self, init, p);
      assert UnreadFrom(self, msgs, p) == u;
    } else if bs0[i].partnerId == p {
      assert bs[i] == bs0[i].(messages := bs0[i].messages + [m], unread := bs0[i].unread + u);
      assert bs0[i].unread == UnreadFrom(self, init, p);
      assert UnreadFrom(self, msgs, p) == bs0[i].unread + u;
    } else {
      assert bs[i] == bs0[i];
      assert bs0[i].unread == UnreadFrom(self, init, q);
      assert UnreadFrom(self, msgs, q) == UnreadFrom(self, init, q);
    }
  }

  /** The fold agrees with the reference definitions: its entries are the
      distinct partners in order of first appearance, each holding exactly the
      messages filed under it and the number of those self has not read. */
  lemma GroupFoldSpec(self: string, msgs: seq<Message>)
    ensures var bs := GroupFold(self, msgs);
      && BucketIds(bs) == Dedup(PartnerSeq(self, msgs))
      && (forall i :: 0 <= i < |bs| ==>
            && bs[i].messages == ThreadWith(self, msgs, bs[i].partnerId)
            && bs[i].unread == UnreadFrom(self, msgs, bs[i].partnerId))
  {
    GroupFoldIds(self, msgs);
    GroupFoldEntries(self, msgs);
  }

  /** The fold's entries are the distinct partners in order of first appearance. */
  lemma {:induction false} GroupFoldIds(self: string, msgs: seq<Message>)
    ensures BucketIds(GroupFold(self, msgs)) == Dedup(PartnerSeq(self, msgs))
    decreases |msgs|
  {
    if msgs != [] {
      var n := |msgs|;
      var init := msgs[..n - 1];
      var m := msgs[n - 1];
      var p := PartnerOf(self, m);
      var u: nat := if UnreadBySelf(self, m) then 1 else 0;
      assert msgs == init + [m];
      GroupFoldIds(self, init);
      PlaceIds(GroupFold(self, init), m, p, u);
      PartnerSeqSnoc(self, init, m);
      assert (PartnerSeq(self, init) + [p])[..n - 1] == PartnerSeq(self, init);
    }
  }

  /** Each entry of the fold holds the messages filed under its partner and
      the number of those self has not read. */
  lemma {:induction false} GroupFoldEntries(self: string, msgs: seq<Message>)
    ensures var bs := GroupFold(self, msgs);
      forall i :: 0 <= i < |bs| ==>
        && bs[i].messages == ThreadWith(self, msgs, bs[i].partnerId)
        && bs[i].unread == UnreadFrom(self, msgs, bs[i].partnerId)
    decreases |msgs|
  {
    if msgs != [] {
      var n := |msgs|;
      var init := msgs[..n - 1];
      var m := msgs[n - 1];
      assert msgs == init + [m];
      GroupFoldIds(self, init);
      GroupFoldEntries(self, init);
      forall i | 0 <= i < |GroupFold(self, msgs)|
        ensures GroupFold(self, msgs)[i].messages == ThreadWith(self, msgs, GroupFold(self, msgs)[i].partnerId)
        ensures GroupFold(self, msgs)[i].unread == UnreadFrom(self, msgs, GroupFold(self, msgs)[i].partnerId)
      {
        FoldStepEntry(self, init, m, i);
      }
    }
  }


  /** A partner that no fetched message is filed under has no thread. */
  lemma NoneFiledUnder(self: string, msgs: seq<Message>, p: string)
    requires p !in Dedup(PartnerSeq(self, msgs))
    ensures ThreadWith(self, msgs, p) == []
    ensures UnreadFrom(self, msgs, p) == 0
  {
    forall i | 0 <= i < |msgs| ensures PartnerOf(self, msgs[i]) != p {
      assert PartnerSeq(self, msgs)[i] == PartnerOf(self, msgs[i]);
    }
  }

  // ---------------------------------------------------------------------------
  // Conversations
  // ---------------------------------------------------------------------------

  /** `profiles?.find(p => p.id === id)`. */
  function FindProfile(profiles: seq<Profile>, id: string): Option<Profile>
  {
    Find(profiles, (p: Profile) => p.id == id)
  }

  function DisplayName(p: Option<Profile>): string
  {
    match p
    case None => "Unknown"
    case Some(q) => q.firstName + " " + q.lastName
  }

  /** `profile?.avatar_url || null`: an empty URL counts as none. */
  function AvatarOf(p: Option<Profile>): (r: Option<string>)
    ensures r.Some? ==> r.value != ""
    ensures r.Some? ==> p.Some? && r == p.value.avatarUrl
    ensures p.Some? && p.value.avatarUrl.Some? && p.value.avatarUrl.value != "" ==> r == p.value.avatarUrl
  {
    if p.Some? && p.value.avatarUrl.Some? && p.value.avatarUrl.value != "" then p.value.avatarUrl else None
  }

  function ToConversation(b: Bucket, profiles: seq<Profile>): Conversation
    requires |b.messages| > 0
  {
    var profile := FindProfile(profiles, b.partnerId);
    var last := b.messages[0];
    Conversation(b.partnerId, DisplayName(profile), AvatarOf(profile), last.content, last.createdAt, b.unread)
  }

  /** One conversation per entry of the map, in map order. */
  function Entries(bs: seq<Bucket>, profiles: seq<Profile>): (cs: seq<Conversation>)
    requires NonEmptyBuckets(bs)
    ensures |cs| == |bs|
    ensures forall i :: 0 <= i < |bs| ==> cs[i] == ToConversation(bs[i], profiles)
  {
    seq(|bs|, i requires 0 <= i < |bs| => ToConversation(bs[i], profiles))
  }

  /** `fetchConversations` on the rows the inbox query returned. */
  function Conversations(self: string, fetched: seq<Message>, profiles: seq<Profile>): (r: seq<Conversation>)
    ensures |r| == |GroupFold(self, fetched)|
    ensures SortedDesc(r, LastTime)
    ensures r == [] <==> fetched == []
  {
    var bs := GroupFold(self, fetched);
    if |bs| == 0 then [] else SortDesc(Entries(bs, profiles), LastTime)
  }

  /** What a conversation entry says about the fetched log. */
  predicate Summarises(self: string, fetched: seq<Message>, profiles: seq<Profile>, c: Conversation)
  {
    var t := ThreadWith(self, fetched, c.partnerId);
    && |t| > 0
    && c.lastMessage == t[0].content
    && c.lastMessageTime == t[0].createdAt
    && c.unreadCount == UnreadFrom(self, fetched, c.partnerId)
    && c.partnerName == DisplayName(FindProfile(profiles, c.partnerId))
    && c.partnerAvatar == AvatarOf(FindProfile(profiles, c.partnerId))
  }

  /** Before sorting, entry `i` summarises the partner of fold entry `i`. */
  lemma EntrySummarises(self: string, fetched: seq<Message>, profiles: seq<Profile>, i: nat)
    requires i < |GroupFold(self, fetched)|
    ensures Summarises(self, fetched, profiles, Entries(GroupFold(self, fetched), profiles)[i])
  {
    GroupFoldSpec(self, fetched);
  }

  /** Every inbox entry summarises its partner's messages. */
  lemma ConversationsSummarise(self: string, fetched: seq<Message>, profiles: seq<Profile>)
    ensures var r := Conversations(self, fetched, profiles);
      forall j :: 0 <= j < |r| ==> Summarises(self, fetched, profiles, r[j])
  {
    var bs := GroupFold(self, fetched);
    if |bs| > 0 {
      var cs := Entries(bs, profiles);
      forall i | 0 <= i < |cs| ensures Summarises(self, fetched, profiles, cs[i]) {
        EntrySummarises(self, fetched, profiles, i);
      }
      var P := c => Summarises(self, fetched, profiles, c);
      assert forall i :: 0 <= i < |cs| ==> P(cs[i]);
      SortKeepsAll(cs, LastTime, P);
    }
  }

  /** Every fetched message has its partner's entry in the inbox. */
  lemma ConversationsCover(self: string, fetched: seq<Message>, profiles: seq<Profile>)
    ensures var r := Conversations(self, fetched, profiles);
      forall i :: 0 <= i < |fetched| ==>
        exists j :: 0 <= j < |r| && r[j].partnerId == PartnerOf(self, fetched[i])
  {
    var bs := GroupFold(self, fetched);
    GroupFoldSpec(self, fetched);
    if |bs| > 0 {
      var cs := Entries(bs, profiles);
      var r := SortDesc(cs, LastTime);
      assert Conversations(self, fetched, profiles) == r;
      SortDescSameElements(cs, LastTime);
      forall i | 0 <= i < |fetched|
        ensures exists j :: 0 <= j < |r| && r[j].partnerId == PartnerOf(self, fetched[i])
      {
        var p := PartnerSeq(self, fetched)[i];
        assert p in Dedup(PartnerSeq(self, fetched));
        var k :| 0 <= k < |bs| && BucketIds(bs)[k] == p;
        assert cs[k] in r;
        var j :| 0 <= j < |r| && r[j] == cs[k];
        assert r[j].partnerId == p;
      }
    } else {
      assert fetched == [];
    }
  }

  /** The inbox has one entry per distinct partner, newest preview first. */
  lemma ConversationsShape(self: string, fetched: seq<Message>, profiles: seq<Profile>)
    ensures var r := Conversations(self, fetched, profiles);
      && |r| == |Dedup(PartnerSeq(self, fetched))|
      && DistinctBy(r, PartnerKey)
      && SortedDesc(r, LastTime)
      && (fetched == [] ==> r == [])
  {
    var bs := GroupFold(self, fetched);
    GroupFoldIds(self, fetched);
    if |bs| > 0 {
      var cs := Entries(bs, profiles);
      EntriesDistinct(bs, profiles);
      SortKeepsDistinct(cs, LastTime, PartnerKey);
      SortDescSameElements(cs, LastTime);
    }
  }

  /** Distinct partners give conversations with distinct partner ids. */
  lemma EntriesDistinct(bs: seq<Bucket>, profiles: seq<Profile>)
    requires NonEmptyBuckets(bs) && Distinct(BucketIds(bs))
    ensures DistinctBy(Entries(bs, profiles), PartnerKey)
  {
    var cs := Entries(bs, profiles);
    forall i, j | 0 <= i < j < |cs| ensures PartnerKey(cs[i]) != PartnerKey(cs[j]) {
      assert PartnerKey(cs[i]) == BucketIds(bs)[i];
      assert PartnerKey(cs[j]) == BucketIds(bs)[j];
    }
  }

  /** The inbox has exactly one entry per distinct partner, each entry
      summarises that partner's messages (preview from the first fetched
      message, receiver-side unread count, profile name or "Unknown"), and the
      entries are ordered by preview time, newest first. */
  lemma ConversationsSpec(self: string, fetched: seq<Message>, profiles: seq<Profile>)
    ensures var r := Conversations(self, fetched, profiles);
      && |r| == |Dedup(PartnerSeq(self, fetched))|
      && DistinctBy(r, PartnerKey)
      && (forall i :: 0 <= i < |fetched| ==>
            exists j :: 0 <= j < |r| && r[j].partnerId == PartnerOf(self, fetched[i]))
      && (forall j :: 0 <= j < |r| ==> Summarises(self, fetched, profiles, r[j]))
      && SortedDesc(r, LastTime)
      && (fetched == [] ==> r == [])
  {
    ConversationsSummarise(self, fetched, profiles);
    ConversationsCover(self, fetched, profiles);
    ConversationsShape(self, fetched, profiles);
  }

  /** In a newest-first log, a partner's thread starts with its newest message. */
  lemma ThreadHeadIsNewest(self: string, fetched: seq<Message>, i: nat)
    requires SortedDesc(fetched, CreatedAt)
    requires i < |fetched|
    ensures var t := ThreadWith(self, fetched, PartnerOf(self, fetched[i]));
      |t| > 0 && t[0].createdAt >= fetched[i].createdAt
  {
    var p := PartnerOf(self, fetched[i]);
    var t := ThreadWith(self, fetched, p);
    FilterKeepsSortedDesc(fetched, m => PartnerOf(self, m) == p, CreatedAt);
    assert fetched[i] in t;
    var k :| 0 <= k < |t| && t[k] == fetched[i];
    assert CreatedAt(t[0]) >= CreatedAt(t[k]);
  }

  /** Because the inbox query returns the log newest-first, each preview is
      the newest message exchanged with that partner. */
  lemma PreviewIsNewest(self: string, table: seq<Message>, profiles: seq<Profile>)
    ensures var fetched := InboxQuery(self, table);
      var r := Conversations(self, fetched, profiles);
      forall j, i :: 0 <= j < |r| && 0 <= i < |fetched| && PartnerOf(self, fetched[i]) == r[j].partnerId ==>
        fetched[i].createdAt <= r[j].lastMessageTime
  {
    var fetched := InboxQuery(self, table);
    var r := Conversations(self, fetched, profiles);
    ConversationsSummarise(self, fetched, profiles);
    forall j, i | 0 <= j < |r| && 0 <= i < |fetched| && PartnerOf(self, fetched[i]) == r[j].partnerId
      ensures fetched[i].createdAt <= r[j].lastMessageTime
    {
      assert Summarises(self, fetched, profiles, r[j]);
      ThreadHeadIsNewest(self, fetched, i);
    }
  }

  /** The fetch keeps the previous list when the query returned no data. */
  function RefreshConversations(self: string, previous: seq<Conversation>, fetched: Option<seq<Message>>,
                                profiles: seq<Profile>): (r: seq<Conversation>)
    ensures fetched.None? ==> r == previous
    ensures fetched == Some([]) ==> r == []
    ensures fetched.Some? ==> r == Conversations(self, fetched.value, profiles)
  {
    match fetched
    case None => previous
    case Some(rows) => Conversations(self, rows, profiles)
  }

  // ---------------------------------------------------------------------------
  // Sending and reading
  // ---------------------------------------------------------------------------

  /** The value `sendMessage` resolves to: `undefined` when it returned early,
      otherwise whether the insert reported no error. */
  datatype SendResult = NotAttempted | Completed(ok: bool)

  /** `sendMessage`: a blank message (or no signed-in user) writes nothing;
      otherwise one unread row with the trimmed content is inserted, given the
      store accepts it (`insertOk`). `newId` and `now` are the store's defaults. */
  function SendMessage(user: Option<string>, receiver: string, content: string, table: seq<Message>,
                       newId: string, now: int, insertOk: bool): (res: (seq<Message>, SendResult))
    ensures user.None? || AllSpace(content) ==> res == (table, NotAttempted)
    ensures user.Some? && !AllSpace(content) ==>
      && res.1 == Completed(insertOk)
      && res.0 == (if insertOk then table + [Message(newId, user.value, receiver, Trim(content), false, now)] else table)
  {
    TrimShape(content);
    if user.None? || Trim(content) == [] then (table, NotAttempted)
    else if insertOk then (table + [Message(newId, user.value, receiver, Trim(content), false, now)], Completed(true))
    else (table, Completed(false))
  }

  /** The rows `markAsRead(other)` updates. */
  predicate MarkedBy(self: string, other: string, m: Message)
  {
    m.senderId == other && m.receiverId == self && !m.isRead
  }

  /** `markAsRead(other)`: sets `is_read` on the unread rows `other` sent to self. */
  function MarkThreadRead(user: Option<string>, other: string, table: seq<Message>): (r: seq<Message>)
    ensures |r| == |table|
    ensures forall i :: 0 <= i < |table| ==> r[i].(isRead := table[i].isRead) == table[i]
    ensures forall i :: 0 <= i < |table| ==>
      r[i].isRead == (table[i].isRead || (user.Some? && table[i].senderId == other && table[i].receiverId == user.value))
    decreases |table|
  {
    if table == [] then []
    else
      var m := table[0];
      var rest := MarkThreadRead(user, other, table[1..]);
      var r := [if user.Some? && MarkedBy(user.value, other, m) then m.(isRead := true) else m] + rest;
      assert forall i :: 1 <= i < |table| ==> r[i] == rest[i - 1] && table[i] == table[1..][i - 1];
      r
  }

  /** After marking the thread read, nothing from `other` is unread, and the
      unread count of every other partner is unchanged. */
  lemma {:induction false} MarkThreadReadEffect(self: string, other: string, table: seq<Message>, q: string)
    ensures UnreadFrom(self, MarkThreadRead(Some(self), other, table), other) == 0
    ensures UnreadSentBy(self, MarkThreadRead(Some(self), other, table), other) == 0
    ensures q != other ==>
      UnreadFrom(self, MarkThreadRead(Some(self), other, table), q) == UnreadFrom(self, table, q)
    decreases |table|
  {
    if table != [] {
      MarkThreadReadEffect(self, other, table[1..], q);
      var r := MarkThreadRead(Some(self), other, table);
      assert r[1..] == MarkThreadRead(Some(self), other, table[1..]);
    }
  }

  /** Marking a thread read twice is marking it once. */
  lemma {:induction false} MarkThreadReadIdempotent(user: Option<string>, other: string, table: seq<Message>)
    ensures MarkThreadRead(user, other, MarkThreadRead(user, other, table)) == MarkThreadRead(user, other, table)
    decreases |table|
  {
    if table != [] {
      MarkThreadReadIdempotent(user, other, table[1..]);
    }
  }

  // ---------------------------------------------------------------------------
  // Live inserts
  // ---------------------------------------------------------------------------

  /** The mounted hook: the store's message table, the open thread (if a
      partner is given), and the conversation list. */
  datatype InboxState = InboxState(table: seq<Message>, thread: seq<Message>, conversations: seq<Conversation>)

  /** A route parameter is truthy when present and not empty. */
  predicate IsOpen(openPartner: Option<string>)
  {
    openPartner.Some? && openPartner.value != ""
  }

  /** The realtime INSERT handler. `state.table` already holds the new row.
      `fetchOk` says whether the conversation refetch returned rows; when it
      did not, `fetchConversations` returns early and the list stays. */
  function OnMessageInsert(self: string, openPartner: Option<string>, m: Message, state: InboxState,
                           profiles: seq<Profile>, fetchOk: bool): (r: InboxState)
    ensures !Involves(self, m) ==> r == state
    ensures Involves(self, m) && IsOpen(openPartner) && Involves(openPartner.value, m) ==>
      && r.thread == state.thread + [m]
      && r.conversations == state.conversations
      && (m.senderId == openPartner.value ==>
            r.table == MarkThreadRead(Some(self), openPartner.value, state.table)
            && UnreadSentBy(self, r.table, openPartner.value) == 0)
      && (m.senderId != openPartner.value ==> r.table == state.table)
    ensures Involves(self, m) && !(IsOpen(openPartner) && Involves(openPartner.value, m)) ==>
      && r.thread == state.thread
      && r.table == state.table
      && r.conversations == RefreshConversations(self, state.conversations,
                                                 if fetchOk then Some(InboxQuery(self, state.table)) else None, profiles)
      && (fetchOk ==> r.conversations == Conversations(self, InboxQuery(self, state.table), profiles))
      && (!fetchOk ==> r.conversations == state.conversations)
  {
    if !Involves(self, m) then state
    else if IsOpen(openPartner) && Involves(openPartner.value, m) then
      var p := openPartner.value;
      var table' := if m.senderId == p then MarkThreadRead(Some(self), p, state.table) else state.table;
      MarkThreadReadEffect(self, p, state.table, p);
      state.(thread := state.thread + [m], table := table')
    else
      var fetched := if fetchOk then Some(InboxQuery(self, state.table)) else None;
      state.(conversations := RefreshConversations(self, state.conversations, fetched, profiles))
  }

  /** Opening a thread: the thread is fetched and the partner's messages are
      marked read (the two requests are issued together; the fetched rows are
      those the store held when the thread was opened). A failed fetch
      (`fetchOk` false, no data) keeps the thread shown before. */
  function OpenThread(self: string, partner: string, state: InboxState, fetchOk: bool): (r: InboxState)
    ensures forall i :: 0 <= i < |r.thread| ==> r.thread[i] in state.thread || Between(self, partner, r.thread[i])
    ensures fetchOk ==> forall i :: 0 <= i < |r.thread| ==> Between(self, partner, r.thread[i])
    ensures fetchOk ==> SortedDesc(r.thread, Earliness)
    ensures UnreadSentBy(self, r.table, partner) == 0
    ensures r.conversations == state.conversations
    ensures fetchOk ==> r.thread == ThreadQuery(self, partner, state.table)
    ensures !fetchOk ==> r.thread == state.thread
    ensures r.table == MarkThreadRead(Some(self), partner, state.table)
  {
    MarkThreadReadEffect(self, partner, state.table, partner);
    state.(thread := if fetchOk then ThreadQuery(self, partner, state.table) else state.thread,
           table := MarkThreadRead(Some(self), partner, state.table))
  }

  // ---------------------------------------------------------------------------
  // End-to-end: a first message and reading it
  // ---------------------------------------------------------------------------

  /** The inbox of a log holding a single message of self's: one
      conversation, with that message as preview. */
  lemma SingleMessageInbox(self: string, msg: Message, profiles: seq<Profile>)
    requires Involves(self, msg)
    ensures var r := Conversations(self, InboxQuery(self, [msg]), profiles);
      && |r| == 1
      && r[0].partnerId == PartnerOf(self, msg)
      && r[0].lastMessage == msg.content
      && r[0].unreadCount == (if UnreadBySelf(self, msg) then 1 else 0)
  {
    var fetched := InboxQuery(self, [msg]);
    assert msg in fetched;
    assert fetched == [msg];
    var p := PartnerOf(self, msg);
    ConversationsSummarise(self, fetched, profiles);
    ConversationsShape(self, fetched, profiles);
    var r := Conversations(self, fetched, profiles);
    assert PartnerSeq(self, fetched) == [p];
    assert Dedup(PartnerSeq(self, fetched)) == [p];
    assert Summarises(self, fetched, profiles, r[0]);
    assert r[0].partnerId == p by {
      assert ThreadWith(self, fetched, r[0].partnerId) != [];
    }
    assert ThreadWith(self, fetched, p) == [msg];
    if UnreadBySelf(self, msg) {
      assert Filter(fetched, m => PartnerOf(self, m) == p && UnreadBySelf(self, m)) == [msg];
    } else {
      assert Filter(fetched, m => PartnerOf(self, m) == p && UnreadBySelf(self, m)) == [];
    }
  }

  /** Coach `c` sends "Hello" to client `x` on an empty log: `x`'s inbox shows
      one conversation with `c`, preview "Hello" and one unread message; once
      `x` opens the thread, the count drops to zero. */
  lemma FirstMessageScenario(c: string, x: string, id: string, t0: int, profiles: seq<Profile>)
    requires c != x
    ensures var sent := SendMessage(Some(c), x, "Hello", [], id, t0, true).0;
      var inbox := Conversations(x, InboxQuery(x, sent), profiles);
      var read := MarkThreadRead(Some(x), c, sent);
      var after := Conversations(x, InboxQuery(x, read), profiles);
      && |inbox| == 1
      && inbox[0].partnerId == c && inbox[0].lastMessage == "Hello" && inbox[0].unreadCount == 1
      && |after| == 1 && after[0].unreadCount == 0
  {
    var msg := Message(id, c, x, "Hello", false, t0);
    SendHello(c, x, id, t0);
    SingleMessageInbox(x, msg, profiles);
    ReadTheOneMessage(x, msg);
    SingleMessageInbox(x, msg.(isRead := true), profiles);
  }

  lemma SendHello(c: string, x: string, id: string, t0: int)
    ensures SendMessage(Some(c), x, "Hello", [], id, t0, true).0 == [Message(id, c, x, "Hello", false, t0)]
  {
    assert !IsSpace('H') && !IsSpace('o');
    assert DropLeadingSpace("Hello") == "Hello";
    assert DropTrailingSpace("Hello") == "Hello";
  }

  lemma ReadTheOneMessage(x: string, msg: Message)
    requires msg.receiverId == x
    ensures MarkThreadRead(Some(x), msg.senderId, [msg]) == [msg.(isRead := true)]
  {
  }
}

=== FILE: invoices.dfy ===
/** The invoice form of `src/components/NewInvoiceForm.tsx`: the
    required-field guard, the lookup of the client by name (creating one
    when none matches), and the invoice row it writes. */
module Invoices {
  import opened Common

  /** A client the form knows of: the coach's `clients` rows as fetched when
      the form mounted. */
  datatype ClientRef = ClientRef(id: string, firstName: string, lastName: string, coachId: string)

  /** An `invoices` row. The amount is kept as the text entered. */
  datatype Invoice = Invoice(
    coachId: string, clientId: string, amount: string, dueDate: string,
    status: string, kind: string, recurringDay: Option<int>)

  datatype InvoiceForm = InvoiceForm(
    firstName: string, lastName: string, amount: string, dueDate: string,
    kind: string, recurringDay: string)

  /** The toast a save ends with. */
  datatype Toast = NotLoggedIn | MissingFields | ClientError | InvoiceError | InvoiceCreated

  datatype Store = Store(clients: seq<ClientRef>, invoices: seq<Invoice>)

  const StatusPending := "pending"
  const Recurring := "recurring"

  /** The guard: the four text fields are all non-empty. */
  predicate Complete(f: InvoiceForm)
  {
    f.firstName != "" && f.lastName != "" && f.amount != "" && f.dueDate != ""
  }

  /** Both names equal, ignoring the case of ASCII letters. */
  predicate SameName(c: ClientRef, first: string, last: string)
  {
    ToLower(c.firstName) == ToLower(first) && ToLower(c.lastName) == ToLower(last)
  }

  /** `clients.find(...)`: the first known client with both names. */
  function FindClient(known: seq<ClientRef>, first: string, last: string): (r: Option<ClientRef>)
    ensures r.Some? ==> r.value in known && SameName(r.value, first, last)
    ensures r.None? <==> forall i :: 0 <= i < |known| ==> !SameName(known[i], first, last)
    decreases |known|
  {
    if known == [] then None
    else if SameName(known[0], first, last) then Some(known[0])
    else FindClient(known[1..], first, last)
  }

  /** The invoice written for a client id. `recurring_day` is the parsed
      day for a recurring invoice and null otherwise. */
  function InvoiceFor(coach: string, clientId: string, f: InvoiceForm, parseInt: string -> int): (inv: Invoice)
    ensures inv.status == StatusPending && inv.coachId == coach && inv.clientId == clientId
    ensures inv.recurringDay.Some? <==> f.kind == Recurring
    ensures inv.recurringDay.Some? ==> inv.recurringDay.value == parseInt(f.recurringDay)
  {
    Invoice(coach, clientId, f.amount, f.dueDate, StatusPending, f.kind,
            if f.kind == Recurring then Some(parseInt(f.recurringDay)) else None)
  }

  /** `handleSave`. No user or an incomplete form writes nothing. A known
      client with the same names is reused; otherwise one is inserted, and
      when that insert fails no invoice is written. The invoice insert may
      fail too. */
  function Save(user: Option<string>, f: InvoiceForm, known: seq<ClientRef>, st: Store,
                newClientId: string, clientOk: bool, invoiceOk: bool, parseInt: string -> int): (r: (Store, Toast))
    ensures user.None? ==> r == (st, NotLoggedIn)
    ensures user.Some? && !Complete(f) ==> r == (st, MissingFields)
    ensures r.1 == InvoiceCreated <==> user.Some? && Complete(f) && invoiceOk
                                       && (FindClient(known, f.firstName, f.lastName).Some? || clientOk)
    ensures r.0.invoices != st.invoices <==> r.1 == InvoiceCreated
    ensures r.1 == InvoiceCreated ==>
      var found := FindClient(known, f.firstName, f.lastName);
      r.0.invoices == st.invoices + [InvoiceFor(user.value, if found.Some? then found.value.id else newClientId, f, parseInt)]
    ensures r.0.clients != st.clients ==>
      user.Some? && Complete(f) && clientOk && FindClient(known, f.firstName, f.lastName).None?
      && r.0.clients == st.clients + [ClientRef(newClientId, f.firstName, f.lastName, user.value)]
  {
    if user.None? then (st, NotLoggedIn)
    else if !Complete(f) then (st, MissingFields)
    else
      var coach := user.value;
      match FindClient(known, f.firstName, f.lastName)
      case Some(c) =>
        if invoiceOk then (st.(invoices := st.invoices + [InvoiceFor(coach, c.id, f, parseInt)]), InvoiceCreated)
        else (st, InvoiceError)
      case None =>
        if !clientOk then (st, ClientError)
        else
          var clients := st.clients + [ClientRef(newClientId, f.firstName, f.lastName, coach)];
          if invoiceOk then (Store(clients, st.invoices + [InvoiceFor(coach, newClientId, f, parseInt)]), InvoiceCreated)
          else (st.(clients := clients), InvoiceError)
  }

  /** A known client of the same name, in any letter case, receives the
      invoice and no client is created. */
  lemma KnownClientIsReused(user: string, f: InvoiceForm, known: seq<ClientRef>, st: Store, i: nat,
                            newClientId: string, clientOk: bool, parseInt: string -> int)
    requires Complete(f) && i < |known| && SameName(known[i], f.firstName, f.lastName)
    requires forall j :: 0 <= j < i ==> !SameName(known[j], f.firstName, f.lastName)
    ensures var r := Save(Some(user), f, known, st, newClientId, clientOk, true, parseInt);
      r.0.clients == st.clients
      && r.0.invoices == st.invoices + [InvoiceFor(user, known[i].id, f, parseInt)]
  {
    FindClientFirst(known, f.firstName, f.lastName, i);
  }

  lemma {:induction false} FindClientFirst(known: seq<ClientRef>, first: string, last: string, i: nat)
    requires i < |known| && SameName(known[i], first, last)
    requires forall j :: 0 <= j < i ==> !SameName(known[j], first, last)
    ensures FindClient(known, first, last) == Some(known[i])
    decreases i
  {
    if i > 0 {
      FindClientFirst(known[1..], first, last, i - 1);
    }
  }

  /** A failed client insert leaves the store as it was. */
  lemma ClientFailureWritesNothing(user: string, f: InvoiceForm, known: seq<ClientRef>, st: Store,
                                   newClientId: string, invoiceOk: bool, parseInt: string -> int)
    requires FindClient(known, f.firstName, f.lastName).None?
    ensures Save(Some(user), f, known, st, newClientId, false, invoiceOk, parseInt).0 == st
  {
  }

  /** A client the form created is found by the same names, in any letter
      case, once the coach's clients are fetched again: the next invoice for
      that name reuses it. */
  lemma {:induction false} CreatedClientFoundAgain(user: string, f: InvoiceForm, known: seq<ClientRef>, st: Store,
                                                   newClientId: string, invoiceOk: bool, parseInt: string -> int,
                                                   first: string, last: string)
    requires Complete(f) && FindClient(known, f.firstName, f.lastName).None?
    requires ToLower(first) == ToLower(f.firstName) && ToLower(last) == ToLower(f.lastName)
    ensures var r := Save(Some(user), f, known, st, newClientId, true, invoiceOk, parseInt);
      var c := ClientRef(newClientId, f.firstName, f.lastName, user);
      r.0.clients == st.clients + [c]
      && FindClient(known + [c], first, last) == Some(c)
  {
    var c := ClientRef(newClientId, f.firstName, f.lastName, user);
    var k := known + [c];
    forall j | 0 <= j < |known| ensures !SameName(k[j], first, last) {
      assert k[j] == known[j];
      assert !SameName(known[j], f.firstName, f.lastName);
    }
    FindClientFirst(k, first, last, |known|);
  }
}

=== FILE: listing.dfy ===
/** Searching and filtering lists: the coach's client list
    (`src/pages/Clients.tsx`), the coach directory
    (`src/pages/FindCoaches.tsx`) and the contact picker of
    `src/components/NewMessageDialog.tsx`. */
module Listing {
  import opened Common
  import Access
  import Booking

  /** `${first} ${last}`.toLowerCase().includes(term.toLowerCase()). */
  predicate NameMatches(first: string, last: string, term: string)
  {
    IsInfix(ToLower(term), ToLower(first + " " + last))
  }

  /** A client is found by the first name, the last name or the full name
      as the list shows it. */
  lemma NameFoundByParts(first: string, last: string)
    ensures NameMatches(first, last, first)
    ensures NameMatches(first, last, last)
    ensures NameMatches(first, last, first + " " + last)
  {
    ToLowerAppend(first + " ", last);
    ToLowerAppend(first, " ");
    PartsOfJoin(ToLower(first), ToLower(" "), ToLower(last));
  }

  /** Each outer part of a three-part join, and the join itself, occur in it. */
  lemma PartsOfJoin(f: string, s: string, l: string)
    ensures IsInfix(f, f + s + l) && IsInfix(l, f + s + l) && IsInfix(f + s + l, f + s + l)
  {
    InfixOfAffix([], f, s + l);
    assert [] + f + (s + l) == f + s + l;
    InfixOfAffix(f + s, l, []);
    assert f + s + l + [] == f + s + l;
    InfixOfAffix([], f + s + l, []);
    assert [] + (f + s + l) + [] == f + s + l;
  }

  /** An empty search term matches every name. */
  lemma EmptyTermMatches(first: string, last: string)
    ensures NameMatches(first, last, "")
  {
    InfixWitness([], ToLower(first + " " + last));
  }

  // ---------------------------------------------------------------------------
  // Clients
  // ---------------------------------------------------------------------------

  datatype Client = Client(id: string, firstName: string, lastName: string, sport: string, level: string)

  /** A select filter: "" and "all" both leave the field unfiltered. */
  predicate Unfiltered(filter: string)
  {
    filter == "" || filter == "all"
  }

  predicate Passes(filter: string, value: string)
  {
    Unfiltered(filter) || value == filter
  }

  datatype Filters = Filters(search: string, sport: string, level: string)

  predicate Kept(f: Filters, c: Client)
  {
    NameMatches(c.firstName, c.lastName, f.search) && Passes(f.sport, c.sport) && Passes(f.level, c.level)
  }

  function Keeps(f: Filters): Client -> bool
  {
    (c: Client) => Kept(f, c)
  }

  /** `filteredClients`: the clients passing the search and both selects, in
      the fetched order. */
  function FilteredClients(cs: seq<Client>, f: Filters): (r: seq<Client>)
    ensures IsSubsequence(r, cs)
    ensures forall i :: 0 <= i < |r| ==> r[i] in cs && Kept(f, r[i])
    ensures forall i :: 0 <= i < |cs| && Kept(f, cs[i]) ==> cs[i] in r
    ensures forall c :: multiset(r)[c] == if Kept(f, c) then multiset(cs)[c] else 0
  {
    FilterCounts(cs, Keeps(f));
    Filter(cs, Keeps(f))
  }

  /** `activeFiltersCount`: how many of the two selects filter anything. */
  function ActiveFiltersCount(f: Filters): (n: nat)
    ensures n <= 2
    ensures n == 0 <==> Unfiltered(f.sport) && Unfiltered(f.level)
    ensures n == 2 <==> !Unfiltered(f.sport) && !Unfiltered(f.level)
  {
    (if Unfiltered(f.sport) then 0 else 1) + (if Unfiltered(f.level) then 0 else 1)
  }

  /** `clearFilters`: both selects back to "", the search kept. */
  function ClearFilters(f: Filters): (g: Filters)
    ensures ActiveFiltersCount(g) == 0 && g.search == f.search
  {
    f.(sport := "", level := "")
  }

  /** With no search and no active filter every client is listed. */
  lemma {:induction false} NoFiltersListsAll(cs: seq<Client>, f: Filters)
    requires f.search == "" && ActiveFiltersCount(f) == 0
    ensures FilteredClients(cs, f) == cs
  {
    forall i | 0 <= i < |cs| ensures Keeps(f)(cs[i]) {
      EmptyTermMatches(cs[i].firstName, cs[i].lastName);
    }
    FilterKeepsAll(cs, Keeps(f));
  }

  /** Clearing the filters lists exactly the clients the search alone
      finds. */
  lemma {:induction false} ClearedFiltersSearchOnly(cs: seq<Client>, f: Filters, i: nat)
    requires i < |cs|
    ensures cs[i] in FilteredClients(cs, ClearFilters(f)) <==> NameMatches(cs[i].firstName, cs[i].lastName, f.search)
  {
  }

  // ---------------------------------------------------------------------------
  // FindCoaches
  // ---------------------------------------------------------------------------

  /** A coach profile; `available` is the nullable `is_available`. */
  datatype Coach = Coach(id: string, firstName: string, lastName: string, sport: Option<string>, available: Option<bool>)

  /** `is_available !== false`: null counts as available. */
  predicate Listed(c: Coach)
  {
    c.available != Some(false)
  }

  /** The ids of the `user_roles` rows with role coach. */
  function CoachUserIds(roles: seq<Access.RoleRow>): (r: set<string>)
    ensures forall u :: u in r <==> exists i :: 0 <= i < |roles| && roles[i] == Access.RoleRow(u, Access.Coach)
  {
    set i | 0 <= i < |roles| && roles[i].role == Access.Coach :: roles[i].userId
  }

  /** `fetchCoaches`: the available profiles of users with the coach role.
      A failed query, or no coaches at all, leaves the list as it was;
      otherwise the list becomes exactly the available coach profiles. */
  function FetchCoaches(previous: seq<Coach>, roles: Option<seq<Access.RoleRow>>, profiles: Option<seq<Coach>>): (r: seq<Coach>)
    ensures roles.None? || profiles.None? ==> r == previous
    ensures roles.Some? && CoachUserIds(roles.value) == {} ==> r == previous
    ensures r != previous ==> forall i :: 0 <= i < |r| ==> Listed(r[i]) && r[i].id in CoachUserIds(roles.value) && r[i] in profiles.value
    ensures roles.Some? && profiles.Some? && CoachUserIds(roles.value) != {} ==>
      && (forall i :: 0 <= i < |r| ==> Listed(r[i]) && r[i].id in CoachUserIds(roles.value) && r[i] in profiles.value)
      && (forall j :: 0 <= j < |profiles.value| && profiles.value[j].id in CoachUserIds(roles.value) && Listed(profiles.value[j]) ==>
            profiles.value[j] in r)
    ensures roles.Some? && profiles.Some? && CoachUserIds(roles.value) != {} ==>
      forall c :: multiset(r)[c] == if c.id in CoachUserIds(roles.value) && Listed(c) then multiset(profiles.value)[c] else 0
  {
    if roles.None? || CoachUserIds(roles.value) == {} || profiles.None? then previous
    else
      var ids := CoachUserIds(roles.value);
      FilterCounts(profiles.value, ListedCoachIn(ids));
      Filter(profiles.value, ListedCoachIn(ids))
  }

  function ListedCoachIn(ids: set<string>): Coach -> bool
  {
    (c: Coach) => c.id in ids && Listed(c)
  }

  /** The search: the lowercased query inside the first name, the last name
      or the sport specialty, when there is one. */
  predicate CoachMatches(c: Coach, query: string)
  {
    var q := ToLower(query);
    IsInfix(q, ToLower(c.firstName)) || IsInfix(q, ToLower(c.lastName))
    || (c.sport.Some? && IsInfix(q, ToLower(c.sport.value)))
  }

  /** A coach is found by the first name, the last name or, when there is
      one, the sport specialty. */
  lemma CoachFoundByParts(c: Coach)
    ensures CoachMatches(c, c.firstName) && CoachMatches(c, c.lastName)
    ensures c.sport.Some? ==> CoachMatches(c, c.sport.value)
  {
    InfixOfAffix([], ToLower(c.firstName), []);
    assert [] + ToLower(c.firstName) + [] == ToLower(c.firstName);
    InfixOfAffix([], ToLower(c.lastName), []);
    assert [] + ToLower(c.lastName) + [] == ToLower(c.lastName);
    if c.sport.Some? {
      InfixOfAffix([], ToLower(c.sport.value), []);
      assert [] + ToLower(c.sport.value) + [] == ToLower(c.sport.value);
    }
  }

  function Searching(query: string): Coach -> bool
  {
    (c: Coach) => CoachMatches(c, query)
  }

  function FilteredCoaches(cs: seq<Coach>, query: string): (r: seq<Coach>)
    ensures IsSubsequence(r, cs)
    ensures forall i :: 0 <= i < |r| ==> r[i] in cs && CoachMatches(r[i], query)
    ensures forall i :: 0 <= i < |cs| && CoachMatches(cs[i], query) ==> cs[i] in r
    ensures forall c :: multiset(r)[c] == if CoachMatches(c, query) then multiset(cs)[c] else 0
  {
    FilterCounts(cs, Searching(query));
    Filter(cs, Searching(query))
  }

  /** An empty query lists every coach. */
  lemma {:induction false} EmptyQueryListsAll(cs: seq<Coach>)
    ensures FilteredCoaches(cs, "") == cs
  {
    forall i | 0 <= i < |cs| ensures Searching("")(cs[i]) {
      InfixWitness([], ToLower(cs[i].firstName));
    }
    FilterKeepsAll(cs, Searching(""));
  }

  /** The sport specialty alone can make a coach match; a coach without one
      matches only by name. */
  lemma SportlessCoachMatchesByName(c: Coach, query: string)
    requires c.sport.None?
    ensures CoachMatches(c, query) <==> IsInfix(ToLower(query), ToLower(c.firstName)) || IsInfix(ToLower(query), ToLower(c.lastName))
  {
  }

  // ---------------------------------------------------------------------------
  // NewMessageDialog
  // ---------------------------------------------------------------------------

  datatype Contact = Contact(id: string, firstName: string, lastName: string, avatar: Option<string>)

  function ContactId(c: Contact): string { c.id }

  function IdsOf(cs: seq<Contact>): set<string>
  {
    set i | 0 <= i < |cs| :: cs[i].id
  }

  /** One step of the fold: the profile is appended unless a contact with
      its id is already listed. */
  function AppendOne(list: seq<Contact>, p: Contact): (r: seq<Contact>)
    ensures |r| >= |list| && r[..|list|] == list
    ensures p.id in IdsOf(r) && IdsOf(list) <= IdsOf(r)
    ensures forall i :: |list| <= i < |r| ==> r[i] == p
    ensures DistinctBy(list, ContactId) ==> DistinctBy(r, ContactId)
  {
    if p.id in IdsOf(list) then list
    else
      var r := list + [p];
      assert r[|list|] == p;
      assert forall i :: 0 <= i < |list| ==> r[i] == list[i];
      r
  }

  /** Profiles appended one by one, each skipped when a contact with its id
      is already listed. */
  function AppendNew(list: seq<Contact>, ps: seq<Contact>): (r: seq<Contact>)
    ensures |r| >= |list| && r[..|list|] == list
    ensures IdsOf(list) <= IdsOf(r)
    ensures forall i :: 0 <= i < |ps| ==> ps[i].id in IdsOf(r)
    ensures forall i :: |list| <= i < |r| ==> r[i] in ps
    ensures DistinctBy(list, ContactId) ==> DistinctBy(r, ContactId)
    decreases |ps|
  {
    if ps == [] then list
    else
      var next := AppendOne(list, ps[0]);
      var r := AppendNew(next, ps[1..]);
      PrefixOfPrefix(list, next, r);
      assert forall i :: |list| <= i < |r| ==> r[i] in ps by {
        forall i | |list| <= i < |r| ensures r[i] in ps {
          if i < |next| {
            assert r[i] == next[i];
          } else {
            assert r[i] in ps[1..];
          }
        }
      }
      assert forall i :: 1 <= i < |ps| ==> ps[i] == ps[1..][i - 1];
      r
  }

  lemma PrefixOfPrefix(a: seq<Contact>, b: seq<Contact>, c: seq<Contact>)
    requires |a| <= |b| <= |c| && b[..|a|] == a && c[..|b|] == b
    ensures c[..|a|] == a
  {
    assert forall i :: 0 <= i < |a| ==> c[i] == b[i];
  }

  /** A manual client as a contact: it has no profile, so no avatar. */
  function AsManual(cs: seq<Contact>): (r: seq<Contact>)
    ensures |r| == |cs|
    ensures forall i :: 0 <= i < |cs| ==> r[i] == cs[i].(avatar := None)
    decreases |cs|
  {
    if cs == [] then [] else [cs[0].(avatar := None)] + AsManual(cs[1..])
  }

  /** The coach's contacts: the manual clients first, without avatars, then
      the profiles of active relationships not already listed. */
  function CoachContacts(manual: seq<Contact>, rels: map<Booking.Pair, Booking.Relationship>,
                         profiles: seq<Contact>, coach: string): (r: seq<Contact>)
    ensures |r| >= |manual| && r[..|manual|] == AsManual(manual)
    ensures forall i :: |manual| <= i < |r| ==> r[i] in profiles && r[i].id in Booking.ActiveClients(rels, coach)
    ensures DistinctBy(manual, ContactId) ==> DistinctBy(r, ContactId)
  {
    var ids := Booking.ActiveClients(rels, coach);
    var registered := Filter(profiles, (p: Contact) => p.id in ids);
    var first := AsManual(manual);
    assert forall i :: 0 <= i < |manual| ==> ContactId(first[i]) == ContactId(manual[i]);
    AppendNew(first, registered)
  }

  /** A client's (or an admin's) contacts: the profiles of the coaches with
      an active relationship, none if there are no such relationships. */
  function ClientContacts(rels: map<Booking.Pair, Booking.Relationship>, profiles: Option<seq<Contact>>, self: string): (r: seq<Contact>)
    ensures forall i :: 0 <= i < |r| ==> r[i].id in Booking.ActiveCoaches(rels, self)
    ensures Booking.ActiveCoaches(rels, self) == {} ==> r == []
    ensures profiles.Some? ==> forall j :: 0 <= j < |profiles.value| && profiles.value[j].id in Booking.ActiveCoaches(rels, self) ==>
      profiles.value[j] in r
    ensures profiles.Some? ==>
      forall c :: multiset(r)[c] == if c.id in Booking.ActiveCoaches(rels, self) then multiset(profiles.value)[c] else 0
  {
    var ids := Booking.ActiveCoaches(rels, self);
    if ids == {} || profiles.None? then []
    else
      FilterCounts(profiles.value, ContactIn(ids));
      Filter(profiles.value, ContactIn(ids))
  }

  function ContactIn(ids: set<string>): Contact -> bool
  {
    (p: Contact) => p.id in ids
  }

  /** `fetchContacts`: the coach branch only for the coach role. */
  function Contacts(role: Option<Access.Role>, manual: seq<Contact>, rels: map<Booking.Pair, Booking.Relationship>,
                    profiles: seq<Contact>, self: string): (r: seq<Contact>)
    ensures role == Some(Access.Coach) ==> r == CoachContacts(manual, rels, profiles, self)
    ensures role != Some(Access.Coach) ==> r == ClientContacts(rels, Some(profiles), self)
  {
    if role == Some(Access.Coach) then CoachContacts(manual, rels, profiles, self)
    else ClientContacts(rels, Some(profiles), self)
  }

  /** Every registered client with an active relationship and a profile is
      offered to the coach. */
  lemma {:induction false} ActiveClientsAreContacts(manual: seq<Contact>, rels: map<Booking.Pair, Booking.Relationship>,
                                                    profiles: seq<Contact>, coach: string, j: nat)
    requires j < |profiles| && Booking.Pair(coach, profiles[j].id) in rels
    requires rels[Booking.Pair(coach, profiles[j].id)].status == Booking.StatusActive
    ensures profiles[j].id in IdsOf(CoachContacts(manual, rels, profiles, coach))
  {
    var ids := Booking.ActiveClients(rels, coach);
    var registered := Filter(profiles, (p: Contact) => p.id in ids);
    assert profiles[j] in registered;
    var k :| 0 <= k < |registered| && registered[k] == profiles[j];
    assert registered[k].id in IdsOf(AppendNew(manual, registered));
  }

  function ContactKept(search: string): Contact -> bool
  {
    (c: Contact) => NameMatches(c.firstName, c.lastName, search)
  }

  /** `filteredContacts`. */
  function FilteredContacts(cs: seq<Contact>, search: string): (r: seq<Contact>)
    ensures IsSubsequence(r, cs)
    ensures forall i :: 0 <= i < |r| ==> NameMatches(r[i].firstName, r[i].lastName, search)
    ensures forall i :: 0 <= i < |cs| && NameMatches(cs[i].firstName, cs[i].lastName, search) ==> cs[i] in r
    ensures forall c :: multiset(r)[c] == if NameMatches(c.firstName, c.lastName, search) then multiset(cs)[c] else 0
  {
    FilterCounts(cs, ContactKept(search));
    Filter(cs, ContactKept(search))
  }

  lemma {:induction false} EmptySearchKeepsContacts(cs: seq<Contact>)
    ensures FilteredContacts(cs, "") == cs
  {
    forall i | 0 <= i < |cs| ensures ContactKept("")(cs[i]) {
      EmptyTermMatches(cs[i].firstName, cs[i].lastName);
    }
    FilterKeepsAll(cs, ContactKept(""));
  }
}

=== FILE: media.dfy ===
/** A client's media upload, `src/components/ClientMediaUploadSelf.tsx`: the
    guard, the storage path built from the user id, the time and the file's
    extension, the `client_media` row and the notification to the chosen
    coach. */
module Media {
  import opened Common
  import Validation
  import Feed
  import Booking

  /** The selected file: its name and its MIME type. */
  datatype File = File(name: string, mimeType: string)

  /** A `client_media` row. */
  datatype MediaRow = MediaRow(
    clientId: string, coachId: string, filePath: string, title: string,
    description: Option<string>, mediaType: string, uploadedBy: string)

  /** What the upload reaches: the storage bucket's paths, the media table
      and the notifications table. */
  datatype Store = Store(files: seq<string>, media: seq<MediaRow>, notifications: seq<Feed.Notification>)

  datatype Toast = MissingInformation | UploadFailed | Uploaded

  const NewMediaKind := "new_media"
  const NewMediaTitle := "New Media Upload"

  /** `name.split(".").pop()`: the text after the last dot, the whole name
      when it has none. */
  function Extension(name: string): (r: string)
    ensures '.' !in r
    ensures |r| <= |name| && name[|name| - |r|..] == r
    ensures '.' !in name ==> r == name
    ensures '.' in name ==> |r| < |name| && name[|name| - |r| - 1] == '.'
    decreases |name|
  {
    if name == [] then []
    else if name[|name| - 1] == '.' then []
    else
      var front := name[..|name| - 1];
      assert name == front + [name[|name| - 1]];
      Extension(front) + [name[|name| - 1]]
  }

  /** Whatever precedes the last dot, the extension is what follows it. */
  lemma {:induction false} ExtensionAfterDot(stem: string, ext: string)
    requires '.' !in ext
    ensures Extension(stem + "." + ext) == ext
    decreases |ext|
  {
    if ext == [] {
      assert (stem + "." + ext)[|stem + "." + ext| - 1] == '.';
    } else {
      var s := stem + "." + ext;
      var front := ext[..|ext| - 1];
      assert s[..|s| - 1] == stem + "." + front;
      assert s[|s| - 1] == ext[|ext| - 1];
      ExtensionAfterDot(stem, front);
      assert ext == front + [ext[|ext| - 1]];
    }
  }

  /** `${user.id}/${Date.now()}.${fileExt}`. */
  function StoragePath(userId: string, now: nat, file: File): (p: string)
    ensures IsPrefix(userId + "/", p)
  {
    userId + "/" + NatToString(now) + "." + Extension(file.name)
  }

  /** The stored file keeps the extension of the file the user chose, and it
      lies in the user's own folder. */
  lemma StoragePathKeepsExtension(userId: string, now: nat, file: File)
    ensures Extension(StoragePath(userId, now, file)) == Extension(file.name)
    ensures IsPrefix(userId + "/", StoragePath(userId, now, file))
  {
    ExtensionAfterDot(userId + "/" + NatToString(now), Extension(file.name));
  }

  /** Two uploads by one user at different times go to different paths. */
  lemma {:induction false} DistinctTimesDistinctPaths(userId: string, t1: nat, t2: nat, f1: File, f2: File)
    requires t1 != t2
    ensures StoragePath(userId, t1, f1) != StoragePath(userId, t2, f2)
  {
    var d1, d2 := NatToString(t1), NatToString(t2);
    var r1, r2 := d1 + "." + Extension(f1.name), d2 + "." + Extension(f2.name);
    PathSplit(userId, t1, f1);
    PathSplit(userId, t2, f2);
    if r1 == r2 {
      DigitsBeforeDot(d1, Extension(f1.name), d2, Extension(f2.name));
      NatToStringInjective(t1, t2);
    } else {
      SamePrefixDifferentRest(userId + "/", r1, r2);
    }
  }

  lemma PathSplit(userId: string, t: nat, f: File)
    ensures StoragePath(userId, t, f) == (userId + "/") + (NatToString(t) + "." + Extension(f.name))
  {
    Regroup(userId + "/", NatToString(t), Extension(f.name));
  }

  lemma Regroup(a: string, d: string, e: string)
    ensures a + d + "." + e == a + (d + "." + e)
  {
  }

  lemma NatToStringInjective(t1: nat, t2: nat)
    requires NatToString(t1) == NatToString(t2)
    ensures t1 == t2
  {
    NatToStringRoundTrip(t1);
    NatToStringRoundTrip(t2);
  }

  lemma SamePrefixDifferentRest(a: string, b: string, c: string)
    requires b != c
    ensures a + b != a + c
  {
    assert (a + b)[|a|..] == b;
    assert (a + c)[|a|..] == c;
  }

  /** In a digit string followed by a dot, the first dot is the one after
      the digits. */
  lemma DotAfterDigits(d: string, e: string)
    requires forall i :: 0 <= i < |d| ==> IsDigit(d[i])
    ensures (d + "." + e)[|d|] == '.'
    ensures forall i :: 0 <= i < |d| ==> (d + "." + e)[i] != '.'
  {
    assert forall i :: 0 <= i < |d| ==> (d + "." + e)[i] == d[i];
  }

  /** A digit string followed by a dot is fixed by where the dot is. */
  lemma {:induction false} DigitsBeforeDot(d1: string, e1: string, d2: string, e2: string)
    requires forall i :: 0 <= i < |d1| ==> IsDigit(d1[i])
    requires forall i :: 0 <= i < |d2| ==> IsDigit(d2[i])
    requires d1 + "." + e1 == d2 + "." + e2
    ensures d1 == d2
  {
    DotAfterDigits(d1, e1);
    DotAfterDigits(d2, e2);
    assert |d1| == |d2|;
    assert (d1 + "." + e1)[..|d1|] == d1;
    assert (d2 + "." + e2)[..|d2|] == d2;
  }

  /** `media_type`: "video" exactly for a `video/` MIME type, "image"
      for anything else. */
  function MediaType(mimeType: string): (t: string)
    ensures t == "video" <==> IsPrefix("video/", mimeType)
    ensures t == "image" <==> !IsPrefix("video/", mimeType)
  {
    if IsPrefix("video/", mimeType) then "video" else "image"
  }

  /** The guard: a file, a title that is not blank, a chosen coach and a
      signed-in user. */
  predicate Ready(user: Option<string>, file: Option<File>, title: string, coach: string)
  {
    user.Some? && file.Some? && Trim(title) != "" && coach != ""
  }

  /** The `client_media` row of a successful upload. */
  function NewRow(uid: string, coach: string, path: string, title: string, description: string, file: File): (row: MediaRow)
    ensures row.clientId == uid && row.coachId == coach && row.filePath == path && row.uploadedBy == "client"
    ensures row.title == Trim(title) && (row.description.None? <==> Trim(description) == "")
    ensures row.mediaType == MediaType(file.mimeType)
  {
    MediaRow(uid, coach, path, Trim(title), Validation.NullIfEmpty(Trim(description)), MediaType(file.mimeType), "client")
  }

  /** The notification a successful upload sends to the coach. */
  function Notify(table: seq<Feed.Notification>, uid: string, coach: string, title: string, file: File,
                  profile: Option<Booking.Name>, notificationId: string, now: nat): (r: seq<Feed.Notification>)
    ensures |r| == |table| + 1 && r[..|table|] == table
    ensures var n := r[|table|];
      n.userId == coach && n.kind == NewMediaKind && !n.isRead && n.data == map["client_id" := uid, "title" := title]
  {
    Feed.CreateNotification(
      table, coach, NewMediaKind, NewMediaTitle,
      Booking.FullName(profile) + " uploaded a new " + MediaType(file.mimeType),
      Some(map["client_id" := uid, "title" := title]), notificationId, now)
  }

  /** `handleUpload`. The file is stored first; if that fails nothing else
      happens. The row is inserted next; if that fails the stored file stays
      but no row and no notification exist. Otherwise the coach is notified
      with the client's name as the profile query returned it. */
  function Upload(st: Store, user: Option<string>, file: Option<File>, title: string, description: string,
                  coach: string, now: nat, uploadOk: bool, insertOk: bool, profile: Option<Booking.Name>,
                  notificationId: string): (r: (Store, Toast))
    ensures !Ready(user, file, title, coach) ==> r == (st, MissingInformation)
    ensures r.1 == Uploaded <==> Ready(user, file, title, coach) && uploadOk && insertOk
    ensures r.0.files != st.files ==>
      Ready(user, file, title, coach) && uploadOk && r.0.files == st.files + [StoragePath(user.value, now, file.value)]
    ensures r.1 != Uploaded ==> r.0.media == st.media && r.0.notifications == st.notifications
    ensures r.1 == Uploaded ==>
      r.0.media == st.media + [NewRow(user.value, coach, StoragePath(user.value, now, file.value), title, description, file.value)]
    ensures r.1 == Uploaded ==>
      r.0.notifications == Notify(st.notifications, user.value, coach, title, file.value, profile, notificationId, now)
  {
    if !Ready(user, file, title, coach) then (st, MissingInformation)
    else if !uploadOk then (st, UploadFailed)
    else
      var uid := user.value;
      var path := StoragePath(uid, now, file.value);
      var files := st.files + [path];
      if !insertOk then (st.(files := files), UploadFailed)
      else
        var row := NewRow(uid, coach, path, title, description, file.value);
        (Store(files, st.media + [row], Notify(st.notifications, uid, coach, title, file.value, profile, notificationId, now)), Uploaded)
  }

  /** A successful upload tells the chosen coach, and only that coach, about
      the new media; the data carries the title as typed, untrimmed. */
  lemma UploadNotifiesCoach(st: Store, user: string, file: File, title: string, description: string,
                            coach: string, now: nat, profile: Option<Booking.Name>, notificationId: string)
    requires Ready(Some(user), Some(file), title, coach)
    ensures var r := Upload(st, Some(user), Some(file), title, description, coach, now, true, true, profile, notificationId);
      && r.0.notifications[..|st.notifications|] == st.notifications
      && |r.0.notifications| == |st.notifications| + 1
      && var n := r.0.notifications[|st.notifications|];
      && n.userId == coach && n.kind == NewMediaKind && !n.isRead
      && n.data == map["client_id" := user, "title" := title]
  {
  }

  /** A failed row insert leaves an orphaned file in storage and nothing in
      the table. */
  lemma FailedInsertLeavesFile(st: Store, user: string, file: File, title: string, description: string,
                               coach: string, now: nat, profile: Option<Booking.Name>, notificationId: string)
    requires Ready(Some(user), Some(file), title, coach)
    ensures var r := Upload(st, Some(user), Some(file), title, description, coach, now, true, false, profile, notificationId);
      r.0 == st.(files := st.files + [StoragePath(user, now, file)]) && r.1 == UploadFailed
  {
  }
}

=== FILE: pricing.dfy ===
/** The package editor of `src/pages/Pricing.tsx`: the required-field guard,
    the choice between updating the package being edited and inserting a
    new one, and the form reset that follows every accepted submit. */
module Pricing {
  import opened Common
  import opened Validation

  /** A row of `coach_packages`. The coach is null when the page had no
      user. Prices are whole numbers here. */
  datatype Package = Package(
    id: string, coachId: Option<string>, name: string, description: Option<string>,
    sessionCount: int, price: int, discount: int)

  datatype PackageForm = PackageForm(name: string, description: string, sessionCount: int, price: int, discount: int)

  const DefaultForm := PackageForm("", "", 1, 0, 0)

  /** The dialog: its form, the package being edited if any, and whether it
      is open. */
  datatype Editor = Editor(form: PackageForm, editing: Option<Package>, open: bool)

  const Closed := Editor(DefaultForm, None, false)

  /** The guard: a name, a positive price and a positive session count. */
  predicate Submittable(f: PackageForm)
  {
    f.name != "" && f.price > 0 && f.sessionCount > 0
  }

  /** The columns a submit writes. */
  function Written(p: Package, f: PackageForm): (r: Package)
    ensures r.id == p.id && r.coachId == p.coachId
    ensures r.description.None? <==> f.description == ""
  {
    p.(name := f.name, description := NullIfEmpty(f.description), sessionCount := f.sessionCount,
       price := f.price, discount := f.discount)
  }

  function UpdatePackage(ps: seq<Package>, id: string, f: PackageForm): (r: seq<Package>)
    ensures |r| == |ps|
    ensures forall i :: 0 <= i < |ps| ==> r[i] == (if ps[i].id == id then Written(ps[i], f) else ps[i])
    decreases |ps|
  {
    if ps == [] then []
    else [if ps[0].id == id then Written(ps[0], f) else ps[0]] + UpdatePackage(ps[1..], id, f)
  }

  /** `handleSubmitPackage`. A form failing the guard is kept and nothing is
      written. Otherwise the edited package is updated, or a new one
      inserted for the user; the write may fail, and either way the form
      is reset and the dialog closed. */
  function Submit(st: Editor, user: Option<string>, ps: seq<Package>, id: string, writeOk: bool): (r: (Editor, seq<Package>))
    ensures !Submittable(st.form) ==> r == (st, ps)
    ensures Submittable(st.form) ==> r.0 == Closed
    ensures r.1 != ps ==> Submittable(st.form) && writeOk
    ensures Submittable(st.form) && writeOk && st.editing.Some? ==> r.1 == UpdatePackage(ps, st.editing.value.id, st.form)
    ensures Submittable(st.form) && writeOk && st.editing.None? ==>
      r.1 == ps + [Written(Package(id, user, "", None, 0, 0, 0), st.form)]
  {
    if !Submittable(st.form) then (st, ps)
    else
      var written :=
        if !writeOk then ps
        else if st.editing.Some? then UpdatePackage(ps, st.editing.value.id, st.form)
        else ps + [Written(Package(id, user, "", None, 0, 0, 0), st.form)];
      (Closed, written)
  }

  /** A package that would pass the guard if opened for editing. */
  predicate ValidPackage(p: Package)
  {
    p.name != "" && p.price > 0 && p.sessionCount > 0
  }

  /** The guard keeps the package list valid: whatever the outcome of the
      write, a submit never stores a package without a name, a positive price
      and a positive session count. */
  lemma {:induction false} SubmitKeepsPackagesValid(st: Editor, user: Option<string>, ps: seq<Package>, id: string, writeOk: bool)
    requires forall i :: 0 <= i < |ps| ==> ValidPackage(ps[i])
    ensures var r := Submit(st, user, ps, id, writeOk);
      forall i :: 0 <= i < |r.1| ==> ValidPackage(r.1[i])
  {
    var r := Submit(st, user, ps, id, writeOk);
    if Submittable(st.form) && writeOk && st.editing.Some? {
      forall i | 0 <= i < |r.1| ensures ValidPackage(r.1[i]) {
        assert r.1[i] == (if ps[i].id == st.editing.value.id then Written(ps[i], st.form) else ps[i]);
      }
    }
  }

  /** `openEditDialog`: the form shows the package, a null description as "". */
  function OpenEdit(p: Package): (st: Editor)
    ensures st.editing == Some(p) && st.open
    ensures st.form.name == p.name && st.form.price == p.price && st.form.sessionCount == p.sessionCount
    ensures st.form.description == EmptyIfNull(p.description)
  {
    Editor(PackageForm(p.name, EmptyIfNull(p.description), p.sessionCount, p.price, p.discount), Some(p), true)
  }

  /** A new package is submittable only after the user fills in the guard's
      fields: the default form is not. */
  lemma DefaultFormRejected()
    ensures !Submittable(DefaultForm)
  {
  }

  /** Opening a package and saving it unchanged writes it back as it was,
      provided its description is not the empty string. */
  lemma {:induction false} EditUnchangedKeepsPackage(p: Package)
    requires p.description != Some("")
    ensures Written(p, OpenEdit(p).form) == p
  {
    NullableRoundTrip(p.description);
  }

  /** Saving an opened package, when the write succeeds, rewrites only rows
      with its id and leaves that row as it was. */
  lemma {:induction false} EditUnchangedKeepsTable(ps: seq<Package>, i: nat, user: Option<string>, id: string)
    requires i < |ps| && ps[i].description != Some("") && Submittable(OpenEdit(ps[i]).form)
    requires forall j :: 0 <= j < |ps| && ps[j].id == ps[i].id ==> ps[j] == ps[i]
    ensures Submit(OpenEdit(ps[i]), user, ps, id, true).1 == ps
  {
    EditUnchangedKeepsPackage(ps[i]);
    var r := UpdatePackage(ps, ps[i].id, OpenEdit(ps[i]).form);
    assert forall j :: 0 <= j < |ps| ==> r[j] == ps[j];
  }
}

=== FILE: sessions.dfy ===
/** Scheduling sessions: the client picker and insert of
    `src/components/AddSessionDialog.tsx`, and the drag-and-drop quick
    session, completion and client list of `src/pages/Schedule.tsx`. */
module Sessions {
  import opened Common
  import Feed
  import Booking

  /** A client as a picker lists it. */
  datatype Person = Person(id: string, firstName: string, lastName: string)

  /** A row of `sessions`. A session belongs either to a manual client
      (`clientId`) or to a registered user (`userClientId`). The date and
      time are kept as the form's texts. */
  datatype SessionRow = SessionRow(
    id: string, coachId: string, clientId: Option<string>, userClientId: Option<string>,
    day: string, time: string, duration: Option<int>, kind: string,
    location: Option<string>, status: Option<string>)

  const Upcoming := "upcoming"
  const Completed := "completed"

  // ---------------------------------------------------------------------------
  // AddSessionDialog: picker option ids
  // ---------------------------------------------------------------------------

  const RegisteredPrefix := "registered_"

  /** The option id of a registered client's profile. */
  function Encode(profileId: string): (r: string)
    ensures IsPrefix(RegisteredPrefix, r) && r[|RegisteredPrefix|..] == profileId
  {
    RegisteredPrefix + profileId
  }

  /** Where an option id goes in the session row. */
  datatype ClientRef = ClientRef(clientId: Option<string>, userClientId: Option<string>)

  /** The submit's split of the chosen option: a prefixed id loses its
      prefix and names a user; any other id names a manual client. */
  function Decode(option: string): (r: ClientRef)
    ensures r.clientId.Some? != r.userClientId.Some?
    ensures r.userClientId.Some? <==> IsPrefix(RegisteredPrefix, option)
    ensures r.clientId.Some? ==> r.clientId.value == option
  {
    if IsPrefix(RegisteredPrefix, option) then ClientRef(None, Some(option[|RegisteredPrefix|..]))
    else ClientRef(Some(option), None)
  }

  lemma DecodeEncode(profileId: string)
    ensures Decode(Encode(profileId)) == ClientRef(None, Some(profileId))
  {
  }

  /** Every prefixed option is the encoding of the user it decodes to. */
  lemma EncodeDecode(option: string)
    requires IsPrefix(RegisteredPrefix, option)
    ensures Encode(Decode(option).userClientId.value) == option
  {
    assert option == option[..|RegisteredPrefix|] + option[|RegisteredPrefix|..];
  }

  /** `.in("id", ids)` on the profiles table. */
  function ProfilesIn(profiles: seq<Person>, ids: set<string>): (r: seq<Person>)
    ensures forall i :: 0 <= i < |r| ==> r[i] in profiles && r[i].id in ids
    ensures forall i :: 0 <= i < |profiles| && profiles[i].id in ids ==> profiles[i] in r
    ensures forall p :: multiset(r)[p] == if p.id in ids then multiset(profiles)[p] else 0
  {
    FilterCounts(profiles, IdIn(ids));
    Filter(profiles, IdIn(ids))
  }

  function IdIn(ids: set<string>): Person -> bool
  {
    (p: Person) => p.id in ids
  }

  /** Registered profiles renamed to their option ids. */
  function AsOptions(ps: seq<Person>): (r: seq<Person>)
    ensures |r| == |ps|
    ensures forall i :: 0 <= i < |ps| ==> r[i] == ps[i].(id := Encode(ps[i].id))
    decreases |ps|
  {
    if ps == [] then [] else [ps[0].(id := Encode(ps[0].id))] + AsOptions(ps[1..])
  }

  /** The picker: the coach's manual clients, then every related profile
      under its prefixed id. */
  function PickerOptions(manual: seq<Person>, rels: map<Booking.Pair, Booking.Relationship>,
                         profiles: seq<Person>, coach: string): (r: seq<Person>)
    ensures |r| >= |manual| && r[..|manual|] == manual
    ensures forall j :: 0 <= j < |profiles| && profiles[j].id in Booking.RelatedClients(rels, coach) ==>
      profiles[j].(id := Encode(profiles[j].id)) in r[|manual|..]
  {
    var reg := ProfilesIn(profiles, Booking.RelatedClients(rels, coach));
    var opts := AsOptions(reg);
    forall j | 0 <= j < |profiles| && profiles[j].id in Booking.RelatedClients(rels, coach)
      ensures profiles[j].(id := Encode(profiles[j].id)) in opts
    {
      var k :| 0 <= k < |reg| && reg[k] == profiles[j];
      assert opts[k] == profiles[j].(id := Encode(profiles[j].id));
    }
    assert (manual + opts)[|manual|..] == opts;
    manual + opts
  }

  /** Choosing a registered option files the session under that user, who
      is a related client of the coach; choosing a manual option (one whose
      id does not carry the prefix) files it under that client. */
  lemma {:induction false} PickedOptionDecodes(manual: seq<Person>, rels: map<Booking.Pair, Booking.Relationship>,
                                               profiles: seq<Person>, coach: string, i: nat)
    requires i < |PickerOptions(manual, rels, profiles, coach)|
    requires forall j :: 0 <= j < |manual| ==> !IsPrefix(RegisteredPrefix, manual[j].id)
    ensures var o := PickerOptions(manual, rels, profiles, coach)[i];
      var d := Decode(o.id);
      (i < |manual| ==> d == ClientRef(Some(manual[i].id), None))
      && (i >= |manual| ==> d.userClientId.Some? && d.userClientId.value in Booking.RelatedClients(rels, coach))
  {
    var opts := PickerOptions(manual, rels, profiles, coach);
    if i >= |manual| {
      var reg := ProfilesIn(profiles, Booking.RelatedClients(rels, coach));
      var k := i - |manual|;
      assert opts[i] == AsOptions(reg)[k];
      DecodeEncode(reg[k].id);
    } else {
      assert opts[i] == manual[i];
    }
  }

  // ---------------------------------------------------------------------------
  // AddSessionDialog: the form and the insert
  // ---------------------------------------------------------------------------

  datatype SessionForm = SessionForm(
    option: string, day: string, time: string, duration: string, kind: string, location: string)

  /** The form after a successful submit; `today` stands for the clock. */
  function FreshForm(today: string): (f: SessionForm)
    ensures f.option == "" && f.location == "" && f.day == today
  {
    SessionForm("", today, "09:00", "60", "Training", "")
  }

  /** The submit button is disabled while submitting or with no client. */
  predicate SubmitEnabled(f: SessionForm, submitting: bool)
  {
    !submitting && f.option != ""
  }

  /** After a successful submit the reset form cannot be submitted again
      until a client is picked, and no form can be submitted twice at once. */
  lemma ResetFormDisablesSubmit(today: string, f: SessionForm)
    ensures forall submitting: bool :: !SubmitEnabled(FreshForm(today), submitting)
    ensures !SubmitEnabled(f, true)
    ensures SubmitEnabled(f, false) <==> f.option != ""
  {
  }

  /** The row a submit inserts. The duration goes through the runtime's
      integer parser, a parameter here; a text it rejects is stored as null. */
  function NewSession(f: SessionForm, coach: string, id: string, parse: string -> Option<int>): (r: SessionRow)
    ensures r.clientId == Decode(f.option).clientId && r.userClientId == Decode(f.option).userClientId
    ensures r.status == Some(Upcoming)
    ensures r.location.None? <==> f.location == ""
    ensures r.duration == parse(f.duration)
    ensures r.coachId == coach && r.id == id
  {
    var ref := Decode(f.option);
    SessionRow(id, coach, ref.clientId, ref.userClientId, f.day, f.time, parse(f.duration), f.kind,
               if f.location == "" then None else Some(f.location), Some(Upcoming))
  }

  datatype AddResult = AddResult(rows: seq<SessionRow>, form: SessionForm, open: bool)

  /** `handleSubmit`: no user or a failed insert changes nothing; success
      appends the row, resets the form and closes the dialog. */
  function AddSession(f: SessionForm, user: Option<string>, id: string, parse: string -> Option<int>,
                      rows: seq<SessionRow>, insertOk: bool, today: string): (r: AddResult)
    ensures user.None? || !insertOk ==> r == AddResult(rows, f, true)
    ensures user.Some? && insertOk ==> r == AddResult(rows + [NewSession(f, user.value, id, parse)], FreshForm(today), false)
  {
    if user.None? || !insertOk then AddResult(rows, f, true)
    else AddResult(rows + [NewSession(f, user.value, id, parse)], FreshForm(today), false)
  }

  /** Exactly one of the two client columns of an inserted session is set. */
  lemma SessionNamesOneClient(f: SessionForm, coach: string, id: string, parse: string -> Option<int>)
    ensures var r := NewSession(f, coach, id, parse);
      r.clientId.Some? != r.userClientId.Some?
  {
  }

  // ---------------------------------------------------------------------------
  // Schedule: the draggable client list
  // ---------------------------------------------------------------------------

  /** The suffix the list appends to a registered client's first name: a
      check mark, stored in the file with its bytes re-read as Windows-1252
      (U+00E2 U+0153 U+201C). */
  const CheckMark := " \U{E2}\U{153}\U{201C}"

  /** An entry of the draggable list. `registered` records which query it
      came from. */
  datatype Entry = Entry(person: Person, registered: bool)

  function ManualEntries(ps: seq<Person>): (r: seq<Entry>)
    ensures |r| == |ps|
    ensures forall i :: 0 <= i < |ps| ==> r[i] == Entry(ps[i], false)
    decreases |ps|
  {
    if ps == [] then [] else [Entry(ps[0], false)] + ManualEntries(ps[1..])
  }

  function RegisteredEntries(ps: seq<Person>): (r: seq<Entry>)
    ensures |r| == |ps|
    ensures forall i :: 0 <= i < |ps| ==>
      r[i] == Entry(ps[i].(firstName := ps[i].firstName + CheckMark), true)
    decreases |ps|
  {
    if ps == [] then []
    else [Entry(ps[0].(firstName := ps[0].firstName + CheckMark), true)] + RegisteredEntries(ps[1..])
  }

  /** `fetchClients`: the manual clients, then the profiles of active
      relationships with a check mark on their first names. */
  function ScheduleClients(manual: seq<Person>, rels: map<Booking.Pair, Booking.Relationship>,
                           profiles: seq<Person>, coach: string): (r: seq<Entry>)
    ensures |r| >= |manual|
    ensures forall i :: 0 <= i < |manual| ==> r[i] == Entry(manual[i], false)
    ensures forall i :: |manual| <= i < |r| ==> (r[i].registered && r[i].person.id in Booking.ActiveClients(rels, coach))
    ensures forall j :: 0 <= j < |profiles| && profiles[j].id in Booking.ActiveClients(rels, coach) ==>
      Entry(profiles[j].(firstName := profiles[j].firstName + CheckMark), true) in r[|manual|..]
  {
    var marked := RegisteredEntries(ProfilesIn(profiles, Booking.ActiveClients(rels, coach)));
    MarkedProfilesListed(profiles, Booking.ActiveClients(rels, coach));
    assert (ManualEntries(manual) + marked)[|manual|..] == marked;
    ManualEntries(manual) + marked
  }

  /** Every profile with a listed id appears, marked, among the registered entries. */
  lemma MarkedProfilesListed(profiles: seq<Person>, ids: set<string>)
    ensures forall j :: 0 <= j < |profiles| && profiles[j].id in ids ==>
      Entry(profiles[j].(firstName := profiles[j].firstName + CheckMark), true) in RegisteredEntries(ProfilesIn(profiles, ids))
  {
    var reg := ProfilesIn(profiles, ids);
    var marked := RegisteredEntries(reg);
    forall j | 0 <= j < |profiles| && profiles[j].id in ids
      ensures Entry(profiles[j].(firstName := profiles[j].firstName + CheckMark), true) in marked
    {
      var k :| 0 <= k < |reg| && reg[k] == profiles[j];
      assert marked[k] == Entry(profiles[j].(firstName := profiles[j].firstName + CheckMark), true);
    }
  }

  /** A registered entry is a fetched profile with a check mark appended
      to its first name. */
  lemma {:induction false} RegisteredNamesMarked(manual: seq<Person>, rels: map<Booking.Pair, Booking.Relationship>,
                                                 profiles: seq<Person>, coach: string, i: nat)
    requires |manual| <= i < |ScheduleClients(manual, rels, profiles, coach)|
    ensures exists p :: (p in profiles
                         && ScheduleClients(manual, rels, profiles, coach)[i].person == p.(firstName := p.firstName + CheckMark))
  {
    var reg := ProfilesIn(profiles, Booking.ActiveClients(rels, coach));
    var k := i - |manual|;
    assert ScheduleClients(manual, rels, profiles, coach)[i] == RegisteredEntries(reg)[k];
    assert reg[k] in profiles;
  }

  // ---------------------------------------------------------------------------
  // Schedule: quick sessions by drag and drop
  // ---------------------------------------------------------------------------

  /** `createQuickSession` as written: whatever list the client came from,
      its id goes into `client_id`. */
  function QuickSessionAsWritten(coach: string, clientId: string, day: string, id: string): (r: SessionRow)
    ensures r.clientId == Some(clientId) && r.userClientId.None?
    ensures r.time == "09:00" && r.duration == Some(60) && r.kind == "Training" && r.status == Some(Upcoming)
  {
    SessionRow(id, coach, Some(clientId), None, day, "09:00", Some(60), "Training", None, Some(Upcoming))
  }

  /** The quick session filed the way the add dialog files it: a registered
      client's profile id goes into `user_client_id`. */
  function QuickSession(coach: string, e: Entry, day: string, id: string): (r: SessionRow)
    ensures r.clientId.Some? != r.userClientId.Some?
    ensures e.registered ==> r.userClientId == Some(e.person.id)
    ensures !e.registered ==> r.clientId == Some(e.person.id)
    ensures r.time == "09:00" && r.duration == Some(60) && r.kind == "Training" && r.status == Some(Upcoming)
  {
    if e.registered then SessionRow(id, coach, None, Some(e.person.id), day, "09:00", Some(60), "Training", None, Some(Upcoming))
    else QuickSessionAsWritten(coach, e.person.id, day, id)
  }

  /** The `sessions.client_id` foreign key: a set client id must be a row of
      `clients`. */
  predicate ClientKeyHolds(r: SessionRow, clientIds: set<string>)
  {
    r.clientId.None? || r.clientId.value in clientIds
  }

  /** Dragging a registered client whose profile id is not also a manual
      client's id produces a row the foreign key rejects, and that row would
      name no user to notify on completion. */
  lemma RegisteredDropMisfiled(coach: string, e: Entry, day: string, id: string, clientIds: set<string>)
    requires e.registered && e.person.id !in clientIds
    ensures !ClientKeyHolds(QuickSessionAsWritten(coach, e.person.id, day, id), clientIds)
    ensures QuickSessionAsWritten(coach, e.person.id, day, id).userClientId.None?
  {
  }

  /** With the correction, every entry of the list yields a row the foreign
      key accepts, provided the manual clients are rows of `clients`. */
  lemma {:induction false} QuickSessionKeyHolds(manual: seq<Person>, rels: map<Booking.Pair, Booking.Relationship>,
                                                profiles: seq<Person>, coach: string, i: nat,
                                                day: string, id: string, clientIds: set<string>)
    requires forall j :: 0 <= j < |manual| ==> manual[j].id in clientIds
    requires i < |ScheduleClients(manual, rels, profiles, coach)|
    ensures ClientKeyHolds(QuickSession(coach, ScheduleClients(manual, rels, profiles, coach)[i], day, id), clientIds)
  {
    var list := ScheduleClients(manual, rels, profiles, coach);
    if i < |manual| {
      assert list[i] == Entry(manual[i], false);
    } else {
      assert list[i].registered;
    }
  }

  /** What is being dragged and the day under the finger. */
  datatype Drag = Drag(dragged: Option<Entry>, target: Option<string>)

  const Idle := Drag(None, None)

  /** `createQuickSession` as written: the insert of the as-written row.
      The store refuses it when the foreign key does not hold; `insertOk`
      stands for every other failure. No user or a refused insert adds
      nothing. */
  function CreateQuick(rows: seq<SessionRow>, user: Option<string>, e: Entry, day: string, id: string,
                       clientIds: set<string>, insertOk: bool): (r: seq<SessionRow>)
    ensures r == rows || (user.Some? && insertOk && r == rows + [QuickSessionAsWritten(user.value, e.person.id, day, id)])
    ensures r != rows <==> user.Some? && insertOk && e.person.id in clientIds
  {
    if user.Some? && insertOk && ClientKeyHolds(QuickSessionAsWritten(user.value, e.person.id, day, id), clientIds)
    then rows + [QuickSessionAsWritten(user.value, e.person.id, day, id)]
    else rows
  }

  /** `handleDrop` as written: a session on the dropped-on day if a client
      is being dragged; the drag is cleared either way. */
  function Drop(d: Drag, day: string, rows: seq<SessionRow>, user: Option<string>, id: string,
                clientIds: set<string>, insertOk: bool): (r: (Drag, seq<SessionRow>))
    ensures r.0 == Idle
    ensures d.dragged.None? ==> r.1 == rows
    ensures d.dragged.Some? ==> r.1 == CreateQuick(rows, user, d.dragged.value, day, id, clientIds, insertOk)
  {
    (Idle, if d.dragged.Some? then CreateQuick(rows, user, d.dragged.value, day, id, clientIds, insertOk) else rows)
  }

  /** `handleTouchEnd` as written: as a drop, on the day last touched, and
      only when there is one. */
  function TouchEnd(d: Drag, rows: seq<SessionRow>, user: Option<string>, id: string,
                    clientIds: set<string>, insertOk: bool): (r: (Drag, seq<SessionRow>))
    ensures r.0 == Idle
    ensures d.dragged.None? || d.target.None? ==> r.1 == rows
    ensures d.dragged.Some? && d.target.Some? ==> r == Drop(d, d.target.value, rows, user, id, clientIds, insertOk)
  {
    if d.dragged.Some? && d.target.Some? then Drop(d, d.target.value, rows, user, id, clientIds, insertOk)
    else (Idle, rows)
  }

  /** As written, dropping or touching a registered client whose profile id
      is not a manual client's id onto a day schedules nothing, however the
      rest of the insert goes. */
  lemma RegisteredDropSchedulesNothing(d: Drag, day: string, rows: seq<SessionRow>, user: Option<string>, id: string,
                                       clientIds: set<string>, insertOk: bool)
    requires d.dragged.Some? && d.dragged.value.registered && d.dragged.value.person.id !in clientIds
    ensures Drop(d, day, rows, user, id, clientIds, insertOk).1 == rows
    ensures TouchEnd(d, rows, user, id, clientIds, insertOk).1 == rows
  {
  }

  /** Corrected `createQuickSession`: the insert of the corrected row, under
      the same foreign key. */
  function CreateQuickCorrected(rows: seq<SessionRow>, user: Option<string>, e: Entry, day: string, id: string,
                                clientIds: set<string>, insertOk: bool): (r: seq<SessionRow>)
    ensures r == rows || (user.Some? && insertOk && r == rows + [QuickSession(user.value, e, day, id)])
    ensures r != rows <==> user.Some? && insertOk && (e.registered || e.person.id in clientIds)
  {
    if user.Some? && insertOk && ClientKeyHolds(QuickSession(user.value, e, day, id), clientIds)
    then rows + [QuickSession(user.value, e, day, id)]
    else rows
  }

  /** Corrected `handleDrop`. */
  function DropCorrected(d: Drag, day: string, rows: seq<SessionRow>, user: Option<string>, id: string,
                         clientIds: set<string>, insertOk: bool): (r: (Drag, seq<SessionRow>))
    ensures r.0 == Idle
    ensures d.dragged.None? ==> r.1 == rows
    ensures d.dragged.Some? ==> r.1 == CreateQuickCorrected(rows, user, d.dragged.value, day, id, clientIds, insertOk)
  {
    (Idle, if d.dragged.Some? then CreateQuickCorrected(rows, user, d.dragged.value, day, id, clientIds, insertOk) else rows)
  }

  /** Corrected `handleTouchEnd`. */
  function TouchEndCorrected(d: Drag, rows: seq<SessionRow>, user: Option<string>, id: string,
                             clientIds: set<string>, insertOk: bool): (r: (Drag, seq<SessionRow>))
    ensures r.0 == Idle
    ensures d.dragged.None? || d.target.None? ==> r.1 == rows
    ensures d.dragged.Some? && d.target.Some? ==> r == DropCorrected(d, d.target.value, rows, user, id, clientIds, insertOk)
  {
    if d.dragged.Some? && d.target.Some? then DropCorrected(d, d.target.value, rows, user, id, clientIds, insertOk)
    else (Idle, rows)
  }

  /** The correction changes nothing for a manual client. */
  lemma CorrectionKeepsManualDrops(d: Drag, day: string, rows: seq<SessionRow>, user: Option<string>, id: string,
                                   clientIds: set<string>, insertOk: bool)
    requires d.dragged.Some? && !d.dragged.value.registered
    ensures DropCorrected(d, day, rows, user, id, clientIds, insertOk) == Drop(d, day, rows, user, id, clientIds, insertOk)
    ensures TouchEndCorrected(d, rows, user, id, clientIds, insertOk) == TouchEnd(d, rows, user, id, clientIds, insertOk)
  {
  }

  /** With the correction, dropping any entry of the list schedules it once
      the insert otherwise succeeds, provided the manual clients are rows of
      `clients`. */
  lemma {:induction false} CorrectedDropSchedules(manual: seq<Person>, rels: map<Booking.Pair, Booking.Relationship>,
                                                  profiles: seq<Person>, coach: string, i: nat,
                                                  day: string, rows: seq<SessionRow>, id: string, clientIds: set<string>)
    requires forall j :: 0 <= j < |manual| ==> manual[j].id in clientIds
    requires i < |ScheduleClients(manual, rels, profiles, coach)|
    ensures var e := ScheduleClients(manual, rels, profiles, coach)[i];
      DropCorrected(Drag(Some(e), None), day, rows, Some(coach), id, clientIds, true).1
        == rows + [QuickSession(coach, e, day, id)]
  {
    QuickSessionKeyHolds(manual, rels, profiles, coach, i, day, id, clientIds);
  }

  // ---------------------------------------------------------------------------
  // Schedule: completing a session
  // ---------------------------------------------------------------------------

  /** "Mark Complete" is offered for every session not yet completed,
      including one with no status. */
  predicate CanMarkComplete(s: SessionRow)
  {
    s.status != Some(Completed)
  }

  /** A newly added session offers "Mark Complete"; completing a session
      withdraws the offer for it and leaves the other sessions' offers as
      they were. */
  lemma CompletionWithdrawsOffer(rows: seq<SessionRow>, id: string, f: SessionForm, coach: string, newId: string,
                                 parse: string -> Option<int>)
    ensures CanMarkComplete(NewSession(f, coach, newId, parse))
    ensures var r := SetStatus(rows, id, Completed);
      forall i :: 0 <= i < |rows| ==> (CanMarkComplete(r[i]) <==> rows[i].id != id && CanMarkComplete(rows[i]))
  {
  }

  function SetStatus(rows: seq<SessionRow>, id: string, status: string): (r: seq<SessionRow>)
    ensures |r| == |rows|
    ensures forall i :: 0 <= i < |rows| ==> r[i] == (if rows[i].id == id then rows[i].(status := Some(status)) else rows[i])
    decreases |rows|
  {
    if rows == [] then []
    else [if rows[0].id == id then rows[0].(status := Some(status)) else rows[0]] + SetStatus(rows[1..], id, status)
  }

  function WithId(id: string): SessionRow -> bool
  {
    (s: SessionRow) => s.id == id
  }

  /** `.eq("id", id).single()`: the row when exactly one has the id. */
  function Single(rows: seq<SessionRow>, id: string): (r: Option<SessionRow>)
    ensures r.Some? ==> r.value in rows && r.value.id == id
    ensures r.Some? <==> exists i :: 0 <= i < |rows| && rows[i].id == id && forall j :: 0 <= j < |rows| && rows[j].id == id ==> j == i
  {
    FilterOne(rows, WithId(id));
    OnlyAtWithId(rows, id);
    var hits := Filter(rows, WithId(id));
    if |hits| == 1 then Some(hits[0]) else None
  }

  lemma OnlyAtWithId(rows: seq<SessionRow>, id: string)
    ensures (exists i :: OnlyAt(rows, WithId(id), i))
      <==> exists i :: 0 <= i < |rows| && rows[i].id == id && forall j :: 0 <= j < |rows| && rows[j].id == id ==> j == i
  {
    if exists i :: 0 <= i < |rows| && rows[i].id == id && forall j :: 0 <= j < |rows| && rows[j].id == id ==> j == i {
      var i :| 0 <= i < |rows| && rows[i].id == id && forall j :: 0 <= j < |rows| && rows[j].id == id ==> j == i;
      assert OnlyAt(rows, WithId(id), i);
    }
  }

  function CompletionMessage(kind: string, coach: Option<Booking.Name>): (r: string)
    ensures IsInfix(kind, r)
    ensures IsInfix(Booking.FullName(coach), r)
  {
    var name := Booking.FullName(coach);
    var (head, middle, tail) := ("Your ", " session with ", " has been marked as complete.");
    InfixOfAffix(head, kind, middle + name + tail);
    InfixOfAffix(head + kind + middle, name, tail);
    assert head + kind + (middle + name + tail) == head + kind + middle + name + tail;
    head + kind + middle + name + tail
  }

  /** `markSessionComplete`. A failed update writes nothing. Otherwise the
      session is completed, and, when there is a user and the stored row
      names a (non-empty) user client, that user is sent a
      "session_completed" notification carrying the session id. */
  function MarkComplete(s: SessionRow, rows: seq<SessionRow>, updateOk: bool, user: Option<string>,
                        coach: Option<Booking.Name>, table: seq<Feed.Notification>, nid: string, now: int)
    : (r: (seq<SessionRow>, seq<Feed.Notification>))
    ensures !updateOk ==> r == (rows, table)
    ensures updateOk ==> r.0 == SetStatus(rows, s.id, Completed)
    ensures |r.1| == |table| || |r.1| == |table| + 1
    ensures |r.1| == |table| + 1 <==>
      updateOk && user.Some? && Single(r.0, s.id).Some? && Single(r.0, s.id).value.userClientId.Some?
      && Single(r.0, s.id).value.userClientId.value != ""
    ensures |r.1| == |table| + 1 ==>
      var n := r.1[|table|];
      n.userId == Single(r.0, s.id).value.userClientId.value && n.kind == "session_completed"
      && n.data == map["session_id" := s.id]
  {
    if !updateOk then (rows, table)
    else
      var updated := SetStatus(rows, s.id, Completed);
      var stored := Single(updated, s.id);
      if user.Some? && stored.Some? && stored.value.userClientId.Some? && stored.value.userClientId.value != "" then
        (updated, Feed.CreateNotification(table, stored.value.userClientId.value, "session_completed",
                                          "Session Completed", CompletionMessage(s.kind, coach),
                                          Some(map["session_id" := s.id]), nid, now))
      else (updated, table)
  }

  /** Completing a session of a manual client notifies nobody. */
  lemma ManualSessionCompletesQuietly(s: SessionRow, rows: seq<SessionRow>, user: Option<string>,
                                      coach: Option<Booking.Name>, table: seq<Feed.Notification>, nid: string, now: int)
    requires forall i :: 0 <= i < |rows| && rows[i].id == s.id ==> rows[i].userClientId.None?
    ensures MarkComplete(s, rows, true, user, coach, table, nid, now).1 == table
  {
    var updated := SetStatus(rows, s.id, Completed);
    var stored := Single(updated, s.id);
    if stored.Some? {
      var k :| 0 <= k < |updated| && updated[k] == stored.value;
      assert rows[k].id == s.id;
    }
  }

  /** With the corrected quick session, dragging a registered client onto a
      day and later completing that session notifies the client. */
  lemma {:induction false} QuickSessionThenComplete(coach: string, e: Entry, day: string, id: string,
                                                    rows: seq<SessionRow>, table: seq<Feed.Notification>,
                                                    who: Option<Booking.Name>, nid: string, now: int,
                                                    clientIds: set<string>)
    requires e.registered && e.person.id != ""
    requires forall i :: 0 <= i < |rows| ==> rows[i].id != id
    ensures var rows1 := CreateQuickCorrected(rows, Some(coach), e, day, id, clientIds, true);
      var r := MarkComplete(QuickSession(coach, e, day, id), rows1, true, Some(coach), who, table, nid, now);
      |r.1| == |table| + 1 && r.1[|table|].userId == e.person.id
  {
    var q := QuickSession(coach, e, day, id);
    var rows1 := rows + [q];
    var updated := SetStatus(rows1, id, Completed);
    var p := WithId(id);
    assert updated == SetStatus(rows, id, Completed) + [q.(status := Some(Completed))];
    assert forall i :: 0 <= i < |SetStatus(rows, id, Completed)| ==> !p(SetStatus(rows, id, Completed)[i]);
    FilterNone(SetStatus(rows, id, Completed), p);
    FilterAppend(SetStatus(rows, id, Completed), [q.(status := Some(Completed))], p);
    assert Filter([q.(status := Some(Completed))], p) == [q.(status := Some(Completed))];
    assert Single(updated, id) == Some(q.(status := Some(Completed)));
  }
}

=== FILE: settings.dfy ===
/** The coach's settings page, `src/pages/Settings.tsx`: the profile loaded
    into the form with defaults for null columns, the certification list
    editing, and the save. */
module Settings {
  import opened Common

  /** The profile columns the page reads; any of them may be null. */
  datatype ProfileRow = ProfileRow(
    firstName: Option<string>, lastName: Option<string>, email: Option<string>, phone: Option<string>,
    bio: Option<string>, sport: Option<string>, experience: Option<int>,
    certifications: Option<seq<string>>, isAvailable: Option<bool>, avatar: Option<string>,
    whatsapp: Option<string>, telegram: Option<string>)

  /** The page's form state. */
  datatype ProfileForm = ProfileForm(
    firstName: string, lastName: string, email: string, phone: string, bio: string, sport: string,
    experience: int, certifications: seq<string>, isAvailable: bool, avatar: Option<string>,
    whatsapp: string, telegram: string)

  /** `x || ""`: null and "" both read as "". */
  function Text(x: Option<string>): (r: string)
    ensures x.Some? ==> r == x.value
    ensures x.None? ==> r == ""
  {
    if x.Some? then x.value else ""
  }

  /** `fetchProfile`. Texts default to "", the experience to 0 (a stored 0
      reads as 0 too), the certifications to none, availability to true
      only when null (a stored false stays false), and an empty avatar URL
      to null. */
  function Load(p: ProfileRow): (f: ProfileForm)
    ensures p.isAvailable.None? ==> f.isAvailable
    ensures p.isAvailable.Some? ==> f.isAvailable == p.isAvailable.value
    ensures p.experience.None? ==> f.experience == 0
    ensures p.certifications.None? ==> f.certifications == []
    ensures f.avatar.None? <==> p.avatar.None? || p.avatar.value == ""
    ensures f.firstName == Text(p.firstName) && f.telegram == Text(p.telegram)
    ensures f.lastName == Text(p.lastName) && f.email == Text(p.email) && f.phone == Text(p.phone)
    ensures f.bio == Text(p.bio) && f.sport == Text(p.sport) && f.whatsapp == Text(p.whatsapp)
    ensures p.experience.Some? ==> f.experience == p.experience.value
    ensures p.certifications.Some? ==> f.certifications == p.certifications.value
    ensures f.avatar.Some? ==> f.avatar == p.avatar
  {
    ProfileForm(Text(p.firstName), Text(p.lastName), Text(p.email), Text(p.phone), Text(p.bio), Text(p.sport),
                if p.experience.Some? then p.experience.value else 0,
                if p.certifications.Some? then p.certifications.value else [],
                if p.isAvailable.Some? then p.isAvailable.value else true,
                if p.avatar.Some? && p.avatar.value != "" then p.avatar else None,
                Text(p.whatsapp), Text(p.telegram))
  }

  /** `handleSave`: the editable columns are written as the form holds
      them; e-mail and avatar are not written. A failed update (the error
      toast) leaves the row as it was. */
  function Save(p: ProfileRow, f: ProfileForm, updateOk: bool): (r: ProfileRow)
    ensures r.email == p.email && r.avatar == p.avatar
    ensures !updateOk ==> r == p
  {
    if !updateOk then p
    else p.(firstName := Some(f.firstName), lastName := Some(f.lastName), phone := Some(f.phone), bio := Some(f.bio),
       sport := Some(f.sport), experience := Some(f.experience), certifications := Some(f.certifications),
       isAvailable := Some(f.isAvailable), whatsapp := Some(f.whatsapp), telegram := Some(f.telegram))
  }

  /** Saving and reloading shows the saved form again, except for the two
      columns the save does not write. */
  lemma SaveThenLoad(p: ProfileRow, f: ProfileForm)
    ensures Load(Save(p, f, true)) == f.(email := Text(p.email), avatar := Load(p).avatar)
  {
  }

  /** Saving the form as loaded and reloading changes nothing the page
      shows. */
  lemma SaveUnchangedIsStable(p: ProfileRow)
    ensures Load(Save(p, Load(p), true)) == Load(p)
  {
    SaveThenLoad(p, Load(p));
  }

  // ---------------------------------------------------------------------------
  // Certifications
  // ---------------------------------------------------------------------------

  /** `handleAddCert`: the trimmed input is appended when it is non-empty
      and not yet listed, and the input is cleared; otherwise nothing
      changes. */
  function AddCert(certs: seq<string>, input: string): (r: (seq<string>, string))
    ensures var t := Trim(input);
      (t != "" && t !in certs ==> r == (certs + [t], ""))
      && (t == "" || t in certs ==> r == (certs, input))
  {
    var t := Trim(input);
    if t != "" && t !in certs then (certs + [t], "") else (certs, input)
  }

  /** A duplicate-free list stays duplicate-free. */
  lemma AddCertKeepsDistinct(certs: seq<string>, input: string)
    requires Distinct(certs)
    ensures Distinct(AddCert(certs, input).0)
  {
    var t := Trim(input);
    if t != "" && t !in certs {
      var r := certs + [t];
      forall i, j | 0 <= i < j < |r| ensures r[i] != r[j] {
        if j == |certs| {
          assert r[i] == certs[i];
        }
      }
    }
  }

  /** Every certification the list holds is trimmed and non-empty, if it
      was so before. */
  lemma AddCertKeepsTrimmed(certs: seq<string>, input: string)
    requires forall i :: 0 <= i < |certs| ==> certs[i] != "" && Trim(certs[i]) == certs[i]
    ensures var r := AddCert(certs, input).0;
      forall i :: 0 <= i < |r| ==> r[i] != "" && Trim(r[i]) == r[i]
  {
    TrimIdempotent(input);
  }

  function Differs(cert: string): string -> bool
  {
    (c: string) => c != cert
  }

  /** `handleRemoveCert`: every occurrence of the value goes, the others stay
      in order. */
  function RemoveCert(certs: seq<string>, cert: string): (r: seq<string>)
    ensures cert !in r
    ensures forall i :: 0 <= i < |certs| && certs[i] != cert ==> certs[i] in r
    ensures IsSubsequence(r, certs)
    ensures forall c :: multiset(r)[c] == if c != cert then multiset(certs)[c] else 0
  {
    FilterCounts(certs, Differs(cert));
    Filter(certs, Differs(cert))
  }

  /** Adding a new certification and then removing it restores the list. */
  lemma {:induction false} AddThenRemove(certs: seq<string>, input: string)
    requires Trim(input) != "" && Trim(input) !in certs
    ensures RemoveCert(AddCert(certs, input).0, Trim(input)) == certs
  {
    var t := Trim(input);
    FilterAppend(certs, [t], Differs(t));
    FilterKeepsAll(certs, Differs(t));
    assert Filter([t], Differs(t)) == [];
  }
}

=== FILE: sorting.dfy ===
/** Newest-first ordering: the stable descending sort that stands for the
    database's `ORDER BY ... DESC` and for `Array.prototype.sort` with a
    `b - a` comparator, and the facts the inbox and the feed need about it. */
module Sorting {
  import opened Common

  /** `key` never increases along `s`. */
  predicate SortedDesc<T>(s: seq<T>, key: T -> int)
  {
    forall i, j :: 0 <= i < j < |s| ==> key(s[i]) >= key(s[j])
  }

  /** Inserts `x` before the first element whose key is not larger. */
  function InsertDesc<T(==)>(x: T, s: seq<T>, key: T -> int): (r: seq<T>)
    requires SortedDesc(s, key)
    ensures SortedDesc(r, key)
    ensures multiset(r) == multiset(s) + multiset{x}
    ensures |r| == |s| + 1
    decreases |s|
  {
    if s == [] || key(x) >= key(s[0]) then ConsSorted(x, s, key); [x] + s
    else
      var rest := s[1..];
      assert SortedDesc(rest, key);
      var t := InsertDesc(x, rest, key);
      assert |rest| > 0 ==> key(s[0]) >= key(rest[0]);
      ConsSorted(s[0], t, key);
      assert s == [s[0]] + rest;
      ConsMultiset(s[0], t);
      ConsMultiset(s[0], rest);
      [s[0]] + t
  }

  /** A stable sort by descending key (the order `Array.prototype.sort` gives
      with a `b - a` comparator; a database `ORDER BY ... DESC` is one of its
      possible outcomes). */
  function SortDesc<T(==)>(s: seq<T>, key: T -> int): (r: seq<T>)
    ensures SortedDesc(r, key)
    ensures multiset(r) == multiset(s)
    ensures |r| == |s|
    decreases |s|
  {
    if s == [] then []
    else
      assert s == [s[0]] + s[1..];
      InsertDesc(s[0], SortDesc(s[1..], key), key)
  }

  /** Sorting neither adds nor loses an element. */
  lemma SortDescSameElements<T>(s: seq<T>, key: T -> int)
    ensures forall i :: 0 <= i < |SortDesc(s, key)| ==> SortDesc(s, key)[i] in s
    ensures forall i :: 0 <= i < |s| ==> s[i] in SortDesc(s, key)
  {
    var r := SortDesc(s, key);
    forall i | 0 <= i < |r| ensures r[i] in s {
      assert r[i] in multiset(r);
    }
    forall i | 0 <= i < |s| ensures s[i] in r {
      assert s[i] in multiset(s);
    }
  }

  /** A property every element has survives sorting. */
  lemma SortKeepsAll<T>(s: seq<T>, key: T -> int, P: T -> bool)
    requires forall i :: 0 <= i < |s| ==> P(s[i])
    ensures forall j :: 0 <= j < |SortDesc(s, key)| ==> P(SortDesc(s, key)[j])
  {
    var r := SortDesc(s, key);
    SortDescSameElements(s, key);
    forall j | 0 <= j < |r| ensures P(r[j]) {
      var i :| 0 <= i < |s| && s[i] == r[j];
    }
  }

  /** A prefix of a sorted sequence is sorted. */
  lemma TakeKeepsSortedDesc<T>(s: seq<T>, n: nat, key: T -> int)
    requires SortedDesc(s, key)
    ensures SortedDesc(Take(s, n), key)
  {
    var r := Take(s, n);
    forall i, j | 0 <= i < j < |r| ensures key(r[i]) >= key(r[j]) {
      assert r[i] == s[i] && r[j] == s[j];
    }
  }

  /** A filter keeps the order of a sorted input. */
  lemma {:induction false} FilterKeepsSortedDesc<T>(s: seq<T>, p: T -> bool, key: T -> int)
    requires SortedDesc(s, key)
    ensures SortedDesc(Filter(s, p), key)
    decreases |s|
  {
    if s != [] {
      var rest := s[1..];
      assert SortedDesc(rest, key);
      FilterKeepsSortedDesc(rest, p, key);
      var t := Filter(rest, p);
      if p(s[0]) {
        assert Filter(s, p) == [s[0]] + t;
        if |t| > 0 {
          assert t[0] in rest;
          var k :| 0 <= k < |rest| && rest[k] == t[0];
          assert s[k + 1] == t[0];
        }
        ConsSorted(s[0], t, key);
      } else {
        assert Filter(s, p) == t;
      }
    }
  }

  /** Putting an element no smaller than the head in front keeps the order. */
  lemma ConsSorted<T>(h: T, t: seq<T>, key: T -> int)
    requires SortedDesc(t, key)
    requires |t| > 0 ==> key(h) >= key(t[0])
    ensures SortedDesc([h] + t, key)
  {
    var r := [h] + t;
    forall i, j | 0 <= i < j < |r| ensures key(r[i]) >= key(r[j]) {
      if i == 0 {
        assert r[j] == t[j - 1];
        assert key(t[0]) >= key(t[j - 1]) || j - 1 == 0;
      } else {
        assert r[i] == t[i - 1] && r[j] == t[j - 1];
      }
    }
  }

  /** A sort that only permutes keeps the elements apart under any projection
      `f` that already told them apart. */
  lemma {:induction false} SortKeepsDistinct<T, K>(s: seq<T>, key: T -> int, f: T -> K)
    requires DistinctBy(s, f)
    ensures DistinctBy(SortDesc(s, key), f)
    decreases |s|
  {
    if s != [] {
      SortKeepsDistinct(s[1..], key, f);
      var t := SortDesc(s[1..], key);
      forall y | y in t ensures f(y) != f(s[0]) {
        assert y in multiset(s[1..]);
        var k :| 0 <= k < |s[1..]| && s[1..][k] == y;
        assert s[k + 1] == y;
      }
      InsertKeepsDistinct(s[0], t, key, f);
    }
  }

  lemma {:induction false} InsertKeepsDistinct<T, K>(x: T, s: seq<T>, key: T -> int, f: T -> K)
    requires SortedDesc(s, key)
    requires DistinctBy(s, f)
    requires forall y :: y in s ==> f(y) != f(x)
    ensures DistinctBy(InsertDesc(x, s, key), f)
    decreases |s|
  {
    if s != [] && key(x) < key(s[0]) {
      InsertKeepsDistinct(x, s[1..], key, f);
      var t := InsertDesc(x, s[1..], key);
      forall y | y in t ensures f(y) != f(s[0]) {
        assert y in multiset(t);
        if y != x {
          var k :| 0 <= k < |s[1..]| && s[1..][k] == y;
          assert s[k + 1] == y;
        }
      }
    }
  }
}

=== FILE: validation.dfy ===
/** The schema checks the forms share: a field's value is checked in order
    and every failed check becomes an issue; a form is accepted iff it has
    no issues, and the toast shows the first one. The e-mail syntax check
    belongs to the validation library and is a parameter. */
module Validation {
  import opened Common

  datatype Field =
    | FirstName | LastName | Email | Phone | Password | ConfirmPassword | RoleField
    | Sport | Level | HealthInfo | SessionsRemaining

  datatype Problem =
    | Required(message: string)
    | TooShort(message: string)
    | TooLong(max: nat)
    | BadEmail(message: string)
    | NotARole
    | Negative
    | Mismatch(message: string)

  datatype Issue = Issue(field: Field, problem: Problem)

  /** A `.min(min, short).max(max)` string check. */
  function Bounded(field: Field, s: string, min: nat, short: Problem, max: nat): (r: seq<Issue>)
    ensures r == [] <==> min <= |s| <= max
    ensures |r| <= 1
    ensures forall i :: 0 <= i < |r| ==> r[i].field == field
    ensures |s| < min ==> r == [Issue(field, short)]
  {
    if |s| < min then [Issue(field, short)]
    else if |s| > max then [Issue(field, TooLong(max))]
    else []
  }

  /** A `.max(max)` string check. */
  function AtMost(field: Field, s: string, max: nat): (r: seq<Issue>)
    ensures r == [] <==> |s| <= max
    ensures forall i :: 0 <= i < |r| ==> r[i].field == field
  {
    if |s| > max then [Issue(field, TooLong(max))] else []
  }

  /** A `.email(message)` check, optionally followed by `.max(max)`; both
      may fail at once. */
  function EmailChecks(s: string, isEmail: string -> bool, message: string, max: Option<nat>): (r: seq<Issue>)
    ensures r == [] <==> isEmail(s) && (max.None? || |s| <= max.value)
    ensures forall i :: 0 <= i < |r| ==> r[i].field == Email
    ensures !isEmail(s) ==> r[0] == Issue(Email, BadEmail(message))
  {
    (if isEmail(s) then [] else [Issue(Email, BadEmail(message))])
    + (if max.Some? && |s| > max.value then [Issue(Email, TooLong(max.value))] else [])
  }

  /** What the toast shows for a rejected form. */
  function Shown(issues: seq<Issue>): (r: Option<Issue>)
    ensures r.None? <==> issues == []
    ensures r.Some? ==> r.value == issues[0]
  {
    if issues == [] then None else Some(issues[0])
  }

  /** JavaScript's `s || null` on a string: the empty string becomes null. */
  function NullIfEmpty(s: string): (r: Option<string>)
    ensures r.None? <==> s == ""
    ensures r.Some? ==> r.value == s
  {
    if s == "" then None else Some(s)
  }

  /** `x || ""` on a nullable string read into a form. */
  function EmptyIfNull(x: Option<string>): (r: string)
    ensures x.Some? ==> r == x.value
    ensures x.None? ==> r == ""
  {
    match x
    case None => ""
    case Some(s) => s
  }

  /** Reading a nullable string into a form and storing it back with
      `|| null` gives back the column, unless it held the empty string. */
  lemma NullableRoundTrip(x: Option<string>)
    requires x != Some("")
    ensures NullIfEmpty(EmptyIfNull(x)) == x
  {
  }

  /** And the other way round: a form string survives storing and reading. */
  lemma FormStringRoundTrip(s: string)
    ensures EmptyIfNull(NullIfEmpty(s)) == s
  {
  }

  /** `parseInt(text) || 0`: a text that does not parse (NaN) and a parsed 0
      both give 0. The parser belongs to the JavaScript runtime and is a
      parameter. */
  function IntOrZero(parse: string -> Option<int>, text: string): (r: int)
    ensures parse(text).None? ==> r == 0
    ensures parse(text).Some? ==> r == parse(text).value
  {
    match parse(text)
    case None => 0
    case Some(n) => n
  }
}
